=== FILE: README.md ===
# web-delivery admin front-end, modelled in Dafny

The web-delivery admin is a React front-end for a small clothing
manufacturer's ERP. It lets staff manage customers, sales, users and the
catalogue: meshes, colours, materials, stock entries, products, sizes and
product variations. It talks to a REST back-end through two HTTP clients:

- `lib/api-client.ts` covers the ERP endpoints. It gates on the token and
  unwraps an `{ success, data, error }` envelope.
- `lib/api.ts` covers the user endpoints. It has no token gate.

Each resource has a state hook (`useCrud`, `useSales`, `useCustomers`,
`useUsers`, `useAuth`). Each has a dialog that validates a form and
creates or updates a record. Each has a management table with a search
box. There is also a dashboard of sale metrics and a badge showing the
API's health.

This project models that core as pure functions over immutable data:

- **HTTP exchanges are parameters.** A `fetch` that settled is a
  `Js.Call`: either `Returned(response)` or `Threw`. What the back-end
  answered is a `Http.Response`.
- **Browser storage is a map.** `localStorage` is a `map<string, string>`.
- **Clocks are parameters.** `Date.now()` and `toISOString()` arrive as
  inputs.

The contracts state what each piece promises. They cover:

- the requests the clients send and how they read responses;
- how each hook's list changes after each outcome;
- what each dialog validates, sends and reports;
- what each table shows and which rows a search keeps.

Modules follow the source files:

- `ErpClient` models `lib/api-client.ts`; `UsersApi` models `lib/api.ts`.
- `CrudHook`, `SalesHook`, `CustomersHook`, `UsersHook` and `AuthHook`
  model the hooks.
- `SaleModal`, `MaterialModal`, `SizeModal`, `ProductModal`, `MeshModal`,
  `ColorModal`, `VariationModal` and `CustomerModal` model the dialogs.
- `CrudScreen`, `CustomerScreen`, `UserScreen`, `SaleScreen`,
  `MaterialInputScreen`, `VariationScreen`, `MaterialScreen`,
  `ProductScreen` and `SizeScreen` model the tables.
- `Dashboard` and `ApiStatus` model the dashboard page and the health
  badge.

Shared vocabulary lives in its own modules:

- `Js`: options, JS values, truthiness, settled calls, storage.
- `Text`: lower-casing, substring search, `trim`, decimal text.
- `Http`: responses and the envelope.
- `ListPatch`: the array operations the hooks use.
- `HookState` and `ListHook`: the loading/error/items state, and the
  pattern the hand-written hooks share.
- `Form`: the submit pattern the dialogs share.
- `Lookup`: the lookup of a name by id that every table does.
- `ManagedScreen`: a table's dialog state.
- `Ui`: badge variants.

## Model

| member | source | states |
|---|---|---|
| ErpClient.Init | lib/api-client.ts:26-31 | a new client starts with the token saved under `erp_token`, if any |
| ErpClient.SetToken | lib/api-client.ts:33-44 | the client keeps the given token; a truthy token is saved under `erp_token`, a missing or empty one removes that key; no other storage key changes |
| ErpClient.GetToken | lib/api-client.ts:46-55 | a held truthy token is returned unchanged; otherwise the stored one is read back and adopted by the client |
| ErpClient.SetThenGetToken | lib/api-client.ts:33-55 | reading the token right after setting a truthy one yields that token |
| ErpClient.Headers | lib/api-client.ts:66-81 | JSON content type and `pt-BR` language always; an `Authorization: Bearer <token>` header exactly when the token is truthy; no other header |
| ErpClient.FailureMessage | lib/api-client.ts:115-139 | the error text of a non-ok response: the first `errors` entry of a JSON body or "Erro HTTP: <status>"; a non-JSON body is itself the message, or the status line when empty; an unreadable or `null` body gives the status line with the status text |
| ErpClient.Interpret | lib/api-client.ts:115-164 | a non-ok response fails with its message; an ok, non-empty JSON body that parses to a value succeeds with exactly that value as its data, and any data in a success comes from such a body; an empty JSON body, a `null` body or a non-JSON content type succeeds without data; an unparsable JSON body fails as an invalid response and an unreadable one as a connection error; the envelope is always well formed |
| ErpClient.Send | lib/api-client.ts:83-171 | without a token, nothing but the login endpoint is sent and the call fails with the missing-token message; a sent request carries every caller header, and every default header the caller does not override (the bearer credential included), and no other header; a rejected fetch fails as a connection error |
| ErpClient.Collection | lib/api-client.ts:183-394 | every resource's collection path is absolute and is not the login route; exactly the sale resource has the lower-case `/sale` |
| ErpClient.CollectionsDistinct | lib/api-client.ts:183-394 | two different resources never share a collection path |
| ErpClient.Member | lib/api-client.ts:194-394 | a record's path is its collection path, a slash and the id |
| ErpClient.RouteOf | lib/api-client.ts:175-394 | login and create are POSTs, listing a GET, update a PUT and delete a DELETE; update and delete address the record, list and create the collection; only login, create and update carry a body |
| ErpClient.OnlyLoginWithoutToken | lib/api-client.ts:86-93 | with no token anywhere, only the login operation reaches the network |
| UsersApi.Init | lib/api.ts:13-20 | the base URL defaults to the empty string; the token is read from storage |
| UsersApi.SetToken | lib/api.ts:22-31 | same storage contract as the ERP client: a truthy token is saved, a falsy one removes the key, other keys are kept |
| UsersApi.Headers | lib/api.ts:33-43 | JSON content type always, a bearer header exactly when the token is truthy, and no language header |
| UsersApi.FailureMessage | lib/api.ts:60-77 | a JSON error body yields its first `errors` entry or the status line; any other body, `null` included, yields the status line |
| UsersApi.Interpret | lib/api.ts:60-93 | a non-ok response fails with its message; an ok, non-empty JSON body that parses to a value succeeds with exactly that value; an empty or `null` JSON body or a non-JSON content type succeeds without data; an unparsable or unreadable JSON body fails as a connection error |
| UsersApi.AgreesWithErpClient | lib/api.ts:45-101 | the two clients agree on success and data for every response; on a failed response with an empty or object body they give the same message |
| UsersApi.Send | lib/api.ts:45-101 | a request whose body cannot be serialised fails before sending; otherwise it is sent with every caller header and every default header the caller does not override, and no other; a rejected fetch fails as a connection error |
| UsersApi.NoTokenGate | lib/api.ts:45-101 | without a token the users client still sends the request, with no authorisation header |
| UsersApi.BodyOf | lib/api.ts:127-147 | a falsy payload sends no body; a truthy one sends its JSON text |
| UsersApi.RouteOf | lib/api.ts:104-147 | each users operation maps to its path and verb; post and put carry a body exactly when the data is truthy |
| Config.FormatApiError | lib/config.ts:33-40 | a string error is itself; an error list gives its first entry when that is truthy, else the default; otherwise the `message` or the default |
| Config.FormatNonEmpty | lib/config.ts:33-40 | the formatted text is empty only for the empty string error |
| Config.ErrorListShadowsMessage | lib/config.ts:33-40 | when an error list is present, the `message` field never matters |
| Http.ParseBody | lib/api-client.ts:142-164 | an empty body is never parsed as JSON; a non-empty one parses to what the server sent |
| Http.FirstErrorOr | lib/api-client.ts:125-126 | the first entry of a non-empty `errors` array, else the fallback |
| HookState.Initial | hooks/use-crud.tsx:24-26 | a fresh hook holds no items, is not loading and shows no error |
| HookState.Begin | hooks/use-crud.tsx:28-32 | an operation starts loading and clears the error without touching the items |
| CrudHook.Fetch | hooks/use-crud.tsx:28-51 | a success with data replaces the items; any failure empties them and shows the envelope's error, the load default or the unexpected-error text; loading ends either way |
| CrudHook.FetchForgetsPrior | hooks/use-crud.tsx:28-51 | what a fetch leaves does not depend on the state before it |
| CrudHook.FetchConsistent | hooks/use-crud.tsx:28-51 | after a fetch, an error is never shown beside items |
| CrudHook.Mutate | hooks/use-crud.tsx:53-84 | create, update and remove return the API's result and refetch exactly once after a success, never after a failure |
| CrudHook.MutationShowsServerList | hooks/use-crud.tsx:53-84 | after a successful mutation the list is the server's list |
| ListHook.FailureOf | hooks/use-sales.tsx:27-54 | a failed call's message is never empty: the connection text for a thrown call, else the envelope error or the default |
| ListHook.Finish | hooks/use-sales.tsx:56-86 | an operation's result reports exactly what its state shows |
| ListHook.FetchMapped | hooks/use-sales.tsx:27-54 | a list success maps each record in order; a failure empties the list and shows the message |
| ListHook.Created | hooks/use-sales.tsx:56-86 | a success with data appends exactly the converted record; a failure keeps the list |
| ListHook.Updated | hooks/use-sales.tsx:88-118 | a success replaces every element with the id and leaves the others; the length never changes |
| ListHook.Removed | hooks/use-sales.tsx:120-145 | a success drops every element with the id and keeps every other one, with all its copies, in order; a failure keeps the list and records the error |
| ListHook.RemoveTwice | hooks/use-sales.tsx:120-145 | removing the same id twice leaves what removing once left |
| ListPatch.Filter | components/common/crud-management.tsx:56-64 | `filter` returns a subsequence of its input holding only passing elements, and every passing element appears in it |
| ListPatch.FilterCounts | components/common/crud-management.tsx:56-64 | `filter` keeps every copy of a passing element and no copy of a failing one, so with the subsequence clause it keeps exactly the passing elements, in order |
| ListPatch.FilterIdempotent | components/common/crud-management.tsx:56-64 | filtering twice with one test equals filtering once |
| ListPatch.FilterPartition | hooks/use-sales.tsx:120-145 | a test and its negation split the list between them |
| ListPatch.FilterAppend | components/common/crud-management.tsx:56-64 | filtering a concatenation filters each part |
| ListPatch.MapWhere | hooks/use-sales.tsx:88-118 | the `map` that replaces matching elements changes exactly those |
| ListPatch.Find | hooks/use-users.tsx:183-208 | `find` yields the first matching element, or nothing when none matches |
| SalesHook.MapSaleResponse | hooks/use-sales.tsx:12-25 | the scalar fields of a sale response are kept and the nested references dropped |
| SalesHook.MapSaleResponseRoundTrip | hooks/use-sales.tsx:12-25 | a response without nested references is recovered from its sale |
| SalesHook.Fetch | hooks/use-sales.tsx:27-54 | a success yields the mapped list, element by element; a failure empties it with the load message |
| SalesHook.Create | hooks/use-sales.tsx:56-86 | a success appends the mapped sale; a failure keeps the list and reports the create message |
| SalesHook.Update | hooks/use-sales.tsx:88-118 | a success replaces the sales with the id; a failure keeps the list |
| SalesHook.Remove | hooks/use-sales.tsx:120-145 | a success removes exactly the sales with the id: every other sale stays, with all its copies, in its order, and nothing is added; a failure keeps the list and records the error |
| SalesHook.CreateThenRemove | hooks/use-sales.tsx:56-145 | creating a sale with a fresh id and then deleting it restores the earlier list |
| CustomersHook.MapCustomerResponse | hooks/use-customers.tsx:12-19 | id, name, email, phone and timestamps are kept; cpf, address and date of birth are dropped |
| CustomersHook.MapForgetsPersonalData | hooks/use-customers.tsx:12-19 | responses that differ only in cpf, address or birth date map to the same customer |
| CustomersHook.FirstArray | hooks/use-customers.tsx:37-58 | the first property in the given order that holds an array wins; none yields nothing (`Unwrap` tries `customers`, then `data`, then `items`) |
| CustomersHook.Unwrap | hooks/use-customers.tsx:37-58 | an array body is the list; a wrapped body yields its first array property or the empty list |
| CustomersHook.Fetch | hooks/use-customers.tsx:21-78 | any success fills the list from the unwrapped body; a failure empties it with the load message |
| CustomersHook.Create | hooks/use-customers.tsx:80-107 | a success appends the mapped customer; a failure keeps the list |
| CustomersHook.Update | hooks/use-customers.tsx:109-139 | a success replaces the customers with the id; a failure keeps the list |
| CustomersHook.Delete | hooks/use-customers.tsx:141-165 | a success removes exactly the customers with the id: every other customer stays, with all its copies, in its order, and nothing is added; a failure keeps the list and records the error |
| CustomersHook.LoadedCustomersHaveNoCpf | hooks/use-customers.tsx:12-78 | no loaded customer has a cpf, whatever the server sent |
| AuthHook.Mounting | hooks/use-auth.tsx:18-19 | before the saved session is restored, nobody is signed in and loading is on |
| AuthHook.Restore | hooks/use-auth.tsx:21-32 | a saved user is restored only together with a saved token; loading ends either way |
| AuthHook.Login | hooks/use-auth.tsx:34-59 | sign-in succeeds exactly when the envelope succeeded with a token and a user name; it then saves user and token; a failure leaves the state and reports the error, the invalid-credentials text or the connection text |
| AuthHook.Logout | hooks/use-auth.tsx:61-66 | sign-out forgets the user and the token in memory and in storage, and keeps other storage keys |
| AuthHook.LoginSurvivesReload | hooks/use-auth.tsx:21-59 | after an accepted login, a reload restores the same session |
| AuthHook.LogoutSticks | hooks/use-auth.tsx:61-66 | after sign-out, no endpoint but login is sent |
| UserTypes.MapApiUserToUser | types/user.ts:46-56 | the given id or the timestamp becomes the id; the user name, or a default, names the user; the e-mail is built from the user name; the role defaults; the status is active |
| UserTypes.MapUserToApiUser | types/user.ts:59-64 | the update request carries the user name and role |
| UserTypes.ApiUserRoundTrip | types/user.ts:46-64 | mapping a user with a name and a role to the front-end and back gives back that name and role |
| UserTypes.UpdateRequestIgnoresOtherFields | types/user.ts:59-64 | users that agree on name and role give the same request |
| UsersHook.Initial | hooks/use-users.tsx:41-43 | no users, not loading, API assumed available |
| UsersHook.FetchUsers | hooks/use-users.tsx:51-78 | a success maps the users with `api-<index>` ids; any failure marks the API unavailable and shows the sample users |
| UsersHook.FetchedIdsDistinct | hooks/use-users.tsx:51-78 | users loaded from the API have pairwise distinct ids |
| UsersHook.CreateRequestOf | hooks/use-users.tsx:84-88 | empty form fields are sent as absent, the others unchanged |
| UsersHook.LocalUser | hooks/use-users.tsx:108-116 | the offline user has a timestamp id, a built e-mail, the default role when none is given, and active status |
| UsersHook.CreateUser | hooks/use-users.tsx:80-127 | an API success appends the mapped user; with the API down the local user is appended; otherwise the list is kept and an error is raised |
| UsersHook.Merge | hooks/use-users.tsx:143 | an offline edit takes each of the seven fields from the patch when it gives one, and from the user otherwise |
| UsersHook.MergeEmpty | hooks/use-users.tsx:143 | an empty patch changes nothing |
| UsersHook.UpdateRequestOf | hooks/use-users.tsx:133-136 | only truthy name and role are sent |
| UsersHook.UpdateUser | hooks/use-users.tsx:129-161 | the update completes when the API succeeded or is known to be down; then the users with the id are patched; otherwise an error is raised and nothing changes |
| UsersHook.DeleteUser | hooks/use-users.tsx:163-181 | every user with the id is removed; every other user stays, with all its copies, in order, and nothing is added |
| UsersHook.DeleteUserTwice | hooks/use-users.tsx:163-181 | deleting the same id a second time changes nothing |
| UsersHook.GetUserById | hooks/use-users.tsx:183-208 | the API's user when the call succeeded; otherwise the first local user with the id |
| UsersHook.OfflineCreateExtendsSamples | hooks/use-users.tsx:51-127 | with the API down, a created user is appended after the sample users |
| UsersHook.SyncToken | hooks/use-users.tsx:44-49 | as written, whatever the session, the effect clears the users client's token and removes its `token` storage key, and no other storage key changes |
| UsersHook.SyncTokenDropsSession | hooks/use-users.tsx:44-49 | even for a signed-in user, the sync clears the users client token and its stored copy |
| UsersHook.SessionToken | hooks/use-auth.tsx:38-51 | the session's token is present exactly when a user is signed in |
| UsersHook.SyncSessionToken | hooks/use-users.tsx:44-49 | the corrected sync sets the users client token to the session's token and keeps other storage keys |
| UsersHook.SessionTokenReachesRequests | hooks/use-users.tsx:44-49 | after the corrected sync, a signed-in user's requests carry their bearer token |
| Form.FirstFailure | components/sales/sale-modal.tsx:83-111 | the checks run in order; the first that fails gives the message, and none failing gives none |
| Form.FirstFailureAt | components/sales/sale-modal.tsx:83-111 | when check i fails and all before it pass, its message is reported |
| Form.Submit | components/sales/sale-modal.tsx:79-146 | an invalid form sends nothing and shows the message; a valid one sends an update when editing, else a create; the dialog succeeds exactly on a successful result and otherwise shows the error, the fallback or the unexpected text |
| SaleModal.DatePart | components/sales/sale-modal.tsx:50-75 | `split("T")[0]`: the longest prefix of the ISO timestamp without a `T`, so it ends at the first `T` or at the end of the text |
| SaleModal.Open | components/sales/sale-modal.tsx:50-75 | an edit copies the sale's fields; a new sale starts empty with status pending and today's date; the date never holds a `T` |
| SaleModal.Validate | components/sales/sale-modal.tsx:83-111 | a sale passes exactly with a customer, a variation, a positive quantity and value, and a discount in `[0, value)`; a passing sale has a positive total |
| SaleModal.ValidateOrder | components/sales/sale-modal.tsx:83-111 | the six messages are reported in the source's order |
| SaleModal.Payload | components/sales/sale-modal.tsx:114-127 | an empty sku is sent as absent; the user falls back to the session's; the other fields are copied |
| SaleModal.Submit | components/sales/sale-modal.tsx:79-146 | a valid sale sends its payload, as an update of the edited sale or a create; success exactly when the result succeeded |
| MaterialModal.Open | components/materials/material-modal.tsx:43-60 | an edit copies the material; a new one starts empty with inside 1 |
| MaterialModal.Validate | components/materials/material-modal.tsx:68-81 | a material passes exactly with a mesh, a colour and a positive inside count |
| MaterialModal.ValidateOrder | components/materials/material-modal.tsx:68-81 | the three messages come in the source's order |
| MaterialModal.NameNeverRequired | components/materials/material-modal.tsx:68-81 | name and supplier never affect validation |
| MaterialModal.Payload | components/materials/material-modal.tsx:84-92 | name and supplier are trimmed, and blank ones are sent as absent |
| MaterialModal.Submit | components/materials/material-modal.tsx:64-107 | a valid material sends its payload, as an update or a create; success exactly when the result succeeded |
| SizeModal.Open | components/sizes/size-modal.tsx:43-64 | an edit copies the size; a new one starts empty with zero measures |
| SizeModal.Validate | components/sizes/size-modal.tsx:70-78 | a size passes exactly with a non-blank name and a mesh |
| SizeModal.ValidateOrder | components/sizes/size-modal.tsx:70-78 | the name message comes before the mesh message |
| SizeModal.MeasurementsUnchecked | components/sizes/size-modal.tsx:66-96 | weight, width, height and length never affect validation |
| SizeModal.Submit | components/sizes/size-modal.tsx:66-101 | a valid size sends the form as is, as an update or a create; success exactly when the result succeeded |
| ProductModal.Open | components/products/product-modal.tsx:43-60 | an edit copies the product; a new one starts empty and not a set |
| ProductModal.Validate | components/products/product-modal.tsx:66-74 | a product passes exactly with a non-blank name and a material |
| ProductModal.ValidateOrder | components/products/product-modal.tsx:66-74 | the name message comes before the material message |
| ProductModal.Payload | components/products/product-modal.tsx:81-86 | the form is sent with an empty `cod` |
| ProductModal.Submit | components/products/product-modal.tsx:62-100 | a valid product sends its payload with an empty `cod`, as an update or a create; success exactly when the result succeeded |
| MeshModal.Open | components/meshes/mesh-modal.tsx:38-49 | an edit copies name and composition; a new mesh starts empty |
| MeshModal.Validate | components/meshes/mesh-modal.tsx:57-65 | a mesh passes exactly with a non-blank name and composition |
| MeshModal.ValidateOrder | components/meshes/mesh-modal.tsx:57-65 | the name message comes before the composition message |
| MeshModal.Submit | components/meshes/mesh-modal.tsx:53-83 | a valid mesh sends the form, as an update or a create; success exactly when the result succeeded |
| ColorModal.Open | components/colors/color-modal.tsx:38-51 | an edit copies name and description; a new colour starts empty |
| ColorModal.Validate | components/colors/color-modal.tsx:57-60 | a colour passes exactly with a non-blank name |
| ColorModal.DescriptionUnchecked | components/colors/color-modal.tsx:57-60 | the description never affects validation |
| ColorModal.Submit | components/colors/color-modal.tsx:53-78 | a blank name sends nothing and shows the name message; otherwise the form is sent, as an update or a create |
| VariationModal.Open | components/product-variations/product-variation-modal.tsx:55-77 | an edit copies the variation; a new one starts empty, enabled, with gender male |
| VariationModal.GenderOptions | components/product-variations/product-variation-modal.tsx:229-235 | one option per gender number, labelled with its gender |
| VariationModal.OptionsAreTheGenders | components/product-variations/product-variation-modal.tsx:229-235 | the options offer exactly the valid genders, and none reads "Desconhecido" |
| VariationModal.Validate | components/product-variations/product-variation-modal.tsx:86-99 | a variation passes exactly with a non-blank name, a product and a size |
| VariationModal.ValidateOrder | components/product-variations/product-variation-modal.tsx:86-99 | name, product and size messages come in that order |
| VariationModal.Submit | components/product-variations/product-variation-modal.tsx:82-122 | a valid variation sends the form, as an update or a create; success exactly when the result succeeded |
| CustomerModal.AddressFields | components/customers/customer-modal.tsx:48-83 | the six address inputs are filled from the address, or all empty without one |
| CustomerModal.Open | components/customers/customer-modal.tsx:48-83 | the form has every input; an edit copies the customer and its address; a new one starts with every field and all six address inputs empty |
| CustomerModal.HandleInputChange | components/customers/customer-modal.tsx:121-137 | an `address.`-prefixed input writes that address field, any other writes the top-level field; the form stays complete |
| CustomerModal.EditsKeepFormComplete | components/customers/customer-modal.tsx:48-137 | any sequence of edits on an opened form leaves every input present |
| CustomerModal.ApplyEditsComplete | components/customers/customer-modal.tsx:121-137 | edits keep a complete form complete |
| CustomerModal.Validate | components/customers/customer-modal.tsx:89-92 | a customer passes exactly when the name is not empty |
| CustomerModal.BlankNameAccepted | components/customers/customer-modal.tsx:89-92 | a name of spaces alone passes, since the check does not trim |
| CustomerModal.Payload | components/customers/customer-modal.tsx:95-102 | name, e-mail, cpf, phone and address are copied; an empty birth date is sent as absent |
| CustomerModal.OpenThenSaveRoundTrip | components/customers/customer-modal.tsx:48-102 | opening a customer and saving without edits sends back its fields |
| CustomerModal.Submit | components/customers/customer-modal.tsx:85-119 | an empty name sends nothing; otherwise the payload is sent, as an update or a create; success exactly when the result succeeded |
| CrudScreen.Field | components/common/crud-management.tsx:59-63 | a missing field reads as undefined |
| CrudScreen.AnyFieldMatches | components/common/crud-management.tsx:59-63 | a row matches when some searched field is truthy and its text contains the term, ignoring case |
| CrudScreen.Filtered | components/common/crud-management.tsx:56-64 | an empty term shows every row; otherwise exactly the matching rows, each with all its copies, in order |
| CrudScreen.FalsyNeverMatches | components/common/crud-management.tsx:59-63 | a row whose searched fields are all falsy never matches a non-empty term |
| CrudScreen.FilterStable | components/common/crud-management.tsx:56-64 | searching the search result again changes nothing |
| CrudScreen.CountBadge | components/common/crud-management.tsx:107 | the badge shows the number of rows shown followed by "itens" |
| CrudScreen.EmptyMessage | components/common/crud-management.tsx:134-137 | a message appears only when no row is shown; it says there are no items when the list is empty, else that the search found nothing |
| CustomerScreen.FieldAsWritten | components/customers/customer-management.tsx:25-31 | lower-casing a missing field throws; a present one is searched ignoring case |
| CustomerScreen.MatchesAsWritten | components/customers/customer-management.tsx:25-31 | the filter test short-circuits in the order name, e-mail, cpf, phone and throws on the first missing field it reaches |
| CustomerScreen.FilterAsWritten | components/customers/customer-management.tsx:25-31 | the whole filter throws exactly when the test throws on some customer |
| CustomerScreen.LoadedCustomerBreaksSearch | components/customers/customer-management.tsx:25-31 | a customer as loaded by the hook throws once the term misses name and e-mail |
| CustomerScreen.Filter | components/customers/customer-management.tsx:25-31 | the corrected filter skips missing fields and keeps exactly the customers with a matching field, each with all its copies, in order |
| CustomerScreen.MatchesAgrees | components/customers/customer-management.tsx:25-31 | wherever the original test returns, it agrees with the corrected one |
| CustomerScreen.FilterAgrees | components/customers/customer-management.tsx:25-31 | wherever the original filter returns, it equals the corrected filter |
| CustomerScreen.EmptyMessage | components/customers/customer-management.tsx:170-173 | with a term the table says none was found, without one that none is registered |
| CustomerScreen.FirstDigitRun | components/customers/customer-management.tsx:56-59 | finds the first place where the pattern's run of digits starts, or reports none |
| CustomerScreen.FormatCpf | components/customers/customer-management.tsx:56-59 | an empty cpf stays empty; the first run of eleven digits is grouped as `000.000.000-00` and the text around it kept, so eleven digits alone are grouped and text with a longer run has only its first eleven grouped; text without such a run is unchanged |
| CustomerScreen.CpfKeepsDigits | components/customers/customer-management.tsx:56-59 | formatting a cpf of exactly eleven digits only adds punctuation: its digits are the input |
| CustomerScreen.FormatPhone | components/customers/customer-management.tsx:61-69 | ten or eleven digits are grouped as `(00) 0000-0000` or `(00) 00000-0000`; anything else is unchanged |
| CustomerScreen.PhoneKeepsDigits | components/customers/customer-management.tsx:61-69 | formatting a phone of exactly ten or eleven digits only adds punctuation: its digits are the input |
| UserScreen.Filtered | components/users/user-management.tsx:43-48 | the users whose name, user name or e-mail contains the term, ignoring case, each with all its copies, in order |
| UserScreen.EmptyTermShowsAll | components/users/user-management.tsx:43-48 | an empty term lists every user |
| UserScreen.OpenDialog | components/users/user-management.tsx:50-68 | an edit copies user name and role; a new user starts empty with the default role; the password always starts empty |
| UserScreen.Validate | components/users/user-management.tsx:80-88 | a user name is always needed, and a password only when creating |
| UserScreen.EditPatch | components/users/user-management.tsx:91-96 | an edit sends only user name and role |
| UserScreen.Submit | components/users/user-management.tsx:76-110 | an invalid form reports its message; a valid one updates or creates; the dialog closes exactly when there is no error; when the hook raises, the dialog shows the API's error, else the update or create failure text, and after a thrown call the generic save-failure text |
| UserScreen.EditIgnoresPassword | components/users/user-management.tsx:91-96 | when editing, the password typed makes no difference |
| UserScreen.RoleLabel | components/users/user-management.tsx:133-142 | admin reads "Administrador", manager "Gerente", any other role "Usuário" |
| UserScreen.RoleBadge | components/users/user-management.tsx:122-131 | admin is destructive, manager default and any other role secondary |
| UserScreen.LabelDeterminesBadge | components/users/user-management.tsx:122-142 | roles with the same label get the same badge |
| SaleTypes.StatusLabel | types/sale.ts:85-100 | the five statuses have their labels and any other number reads "Desconhecido" |
| SaleTypes.StatusLabelsDistinct | types/sale.ts:85-100 | distinct statuses have distinct labels |
| SaleTypes.StatusVariant | types/sale.ts:103-118 | cancelled is destructive, shipped outline, confirmed and delivered default, pending and unknown secondary |
| SaleTypes.PendingBadgeLikeUnknown | types/sale.ts:85-118 | an unknown status has pending's colour but not its label |
| VariationTypes.GenderLabel | types/product-variation.ts:47-60 | the four genders have their labels and any other number reads "Desconhecido" |
| VariationTypes.GenderLabelsDistinct | types/product-variation.ts:47-60 | distinct genders have distinct labels |
| VariationTypes.GendersAreTheEnum | types/product-variation.ts:39-45 | the gender list holds exactly the valid numbers, without repeats |
| Ui.YesNo | components/product-variations/product-variation-management.tsx:60-94 | "Sim" for true and "Não" for false |
| Ui.Flag | components/product-variations/product-variation-management.tsx:60-94 | a true flag is a default "Sim" badge and a false one a secondary "Não" badge |
| Ui.WithUnit | components/sales/sale-management.tsx:64 | the number's decimal text followed by the unit; the text reads back as the number |
| Lookup.NameOr | app/dashboard/page.tsx:56-59 | the first entry with the id gives its name; no such entry, or a missing or empty name, gives the fallback |
| Lookup.FirstMatchWins | app/dashboard/page.tsx:56-59 | when several entries share an id, the first decides |
| Lookup.CustomerName | components/sales/sale-management.tsx:26-32 | the name of the first customer with the id when it is not empty, otherwise "Cliente não encontrado"; an unknown id shows "Cliente não encontrado" |
| Dashboard.Revenue | app/dashboard/page.tsx:39-53 | the sum of value minus discount is not negative when no discount exceeds its value, and is positive for a non-empty list whose every discount is below its value |
| Dashboard.RevenueAppend | app/dashboard/page.tsx:39-53 | the revenue of two lists joined is the sum of their revenues |
| Dashboard.CountStatus | app/dashboard/page.tsx:39-53 | the number of sales with the status, zero exactly when none has it |
| Dashboard.CountAppend | app/dashboard/page.tsx:39-53 | counts add up over concatenation |
| Dashboard.DistinctCountsWithinTotal | app/dashboard/page.tsx:39-53 | the counts of two different statuses never exceed the number of sales |
| Dashboard.Recompute | app/dashboard/page.tsx:39-53 | an empty list keeps the previous figures; otherwise total, revenue, pending and delivered are taken from the list |
| Dashboard.EmptyListKeepsStaleMetrics | app/dashboard/page.tsx:39-53 | emptying the list after a load leaves the old non-zero total |
| Dashboard.AcceptedSalesMetrics | app/dashboard/page.tsx:39-53 | when every sale of a non-empty list passed the dialog's checks, the revenue is positive and no sale counts as both pending and delivered |
| Dashboard.FormatSaleId | app/dashboard/page.tsx:62-65 | the first eight characters of the id |
| Dashboard.FormatSaleIdFacts | app/dashboard/page.tsx:62-65 | shortening is idempotent, short ids are unchanged, and equal shortened ids share their first eight characters |
| Dashboard.Row | app/dashboard/page.tsx:171-190 | a recent-sale line: the id shortened by `FormatSaleId`, the customer's name, value minus discount, and the status label and colour |
| Dashboard.Recent | app/dashboard/page.tsx:171-190 | the first five sales, in list order |
| Dashboard.UnknownCustomerRow | app/dashboard/page.tsx:56-59 | a sale of an unknown customer shows "Cliente não encontrado" |
| ManagedScreen.Add | components/sales/sale-management.tsx:95-98 | the dialog opens on an empty form |
| ManagedScreen.Edit | components/sales/sale-management.tsx:100-103 | the dialog opens on the record |
| ManagedScreen.Close | components/sales/sale-management.tsx:117-120 | the dialog closes and forgets its record |
| ManagedScreen.Success | components/material-inputs/material-input-management.tsx:81-89 | the dialog closes and the list shows what the refetch returned, or its error |
| ManagedScreen.CancelForgetsDialog | components/sales/sale-management.tsx:95-120 | cancelling an add or an edit leaves the screen as closing it would |
| ManagedScreen.SuccessForgetsHistory | components/material-inputs/material-input-management.tsx:86-89 | after a save, the screen depends only on the refetch |
| SaleScreen.VariationName | components/sales/sale-management.tsx:34-40 | the name of the first variation with the id when it is not empty, otherwise "Variação não encontrada"; an unknown id shows "Variação não encontrada" |
| SaleScreen.Row | components/sales/sale-management.tsx:49-93 | a sale line: customer and variation names, quantity with " item(s)", value minus discount, and the status label and colour |
| SaleScreen.Rows | components/sales/sale-management.tsx:49-93 | one line per sale, in order |
| SaleScreen.TotalsAddUpToRevenue | components/sales/sale-management.tsx:79 | the total column adds up to the dashboard's revenue |
| SaleScreen.AsRecord | components/sales/sale-management.tsx:135 | the sale as the table searches it; a missing sku is null |
| SaleScreen.SearchBySku | components/sales/sale-management.tsx:135 | a sale matches exactly when it has a non-empty sku containing the term |
| SaleScreen.SearchListsBySku | components/sales/sale-management.tsx:135 | for a non-empty term, a sale is listed exactly when its sku contains it |
| SaleScreen.Success | components/sales/sale-management.tsx:117-125 | the dialog closes and the sales hook reloads |
| MaterialInputScreen.MaterialName | components/material-inputs/material-input-management.tsx:20-26 | the name of the first material with the id when it is not empty, otherwise "Material não encontrado"; an unknown id shows "Material não encontrado" |
| MaterialInputScreen.MaterialColumn | components/material-inputs/material-input-management.tsx:39-45 | a non-empty embedded material name wins over the lookup |
| MaterialInputScreen.EmbeddedNameWins | components/material-inputs/material-input-management.tsx:39-45 | an entry with an embedded name shows it whatever materials are loaded |
| MaterialInputScreen.UnknownMaterial | components/material-inputs/material-input-management.tsx:20-45 | without an embedded name, an unknown id shows the fallback |
| MaterialInputScreen.MetersColumn | components/material-inputs/material-input-management.tsx:50 | the meters followed by " m" |
| MaterialInputScreen.AsRecord | components/material-inputs/material-input-management.tsx:105 | the entry as the table searches it |
| MaterialInputScreen.SearchByMaterialId | components/material-inputs/material-input-management.tsx:105 | an entry matches exactly when its material id contains the term |
| VariationScreen.ProductName | components/product-variations/product-variation-management.tsx:26-33 | the name of the first product with the id when it is not empty, otherwise "Produto não encontrado"; an unknown id shows "Produto não encontrado" |
| VariationScreen.SizeName | components/product-variations/product-variation-management.tsx:34-40 | the name of the first size with the id when it is not empty, otherwise "Tamanho não encontrado"; an unknown id shows "Tamanho não encontrado" |
| VariationScreen.Row | components/product-variations/product-variation-management.tsx:60-94 | a variation line: name, product, size, gender label, and for each of the four flags the yes/no badge of that flag |
| VariationScreen.GenderColumnKnown | components/product-variations/product-variation-management.tsx:60-94 | the gender column reads "Desconhecido" exactly for an invalid gender |
| VariationScreen.AsRecord | components/product-variations/product-variation-management.tsx:143 | the variation as the table searches it; the gender is a number |
| VariationScreen.SearchByNameOrGender | components/product-variations/product-variation-management.tsx:143 | a variation matches on its name or the decimal text of its gender number |
| VariationScreen.GenderFoundByNumber | components/product-variations/product-variation-management.tsx:143 | searching a gender's number finds every variation of that gender |
| VariationScreen.GenderLabelNotSearchable | components/product-variations/product-variation-management.tsx:60-143 | searching for the gender label shown misses a variation whose name lacks it |
| MaterialScreen.MeshName | components/materials/material-management.tsx:24-31 | the name of the first mesh with the id when it is not empty, otherwise "Malha não encontrada"; an unknown id shows "Malha não encontrada" |
| MaterialScreen.ColorName | components/materials/material-management.tsx:32-38 | the name of the first colour with the id when it is not empty, otherwise "Cor não encontrada"; an unknown id shows "Cor não encontrada" |
| MaterialScreen.AsRecord | components/materials/material-management.tsx:106 | the material as the table searches it; a missing name or supplier is null |
| MaterialScreen.SearchByNameOrSupplier | components/materials/material-management.tsx:106 | a material matches on a present name or supplier containing the term |
| ProductScreen.MaterialName | components/products/product-management.tsx:22-28 | the name of the first material with the id when it is not empty, otherwise "N/A"; an unknown id shows "N/A" |
| ProductScreen.SetBadge | components/products/product-management.tsx:37 | a set is a default "Sim" badge, otherwise a secondary "Não" badge |
| ProductScreen.AsRecord | components/products/product-management.tsx:93 | the product as the table searches it |
| ProductScreen.SearchByNameOrDescription | components/products/product-management.tsx:93 | a product matches on its name or description |
| SizeScreen.MeshName | components/sizes/size-management.tsx:21-27 | the name of the first mesh with the id when it is not empty, otherwise "N/A"; an unknown id shows "N/A" |
| SizeScreen.AsRecord | components/sizes/size-management.tsx:87 | the size as the table searches it |
| SizeScreen.SearchByName | components/sizes/size-management.tsx:87 | a size matches on its name alone |
| ApiStatus.Checked | components/ui/api-status.tsx:12-24 | once the health check settles, the API is connected exactly when the response was ok; the network flag is untouched |
| ApiStatus.NetworkChanged | components/ui/api-status.tsx:33-34 | the browser's online and offline events set the network flag alone |
| ApiStatus.StatusInfo | components/ui/api-status.tsx:47-78 | offline overrides everything; online, connected is the default "API Conectada", disconnected "Modo Offline" and checking "Verificando..." |
| ApiStatus.OfflineOverrides | components/ui/api-status.tsx:47-54 | offline, the badge ignores the API status |
| ApiStatus.OnlineTextsDistinct | components/ui/api-status.tsx:55-78 | online, the three API states have different texts, none of them "Offline" |
| ApiStatus.CheckingOnlyBeforeFirstCheck | components/ui/api-status.tsx:12-24 | once a check has settled, "Verificando..." is never shown |

## Left out

- Rendering is not modelled: JSX layout, icons, toasts, skeletons and CSS.
  Each table's columns are modelled only as far as their text and badge.
- Effect scheduling is not modelled. `useEffect` dependencies, re-renders
  and the order of concurrent requests are left out. Each operation is
  modelled once its awaited calls have settled, with their outcomes as
  parameters.
- The health check's `setInterval` (every 30 seconds) and its request
  timeout are timing only. `ApiStatus.Checked` models one settled check.
- The size screen loads its meshes once on mount. That is an effect; only
  the lookup over the loaded list is modelled.
- Date and currency formatting (`toLocaleDateString`, `Intl.NumberFormat`)
  come from the host platform. Dates are passed through as strings and
  amounts as integers.
- `JSON.stringify` and `JSON.parse` are abstracted. A body that is not
  valid JSON is a `NotJson` value. The users client's serialisation
  failure is a boolean parameter of `UsersApi.Send`.
- Form inputs hold integers. The sale dialog's value and discount inputs
  accept fractions (step 0.01), which are not modelled, and `Number()` of
  bad text (NaN) is not either, so the `<= 0` checks see only integers.
  The revenue facts are stated so that they hold for fractional amounts
  too: a non-empty list of accepted sales has a positive revenue.
- Lower-casing and `trim` are modelled on ASCII letters and the JavaScript
  white-space set. Full Unicode case mapping is not modelled.
- Strings are sequences of Unicode scalar values, not of UTF-16 code
  units as in JavaScript. Lengths and slices (the eight-character sale id,
  the 10- and 11-digit phone) therefore differ from the client's only on
  characters outside the Basic Multilingual Plane.
- `console.log` calls and the logging around requests are not modelled.
- `Dashboard.FormatSaleId`: a numeric id is not modelled. Only the string
  branch is, because every id the hooks produce is a string.
- CustomerModal.HandleInputChange: requires the field name not to be
  exactly `address`. The source would overwrite the address object with a
  string there, and no input of the dialog is named so.
- SaleScreen.Success: states the reloaded list's length and the error
  condition, not each element. `SalesHook.Fetch` states the element-wise
  mapping.
- The login page and the layout's navigation are outside the modelled
  core. They only call `AuthHook.Login` and `AuthHook.Logout`.
- The hooks for meshes, colours, sizes, materials, stock entries, products
  and variations are thin `useCrud` wrappers. `CrudHook` models them all.

## Findings

| source | as written | input that shows it | evidently intended | confidence | as-written member | corrected member |
|---|---|---|---|---|---|---|
| components/customers/customer-management.tsx:25-31 | the search calls `toLowerCase` on the cpf and phone of every customer, but the hook's mapping (hooks/use-customers.tsx:12-19) never sets the cpf | any loaded customer and a term contained in neither name nor e-mail, e.g. the term "zz" against name "Ana", e-mail "a@b.c": reading the missing cpf throws a TypeError and the table fails to render | skip missing fields, so the search keeps exactly the customers with a field containing the term | high; not executed | CustomerScreen.LoadedCustomerBreaksSearch | CustomerScreen.FilterAgrees |
| hooks/use-users.tsx:44-49 | the hook reads `token` from the auth context, but the context (hooks/use-auth.tsx:7-13) has no such field | any signed-in user: the effect calls `setToken(undefined)`, which clears the users client token and removes the users client's `token` key from storage | pass the signed-in user's token to the users client | high; not executed | UsersHook.SyncTokenDropsSession | UsersHook.SessionTokenReachesRequests |

=== FILE: api_client.dfy ===
/** The main API client (lib/api-client.ts): bearer-token bookkeeping backed
    by browser storage, a client-side gate that refuses to send anything but
    the login request without a token, header construction, the endpoint
    table, and the normalisation of every HTTP outcome into an envelope. */
module ErpClient {
  import opened Js
  import opened Http
  import Text

  const BaseUrl := "https://4e706072e4bf.ngrok-free.app"
  const TokenKey := "erp_token"
  const LoginEndpoint := "/Login"
  const MissingToken := "Token de autenticação não encontrado. Faça login novamente."
  const InvalidResponse := "Resposta inválida do servidor"

  /** The client keeps the last token it was given or loaded. */
  datatype Client = Client(token: Option<string>)

  /** The constructor reads the stored token. */
  function Init(storage: Storage): (c: Client)
    ensures c.token == GetItem(storage, TokenKey)
  {
    Client(GetItem(storage, TokenKey))
  }

  datatype Stored = Stored(client: Client, storage: Storage)

  /** `setToken`: hold the token, and persist it when truthy or remove the
      stored one otherwise. No other storage key changes. */
  function SetToken(c: Client, storage: Storage, token: Option<string>): (r: Stored)
    ensures r.client.token == token
    ensures Truthy(token) ==> GetItem(r.storage, TokenKey) == token
    ensures !Truthy(token) ==> TokenKey !in r.storage
    ensures r.storage - {TokenKey} == storage - {TokenKey}
  {
    if Truthy(token) then Stored(Client(token), storage[TokenKey := token.value])
    else Stored(Client(token), storage - {TokenKey})
  }

  datatype Loaded = Loaded(client: Client, token: Option<string>)

  /** `getToken`: the held token when truthy, otherwise (re)load it from storage. */
  function GetToken(c: Client, storage: Storage): (r: Loaded)
    ensures Truthy(c.token) ==> r.client == c && r.token == c.token
    ensures !Truthy(c.token) ==> r.token == GetItem(storage, TokenKey)
    ensures r.client.token == r.token
  {
    if Truthy(c.token) then Loaded(c, c.token)
    else Loaded(Client(GetItem(storage, TokenKey)), GetItem(storage, TokenKey))
  }

  /** A token that was set can be read back; after `setToken(null)` nothing can. */
  lemma SetThenGetToken(c: Client, storage: Storage, token: Option<string>)
    ensures var s := SetToken(c, storage, token);
            var g := GetToken(s.client, s.storage);
            (Truthy(token) ==> g.token == token) && (!Truthy(token) ==> !Truthy(g.token))
  {
  }

  /** `getHeaders`: the fixed content headers, plus a bearer credential in
      the form of section 2.1 of RFC 6750 exactly when a token is present. */
  function Headers(token: Option<string>): (h: map<string, string>)
    ensures "Content-Type" in h && h["Content-Type"] == "application/json"
    ensures "Accept-Language" in h && h["Accept-Language"] == "pt-BR"
    ensures "Authorization" in h <==> Truthy(token)
    ensures Truthy(token) ==> h["Authorization"] == "Bearer " + token.value
    ensures h.Keys <= {"Content-Type", "Accept-Language", "Authorization"}
  {
    var base := map["Content-Type" := "application/json", "Accept-Language" := "pt-BR"];
    if Truthy(token) then base["Authorization" := "Bearer " + token.value] else base
  }

  /** The `RequestInit` a caller passes: method, body and extra headers. */
  datatype Options = Options(verb: Option<Method>, body: Option<string>, headers: map<string, string>)

  /** The result of `request`: the envelope, the client afterwards (its
      token may have been loaded from storage) and what was sent, if anything. */
  datatype Sent<+T> = Sent(response: ApiResponse<T>, client: Client, sent: Option<Request>)

  /** An envelope says either success without an error, or failure with an
      error and without data. */
  predicate WellFormed<T>(r: ApiResponse<T>) {
    (r.success ==> r.error.None?) && (!r.success ==> r.error.Some? && r.data.None?)
  }

  /** The error message of a non-2xx response. */
  function FailureMessage<T>(resp: Response<T>): (m: string)
    requires !resp.ok
    ensures resp.text.None? ==> m == HttpError(resp.status) + " - " + resp.statusText
    ensures resp.text.Some? && ParseBody(resp.text.value, resp.json).NotJson? ==>
              m == OrElse(resp.text, HttpError(resp.status))
    ensures resp.text.Some? && ParseBody(resp.text.value, resp.json).JsonNull? ==>
              m == HttpError(resp.status) + " - " + resp.statusText
    ensures resp.text.Some? && ParseBody(resp.text.value, resp.json).JsonValue? ==>
              m == FirstErrorOr(resp.json.errors, HttpError(resp.status))
    ensures m == "" ==> resp.text.Some? && ParseBody(resp.text.value, resp.json).JsonValue?
                        && HasFirstError(resp.json.errors) && resp.json.errors.value[0] == ""
  {
    match resp.text
    case None =>
      // reading the body rejected
      HttpError(resp.status) + " - " + resp.statusText
    case Some(t) =>
      match ParseBody(t, resp.json)
      case NotJson => OrElse(Some(t), HttpError(resp.status))
      // `null.errors` throws inside the error branch's own try
      case JsonNull => HttpError(resp.status) + " - " + resp.statusText
      case JsonValue(_, errors) => FirstErrorOr(errors, HttpError(resp.status))
  }

  /** The envelope for a response that `fetch` resolved to. */
  function Interpret<T>(resp: Response<T>): (r: ApiResponse<T>)
    ensures WellFormed(r)
    ensures !resp.ok ==> r == Failure(FailureMessage(resp))
    ensures r.success <==>
              resp.ok && (!IsJsonContent(resp.contentType)
                          || (resp.text.Some? && (resp.text.value == "" || !resp.json.NotJson?)))
    ensures (resp.ok && IsJsonContent(resp.contentType) && resp.text.Some? && resp.text.value != ""
             && resp.json.NotJson?) ==> r == Failure(InvalidResponse)
    ensures resp.ok && IsJsonContent(resp.contentType) && resp.text.None? ==> r == Failure(ConnectionError)
    ensures r.success && r.data.Some? ==>
              IsJsonContent(resp.contentType) && resp.text.Some? && resp.text.value != ""
              && resp.json.JsonValue? && r.data.value == resp.json.data
    ensures (resp.ok && IsJsonContent(resp.contentType) && resp.text.Some? && resp.text.value != ""
             && resp.json.JsonValue?) ==> r == Success(Some(resp.json.data))
    ensures (resp.ok && IsJsonContent(resp.contentType) && resp.text.Some? && resp.text.value != ""
             && resp.json.JsonNull?) ==> r == Success(None)
    ensures (resp.ok && IsJsonContent(resp.contentType) && resp.text == Some("")) ==> r == Success(None)
    ensures (resp.ok && !IsJsonContent(resp.contentType)) ==> r == Success(None)
  {
    if !resp.ok then
      Failure(FailureMessage(resp))
    else if IsJsonContent(resp.contentType) then
      match resp.text
      case None => Failure(ConnectionError)
      case Some(t) =>
        if t == "" then Success(None)
        else
          match resp.json
          case NotJson => Failure(InvalidResponse)
          case JsonNull => Success(None)
          case JsonValue(d, _) => Success(Some(d))
    else
      Success(None)
  }

  /** `request(endpoint, options)` with the outcome of the `fetch` it would
      make. Every endpoint but the login one is refused without a token. */
  function Send<T>(c: Client, storage: Storage, endpoint: string, options: Options, fetch: Call<Response<T>>): (r: Sent<T>)
    ensures WellFormed(r.response)
    ensures r.sent.None? <==> endpoint != LoginEndpoint && !Truthy(GetToken(c, storage).token)
    ensures r.sent.None? ==> r.response == Failure(MissingToken)
    ensures r.sent.Some? ==>
              var q := r.sent.value;
              && q.url == BaseUrl + endpoint
              && q.verb == options.verb.GetOr(GET)
              && q.body == options.body
              && (forall k :: k in options.headers ==> k in q.headers && q.headers[k] == options.headers[k])
              && (forall k :: k in q.headers && k !in options.headers ==>
                    k in Headers(r.client.token) && q.headers[k] == Headers(r.client.token)[k])
              && (forall k :: k in Headers(r.client.token) && k !in options.headers ==>
                    k in q.headers && q.headers[k] == Headers(r.client.token)[k])
              && r.client.token == GetToken(c, storage).token
    ensures r.sent.Some? && fetch.Threw? ==> r.response == Failure(ConnectionError)
    ensures r.sent.Some? && fetch.Returned? ==> r.response == Interpret(fetch.value)
  {
    var gated := endpoint != LoginEndpoint;
    var first := GetToken(c, storage);
    if gated && !Truthy(first.token) then
      Sent(Failure(MissingToken), first.client, None)
    else
      var held := if gated then first.client else c;
      var second := GetToken(held, storage);
      var request := Request(options.verb.GetOr(GET), BaseUrl + endpoint,
                             Headers(second.token) + options.headers, options.body);
      var response := match fetch
        case Threw => Failure(ConnectionError)
        case Returned(resp) => Interpret(resp);
      Sent(response, second.client, Some(request))
  }

  // ------------------------------------------------------------ endpoints

  datatype Resource = Customer | Color | Size | Mesh | Material | MaterialInput | Product | ProductVariation | Sale

  /** The collection path of a resource. */
  function Collection(r: Resource): (p: string)
    ensures |p| > 1 && p[0] == '/' && p[1] != 'L'
    ensures r.Sale? <==> p == "/sale"
  {
    match r
    case Customer => "/Customer"
    case Color => "/Color"
    case Size => "/Size"
    case Mesh => "/Mesh"
    case Material => "/Material"
    case MaterialInput => "/MaterialInput"
    case Product => "/Product"
    case ProductVariation => "/ProductVariation"
    case Sale => "/sale"
  }

  /** Each resource has its own collection. */
  lemma CollectionsDistinct(a: Resource, b: Resource)
    ensures a != b ==> Collection(a) != Collection(b)
  {
  }

  /** The path of one member of a collection. */
  function Member(r: Resource, id: string): (p: string)
    ensures Text.StartsWith(p, Collection(r) + "/")
    ensures p[|Collection(r)| + 1..] == id
  {
    Collection(r) + "/" + id
  }

  /** The calls the client offers; request bodies are already serialised. */
  datatype Operation =
    | Login(credentials: string)
    | List(resource: Resource)
    | Create(resource: Resource, body: string)
    | Update(resource: Resource, id: string, body: string)
    | Delete(resource: Resource, id: string)

  datatype Route = Route(endpoint: string, options: Options)

  function RouteOf(op: Operation): (r: Route)
    ensures r.endpoint == LoginEndpoint <==> op.Login?
    ensures r.options.headers == map[]
    ensures (op.Login? || op.Create?) <==> r.options.verb == Some(POST)
    ensures op.List? <==> r.options.verb == Some(GET)
    ensures op.Update? <==> r.options.verb == Some(PUT)
    ensures op.Delete? <==> r.options.verb == Some(DELETE)
    ensures (op.Update? || op.Delete?) ==> r.endpoint == Member(op.resource, op.id)
    ensures (op.List? || op.Create?) ==> r.endpoint == Collection(op.resource)
    ensures r.options.body.Some? <==> (op.Login? || op.Create? || op.Update?)
  {
    match op
    case Login(credentials) => Route(LoginEndpoint, Options(Some(POST), Some(credentials), map[]))
    case List(res) => Route(Collection(res), Options(Some(GET), None, map[]))
    case Create(res, body) => Route(Collection(res), Options(Some(POST), Some(body), map[]))
    case Update(res, id, body) =>
      assert Member(res, id)[1] == Collection(res)[1];
      Route(Member(res, id), Options(Some(PUT), Some(body), map[]))
    case Delete(res, id) =>
      assert Member(res, id)[1] == Collection(res)[1];
      Route(Member(res, id), Options(Some(DELETE), None, map[]))
  }

  /** Without a token in hand or in storage, only the login call reaches the network. */
  lemma OnlyLoginWithoutToken<T>(c: Client, storage: Storage, op: Operation, fetch: Call<Response<T>>)
    requires !Truthy(c.token) && !Truthy(GetItem(storage, TokenKey))
    ensures var route := RouteOf(op);
            Send(c, storage, route.endpoint, route.options, fetch).sent.Some? <==> op.Login?
  {
  }
}

=== FILE: api_status.dfy ===
/** The connection badge in the header (components/ui/api-status.tsx): the
    browser's network state, the result of the last health check, and the
    badge chosen from the two. */
module ApiStatus {
  import opened Js
  import Http
  import Ui

  /** The health of the API as last checked. */
  datatype Api = Connected | Disconnected | Checking

  /** `isOnline` and `apiStatus`. */
  datatype Status = Status(online: bool, api: Api)

  /** Before the first check: online, and still checking. */
  const Initial := Status(true, Checking)

  /** `checkApiStatus` once `fetch` settled: an `ok` response means the API
      is connected; any other response, or a rejected fetch, means it is
      not. The network flag is not touched. */
  function Checked<T>(s: Status, response: Call<Http.Response<T>>): (r: Status)
    ensures r.online == s.online
    ensures r.api == Connected <==> response.Returned? && response.value.ok
    ensures r.api != Checking
  {
    match response
    case Threw => s.(api := Disconnected)
    case Returned(res) => s.(api := if res.ok then Connected else Disconnected)
  }

  /** The browser's `online` and `offline` events. */
  function NetworkChanged(s: Status, online: bool): (r: Status)
    ensures r.online == online && r.api == s.api
  {
    s.(online := online)
  }

  /** What the badge shows: variant, text, description, and whether the
      icon is the connected one. */
  datatype Info = Info(variant: Ui.Variant, text: string, description: string, wifi: bool)

  /** `getStatusInfo`: being offline comes first; otherwise the API status
      decides. */
  function StatusInfo(s: Status): (r: Info)
    ensures !s.online ==> r == Info(Ui.Destructive, "Offline", "Sem conexão com a internet", false)
    ensures r.variant == Ui.Destructive <==> !s.online
    ensures r.variant == Ui.Default <==> s.online && s.api == Connected
    ensures s.online && s.api == Connected ==> r.text == "API Conectada"
    ensures s.online && s.api == Disconnected ==> r.text == "Modo Offline"
    ensures s.online && s.api == Checking ==> r.text == "Verificando..."
    ensures r.wifi <==> s.online && s.api != Disconnected
  {
    if !s.online then Info(Ui.Destructive, "Offline", "Sem conexão com a internet", false)
    else match s.api
      case Connected => Info(Ui.Default, "API Conectada", "Sistema funcionando normalmente", true)
      case Disconnected => Info(Ui.Secondary, "Modo Offline", "Usando dados locais", false)
      case Checking => Info(Ui.Secondary, "Verificando...", "Testando conexão", true)
  }

  /** Offline, the badge is the same whatever the last check found. */
  lemma OfflineOverrides(api1: Api, api2: Api)
    ensures StatusInfo(Status(false, api1)) == StatusInfo(Status(false, api2))
  {
  }

  /** Online, the text tells the three API states apart, and none of them
      reads "Offline". */
  lemma OnlineTextsDistinct(a: Api, b: Api)
    ensures a != b ==> StatusInfo(Status(true, a)).text != StatusInfo(Status(true, b)).text
    ensures StatusInfo(Status(true, a)).text != "Offline"
  {
  }

  /** After a check has settled, "Verificando..." is never shown again. */
  lemma CheckingOnlyBeforeFirstCheck<T>(s: Status, response: Call<Http.Response<T>>)
    ensures StatusInfo(Checked(s, response)).text != "Verificando..."
  {
  }
}

=== FILE: catalog_types.dfy ===
/** The catalogue records (types/mesh.ts, color.ts, size.ts, material.ts,
    product.ts, material-input.ts). They carry no behaviour; measurements
    and prices are integers here. */
module CatalogTypes {
  import opened Js

  datatype Mesh = Mesh(id: string, name: string, composition: string)

  datatype Color = Color(id: string, name: string, description: string)

  datatype Size = Size(id: string, name: string, weight: int, width: int, height: int, length: int, meshTypeId: string)

  /** A material; its name is optional and its supplier nullable. */
  datatype Material = Material(id: string, name: Option<string>, supplie: Option<string>, inside: int, meshTypeId: string, colorId: string)

  datatype Product = Product(id: string, cod: string, name: string, description: string, isSet: bool, materialId: string)

  /** The material a stock entry may embed. */
  datatype MaterialRef = MaterialRef(id: string, name: string, supplie: string)

  /** A stock entry of a material. */
  datatype MaterialInput = MaterialInput(id: string, meters: int, weight: int, totalPrice: int, materialId: string, material: Option<MaterialRef>)
}

=== FILE: color_modal.dfy ===
/** The colour dialog (components/colors/color-modal.tsx). */
module ColorModal {
  import opened Js
  import opened Http
  import opened CatalogTypes
  import Text
  import Form

  /** The form, which is also the body of a create request. */
  datatype ColorForm = ColorForm(name: string, description: string)

  const NameRequired := "Nome é obrigatório"
  const SaveFailed := "Erro ao salvar cor"

  /** The form when the dialog opens: the edited colour, or both fields empty. */
  function Open(color: Option<Color>): (f: ColorForm)
    ensures color.None? ==> f == ColorForm("", "")
    ensures color.Some? ==> f == ColorForm(color.value.name, color.value.description)
  {
    match color
    case Some(c) => ColorForm(c.name, c.description)
    case None => ColorForm("", "")
  }

  /** The guards of `handleSubmit`, in order. A `!x.trim()` guard is stated
      as "all white space", which is when `Text.Trim` leaves nothing. */
  const Rules: seq<Form.Rule<ColorForm>> := [
    Form.Rule((f: ColorForm) => !Text.AllWhiteSpace(f.name), NameRequired)
  ]

  /** A colour is accepted when its name is not all white space; the
      description may be anything, empty included. */
  function Validate(f: ColorForm): (r: Option<string>)
    ensures r.None? <==> !Text.AllWhiteSpace(f.name)
    ensures r.Some? ==> r.value == NameRequired
  {
    assert Rules[0].holds(f) <==> !Text.AllWhiteSpace(f.name);
    Form.FirstFailure(f, Rules)
  }

  /** The description never decides the verdict. */
  lemma DescriptionUnchecked(f: ColorForm, description: string)
    ensures Validate(f.(description := description)) == Validate(f)
  {
  }

  /** `handleSubmit`: the form is sent untrimmed. */
  function Submit<R>(f: ColorForm, color: Option<Color>, result: Call<ApiResponse<R>>): (d: Form.Dialog<ColorForm>)
    ensures d.call.Some? <==> !Text.AllWhiteSpace(f.name)
    ensures d.call.None? ==> d.error == NameRequired
    ensures d.call.Some? ==> d.call.value.payload == f && (d.call.value.Update? <==> color.Some?)
    ensures d.call.Some? && color.Some? ==> d.call.value.id == color.value.id
    ensures d.succeeded <==> d.call.Some? && result.Returned? && result.value.success
    ensures d.succeeded <==> d.error == ""
    ensures d.call.Some? && result.Returned? && !result.value.success ==>
              d.error == OrElse(result.value.error, SaveFailed)
  {
    Form.Submit(Validate(f), f, if color.Some? then Some(color.value.id) else None, Form.OfEnvelope(result), SaveFailed)
  }
}

=== FILE: config.dfy ===
/** `formatApiError` (lib/config.ts): a displayable message for whatever an
    API call produced as an error. */
module Config {
  import opened Js

  const UnknownError := "Erro desconhecido"

  /** The `errors` property of an error object: missing or falsy, present
      but not an array, or an array (whose entries may be null). */
  datatype ErrorsField = NoErrors | NotArray | ErrorList(items: seq<Option<string>>)

  /** What `formatApiError` may be given: a string, `null`/`undefined`, or an
      object with (possibly missing) `errors` and `message` properties. */
  datatype ApiError = Message(text: string) | Nullish | Record(errors: ErrorsField, message: Option<string>)

  predicate HasErrorList(e: ApiError) {
    e.Record? && e.errors.ErrorList?
  }

  /** The checks run in the order string, `errors` array, `message`. */
  function FormatApiError(e: ApiError): (r: string)
    ensures e.Message? ==> r == e.text
    ensures HasErrorList(e) && |e.errors.items| > 0 && Truthy(e.errors.items[0]) ==>
              r == e.errors.items[0].value
    ensures HasErrorList(e) && !(|e.errors.items| > 0 && Truthy(e.errors.items[0])) ==> r == UnknownError
    ensures e.Record? && !HasErrorList(e) ==> r == OrElse(e.message, UnknownError)
    ensures e.Nullish? ==> r == UnknownError
  {
    match e
    case Message(text) => text
    case Nullish => UnknownError
    case Record(errors, message) =>
      match errors
      case ErrorList(items) => if |items| > 0 then OrElse(items[0], UnknownError) else UnknownError
      case _ => OrElse(message, UnknownError)
  }

  /** Only an empty string is formatted as an empty message. */
  lemma FormatNonEmpty(e: ApiError)
    ensures FormatApiError(e) == "" <==> e == Message("")
  {
  }

  /** An `errors` array takes precedence: the `message` is then never read. */
  lemma ErrorListShadowsMessage(items: seq<Option<string>>, m1: Option<string>, m2: Option<string>)
    ensures FormatApiError(Record(ErrorList(items), m1)) == FormatApiError(Record(ErrorList(items), m2))
  {
  }
}

=== FILE: crud_screen.dfy ===
/** The shared list screen (components/common/crud-management.tsx): the
    search filter over configurable fields, the count badge and the text
    shown when the table is empty. */
module CrudScreen {
  import opened Js
  import Text
  import ListPatch

  /** An item as the screen reads it: property values by name. */
  type Record = map<string, Value>

  const NoItems := "Nenhum item encontrado"
  const NoResults := "Nenhum resultado para a pesquisa"

  /** `item[field]`; a missing property reads as `undefined`. */
  function Field(item: Record, field: string): (v: Value)
    ensures field !in item ==> v.Undefined?
    ensures field in item ==> v == item[field]
  {
    if field in item then item[field] else Undefined
  }

  /** One field's test: a truthy value whose string form contains the term,
      letter case ignored. */
  predicate FieldMatches(v: Value, term: string) {
    IsTruthy(v) && Text.IncludesIgnoringCase(ToString(v), term)
  }

  /** `searchFields.some(...)`: some listed field of the item matches. */
  function AnyFieldMatches(item: Record, fields: seq<string>, term: string): (r: bool)
    ensures r <==> exists i :: 0 <= i < |fields| && FieldMatches(Field(item, fields[i]), term)
    decreases |fields|
  {
    if fields == [] then false
    else if FieldMatches(Field(item, fields[0]), term) then true
    else
      var r := AnyFieldMatches(item, fields[1..], term);
      assert forall i :: 1 <= i < |fields| ==> fields[1..][i - 1] == fields[i];
      r
  }

  /** The item test for a non-empty term. */
  function KeepFor(fields: seq<string>, term: string): Record -> bool {
    item => AnyFieldMatches(item, fields, term)
  }

  /** `filteredItems`: every item when the term is empty; otherwise the
      items some search field of which matches, in their original order. */
  function Filtered(items: seq<Record>, fields: seq<string>, term: string): (r: seq<Record>)
    ensures term == "" ==> r == items
    ensures ListPatch.IsSubsequence(r, items) && |r| <= |items|
    ensures term != "" ==>
              forall i :: 0 <= i < |r| ==>
                exists j :: 0 <= j < |fields| && FieldMatches(Field(r[i], fields[j]), term)
    ensures term != "" ==>
              forall i :: 0 <= i < |items| && (exists j :: 0 <= j < |fields| && FieldMatches(Field(items[i], fields[j]), term)) ==>
                items[i] in r
    ensures term != "" ==>
              forall x :: multiset(r)[x] == if AnyFieldMatches(x, fields, term) then multiset(items)[x] else 0
  {
    if term == "" then
      ListPatch.SubsequenceReflexive(items);
      items
    else
      ListPatch.FilterCounts(items, KeepFor(fields, term));
      var r := ListPatch.Filter(items, KeepFor(fields, term));
      assert forall i :: 0 <= i < |r| ==> KeepFor(fields, term)(r[i]);
      r
  }

  /** An item whose search fields are all falsy (`0`, `""`, `null`,
      `false`, missing) is never found by a non-empty term. */
  lemma FalsyNeverMatches(item: Record, fields: seq<string>, term: string)
    requires term != ""
    requires forall j :: 0 <= j < |fields| ==> !IsTruthy(Field(item, fields[j]))
    ensures Filtered([item], fields, term) == []
  {
  }

  /** Searching the search results again with the same term finds them all. */
  lemma FilterStable(items: seq<Record>, fields: seq<string>, term: string)
    ensures Filtered(Filtered(items, fields, term), fields, term) == Filtered(items, fields, term)
  {
    if term != "" {
      ListPatch.FilterIdempotent(items, KeepFor(fields, term));
    }
  }

  /** The badge beside the search box: how many items are shown. */
  function CountBadge(items: seq<Record>, fields: seq<string>, term: string): (r: string)
    ensures var n := |Filtered(items, fields, term)|;
            |r| > 6 && Text.AllDigits(r[..|r| - 6]) && Text.ParseDigits(r[..|r| - 6]) == n && r[|r| - 6..] == " itens"
  {
    var n := |Filtered(items, fields, term)|;
    var r := Text.NatToString(n) + " itens";
    assert r[..|r| - 6] == Text.NatToString(n);
    Text.ParseNatToString(n);
    r
  }

  /** The text of the empty table, if the table is empty. */
  function EmptyMessage(items: seq<Record>, fields: seq<string>, term: string): (r: Option<string>)
    ensures r.None? <==> Filtered(items, fields, term) != []
    ensures r.Some? ==> (r.value == NoItems <==> items == [])
    ensures r == Some(NoResults) ==> term != "" && items != []
  {
    if Filtered(items, fields, term) != [] then None
    else if items == [] then Some(NoItems)
    else Some(NoResults)
  }
}

=== FILE: customer_modal.dfy ===
/** The customer dialog (components/customers/customer-modal.tsx). Its form
    is a keyed object updated by field name, with the address nested one
    level down, so both levels are maps here. */
module CustomerModal {
  import opened Js
  import opened HookState
  import opened CustomerTypes
  import Text
  import Form

  /** The form: top-level fields and address fields by name. */
  datatype CustomerForm = CustomerForm(fields: map<string, string>, address: map<string, string>)

  /** The body of a create request; an update request adds the id. Absent
      keys are sent as `undefined`. */
  datatype Request = Request(
    name: Option<string>,
    email: Option<string>,
    cpf: Option<string>,
    phone: Option<string>,
    dateOfBirth: Option<string>,
    address: map<string, string>)

  const Required := "Preencha todos os campos obrigatórios"
  const SaveFailed := "Erro ao salvar cliente"

  /** The prefix that routes a field name into the address. */
  const AddressPrefix := "address."

  /** A form that holds every field the dialog renders. */
  predicate Complete(f: CustomerForm) {
    && {"name", "email", "cpf", "phone", "dateOfBirth"} <= f.fields.Keys
    && {"cep", "city", "uf", "address", "number", "complement"} <= f.address.Keys
  }

  /** The address fields of a customer, each "" when missing. */
  function AddressFields(a: Option<Address>): (m: map<string, string>)
    ensures m.Keys == {"cep", "city", "uf", "address", "number", "complement"}
    ensures a.None? ==> forall k :: k in m ==> m[k] == ""
    ensures a.Some? ==> m["cep"] == a.value.cep && m["city"] == a.value.city && m["uf"] == a.value.uf
    ensures a.Some? ==> m["address"] == a.value.address && m["number"] == a.value.number
    ensures a.Some? ==> m["complement"] == OrElse(a.value.complement, "")
  {
    match a
    case None => map["cep" := "", "city" := "", "uf" := "", "address" := "", "number" := "", "complement" := ""]
    case Some(x) =>
      map["cep" := x.cep, "city" := x.city, "uf" := x.uf, "address" := x.address, "number" := x.number,
          "complement" := OrElse(x.complement, "")]
  }

  /** The form when the dialog opens: the edited customer with its missing
      optional fields as "", or an empty form. */
  function Open(customer: Option<Customer>): (f: CustomerForm)
    ensures Complete(f)
    ensures customer.None? ==> forall k :: k in f.fields ==> f.fields[k] == ""
    ensures customer.None? ==> f.address == AddressFields(None)
    ensures customer.Some? ==>
              var c := customer.value;
              && f.fields["name"] == c.name && f.fields["email"] == OrElse(c.email, "")
              && f.fields["cpf"] == OrElse(c.cpf, "") && f.fields["phone"] == OrElse(c.phone, "")
              && f.fields["dateOfBirth"] == OrElse(c.dateOfBirth, "")
              && f.address == AddressFields(c.address)
  {
    match customer
    case None =>
      CustomerForm(map["name" := "", "email" := "", "cpf" := "", "phone" := "", "dateOfBirth" := ""], AddressFields(None))
    case Some(c) =>
      CustomerForm(map["name" := c.name, "email" := OrElse(c.email, ""), "cpf" := OrElse(c.cpf, ""),
                       "phone" := OrElse(c.phone, ""), "dateOfBirth" := OrElse(c.dateOfBirth, "")],
                   AddressFields(c.address))
  }

  /** `handleInputChange(field, value)`: a name "address.X" sets field X of
      the address, any other name sets that top-level field; nothing else
      changes. */
  function HandleInputChange(f: CustomerForm, field: string, value: string): (r: CustomerForm)
    requires field != "address"
    ensures Text.StartsWith(field, AddressPrefix) ==>
              var key := field[|AddressPrefix|..];
              && r.fields == f.fields
              && key in r.address && r.address[key] == value
              && r.address.Keys == f.address.Keys + {key}
              && (forall k :: k in f.address && k != key ==> r.address[k] == f.address[k])
    ensures !Text.StartsWith(field, AddressPrefix) ==>
              && r.address == f.address
              && field in r.fields && r.fields[field] == value
              && r.fields.Keys == f.fields.Keys + {field}
              && (forall k :: k in f.fields && k != field ==> r.fields[k] == f.fields[k])
    ensures Complete(f) ==> Complete(r)
  {
    if Text.StartsWith(field, AddressPrefix) then
      f.(address := f.address[field[|AddressPrefix|..] := value])
    else
      f.(fields := f.fields[field := value])
  }

  /** Typing into any field keeps the form complete from the moment it opens. */
  lemma {:induction false} EditsKeepFormComplete(customer: Option<Customer>, edits: seq<(string, string)>)
    requires forall i :: 0 <= i < |edits| ==> edits[i].0 != "address"
    ensures Complete(ApplyEdits(Open(customer), edits))
  {
    ApplyEditsComplete(Open(customer), edits);
  }

  /** A run of `handleInputChange` calls. */
  function ApplyEdits(f: CustomerForm, edits: seq<(string, string)>): CustomerForm
    requires forall i :: 0 <= i < |edits| ==> edits[i].0 != "address"
    decreases |edits|
  {
    if edits == [] then f else ApplyEdits(HandleInputChange(f, edits[0].0, edits[0].1), edits[1..])
  }

  lemma {:induction false} ApplyEditsComplete(f: CustomerForm, edits: seq<(string, string)>)
    requires Complete(f)
    requires forall i :: 0 <= i < |edits| ==> edits[i].0 != "address"
    ensures Complete(ApplyEdits(f, edits))
    decreases |edits|
  {
    if edits != [] {
      ApplyEditsComplete(HandleInputChange(f, edits[0].0, edits[0].1), edits[1..]);
    }
  }

  /** The name as `formData.name` reads it; a missing key reads as falsy. */
  function Name(f: CustomerForm): string {
    if "name" in f.fields then f.fields["name"] else ""
  }

  /** Only an empty name is refused. The name is not trimmed. */
  function Validate(f: CustomerForm): (r: Option<string>)
    ensures r.None? <==> Name(f) != ""
    ensures r.Some? ==> r.value == Required
  {
    if Name(f) == "" then Some(Required) else None
  }

  /** A name of white space alone passes. */
  lemma BlankNameAccepted(f: CustomerForm)
    requires Name(f) != "" && Text.AllWhiteSpace(Name(f))
    ensures Validate(f).None? && Text.IsBlank(Name(f))
  {
  }

  /** The request: the form's fields, an empty date of birth left out, and
      the address object as it stands. */
  function Payload(f: CustomerForm): (p: Request)
    ensures p.name == GetItem(f.fields, "name") && p.email == GetItem(f.fields, "email")
    ensures p.cpf == GetItem(f.fields, "cpf") && p.phone == GetItem(f.fields, "phone")
    ensures p.dateOfBirth.Some? <==> Truthy(GetItem(f.fields, "dateOfBirth"))
    ensures p.dateOfBirth.Some? ==> p.dateOfBirth == GetItem(f.fields, "dateOfBirth")
    ensures p.address == f.address
  {
    var dob := GetItem(f.fields, "dateOfBirth");
    Request(GetItem(f.fields, "name"), GetItem(f.fields, "email"), GetItem(f.fields, "cpf"),
            GetItem(f.fields, "phone"), if Truthy(dob) then dob else None, f.address)
  }

  /** Opening a customer that has every field and saving it unchanged sends
      back what was loaded. */
  lemma OpenThenSaveRoundTrip(c: Customer)
    requires Truthy(c.email) && Truthy(c.cpf) && Truthy(c.phone) && Truthy(c.dateOfBirth)
    ensures var p := Payload(Open(Some(c)));
            && p.name == Some(c.name) && p.email == c.email && p.cpf == c.cpf
            && p.phone == c.phone && p.dateOfBirth == c.dateOfBirth
  {
  }

  /** `handleSubmit`, given what the customers hook's create or update resolved to. */
  function Submit(f: CustomerForm, customer: Option<Customer>, result: Call<Outcome>): (d: Form.Dialog<Request>)
    ensures d.call.Some? <==> Name(f) != ""
    ensures d.call.None? ==> d.error == Required
    ensures d.call.Some? ==> d.call.value.payload == Payload(f) && (d.call.value.Update? <==> customer.Some?)
    ensures d.call.Some? && customer.Some? ==> d.call.value.id == customer.value.id
    ensures d.succeeded <==> d.call.Some? && result.Returned? && result.value.success
    ensures d.succeeded <==> d.error == ""
    ensures d.call.Some? && result.Returned? && !result.value.success ==>
              d.error == OrElse(result.value.error, SaveFailed)
  {
    Form.Submit(Validate(f), Payload(f), if customer.Some? then Some(customer.value.id) else None, result, SaveFailed)
  }
}

=== FILE: customer_screen.dfy ===
/** The customer list screen (components/customers/customer-management.tsx):
    its own search filter, the CPF and phone formatters, and the text of the
    empty table. */
module CustomerScreen {
  import opened Js
  import opened CustomerTypes
  import Text
  import ListPatch

  const NoneFound := "Nenhum cliente encontrado"
  const NoneRegistered := "Nenhum cliente cadastrado"

  // ----------------------------------------------------------------- search

  /** One field's test as written, `field.toLowerCase().includes(term...)`:
      an absent field has no `toLowerCase`, so reading it throws. */
  function FieldAsWritten(field: Option<string>, term: string): (r: Call<bool>)
    ensures r.Threw? <==> field.None?
    ensures r.Returned? ==> r.value == Text.IncludesIgnoringCase(field.value, term)
  {
    match field
    case None => Threw
    case Some(s) => Returned(Text.IncludesIgnoringCase(s, term))
  }

  /** The item test as written: name, email, cpf, phone in turn, stopping at
      the first hit; a field is read only when every earlier one missed. */
  function MatchesAsWritten(c: Customer, term: string): (r: Call<bool>)
    ensures Text.IncludesIgnoringCase(c.name, term) ==> r == Returned(true)
    ensures r.Threw? <==>
              !Text.IncludesIgnoringCase(c.name, term)
              && (c.email.None?
                  || (!Text.IncludesIgnoringCase(c.email.value, term)
                      && (c.cpf.None?
                          || (!Text.IncludesIgnoringCase(c.cpf.value, term) && c.phone.None?))))
  {
    if Text.IncludesIgnoringCase(c.name, term) then Returned(true)
    else match FieldAsWritten(c.email, term)
      case Threw => Threw
      case Returned(true) => Returned(true)
      case Returned(false) =>
        match FieldAsWritten(c.cpf, term)
        case Threw => Threw
        case Returned(true) => Returned(true)
        case Returned(false) => FieldAsWritten(c.phone, term)
  }

  /** `filteredCustomers` as written: the filter throws as soon as one
      customer's test throws. */
  function FilterAsWritten(cs: seq<Customer>, term: string): (r: Call<seq<Customer>>)
    ensures r.Threw? <==> exists i :: 0 <= i < |cs| && MatchesAsWritten(cs[i], term).Threw?
    decreases |cs|
  {
    if cs == [] then Returned([])
    else
      var rest := FilterAsWritten(cs[1..], term);
      assert forall i :: 1 <= i < |cs| ==> cs[1..][i - 1] == cs[i];
      match MatchesAsWritten(cs[0], term)
      case Threw => Threw
      case Returned(keep) =>
        match rest
        case Threw => Threw
        case Returned(kept) => Returned(if keep then [cs[0]] + kept else kept)
  }

  /** A present field containing the term. */
  predicate Has(field: Option<string>, term: string) {
    field.Some? && Text.IncludesIgnoringCase(field.value, term)
  }

  /** The intended item test: some present field among name, email, cpf and
      phone contains the term; an absent field simply does not match. */
  predicate Matches(c: Customer, term: string) {
    Text.IncludesIgnoringCase(c.name, term) || Has(c.email, term) || Has(c.cpf, term) || Has(c.phone, term)
  }

  function Keep(term: string): Customer -> bool {
    c => Matches(c, term)
  }

  /** The intended filter, which never throws. */
  function Filter(cs: seq<Customer>, term: string): (r: seq<Customer>)
    ensures ListPatch.IsSubsequence(r, cs)
    ensures forall i :: 0 <= i < |r| ==> Matches(r[i], term)
    ensures forall i :: 0 <= i < |cs| && Matches(cs[i], term) ==> cs[i] in r
    ensures forall x :: multiset(r)[x] == if Matches(x, term) then multiset(cs)[x] else 0
  {
    ListPatch.FilterCounts(cs, Keep(term));
    var r := ListPatch.Filter(cs, Keep(term));
    assert forall i :: 0 <= i < |r| ==> Keep(term)(r[i]);
    r
  }

  /** The intended test agrees with the written one wherever that one answers. */
  lemma MatchesAgrees(c: Customer, term: string)
    ensures MatchesAsWritten(c, term).Returned? ==> MatchesAsWritten(c, term).value == Matches(c, term)
  {
  }

  /** Wherever the written filter returns, it returns the intended list. */
  lemma {:induction false} FilterAgrees(cs: seq<Customer>, term: string)
    ensures FilterAsWritten(cs, term).Returned? ==> FilterAsWritten(cs, term).value == Filter(cs, term)
    decreases |cs|
  {
    if cs != [] {
      FilterAgrees(cs[1..], term);
      MatchesAgrees(cs[0], term);
      if FilterAsWritten(cs, term).Returned? {
        assert MatchesAsWritten(cs[0], term).Returned?;
        assert FilterAsWritten(cs[1..], term).Returned?;
        assert ListPatch.Filter(cs, Keep(term)) ==
               if Keep(term)(cs[0]) then [cs[0]] + ListPatch.Filter(cs[1..], Keep(term)) else ListPatch.Filter(cs[1..], Keep(term));
      }
    }
  }

  /** Every customer the list hook loads lacks a cpf, so a non-matching term
      that misses a loaded customer's name and email throws as written. */
  lemma LoadedCustomerBreaksSearch(response: CustomerResponse, term: string)
    requires !Text.IncludesIgnoringCase(response.name, term) && !Text.IncludesIgnoringCase(response.email, term)
    ensures var c := Customer(response.id, response.name, Some(response.email), None, Some(response.phone),
                              None, None, response.createdAt, response.updatedAt);
            FilterAsWritten([c], term).Threw? && Filter([c], term) == (if Text.IncludesIgnoringCase(response.phone, term) then [c] else [])
  {
    var c := Customer(response.id, response.name, Some(response.email), None, Some(response.phone),
                      None, None, response.createdAt, response.updatedAt);
    assert MatchesAsWritten([c][0], term).Threw?;
    assert ListPatch.Filter([c], Keep(term)) ==
           if Keep(term)(c) then [c] + ListPatch.Filter([c][1..], Keep(term)) else ListPatch.Filter([c][1..], Keep(term));
  }

  /** The text of the empty table, which depends only on the search term. */
  function EmptyMessage(term: string): (r: string)
    ensures r == NoneFound <==> term != ""
    ensures r == NoneRegistered <==> term == ""
  {
    if term != "" then NoneFound else NoneRegistered
  }

  // ------------------------------------------------------------ formatting

  /** Position `i` starts `n` consecutive ASCII digits. */
  predicate DigitRunAt(s: string, i: nat, n: nat) {
    i + n <= |s| && Text.AllDigits(s[i..i + n])
  }

  /** Where a regular expression of `n` digit classes first matches: the
      leftmost run of `n` digits, or -1. */
  function FirstDigitRun(s: string, n: nat, from: nat): (r: int)
    requires from <= |s|
    ensures r == -1 ==> forall i :: from <= i <= |s| ==> !DigitRunAt(s, i, n)
    ensures r != -1 ==> from <= r && DigitRunAt(s, r, n) && forall i :: from <= i < r ==> !DigitRunAt(s, i, n)
    decreases |s| - from
  {
    if DigitRunAt(s, from, n) then from
    else if from + n >= |s| then -1
    else FirstDigitRun(s, n, from + 1)
  }

  /** Eleven digits grouped as `ddd.ddd.ddd-dd`. */
  function CpfGroups(d: string): (r: string)
    requires |d| == 11
    ensures |r| == 14
  {
    d[..3] + ("." + (d[3..6] + ("." + (d[6..9] + ("-" + d[9..])))))
  }

  /** `formatCPF`: "" for an empty value; otherwise the first run of eleven
      digits is grouped, and a value without one is shown as it is. */
  function FormatCpf(cpf: string): (r: string)
    ensures cpf == "" ==> r == ""
    ensures |cpf| == 11 && Text.AllDigits(cpf) ==> r == CpfGroups(cpf)
    ensures cpf != "" && (forall i :: 0 <= i <= |cpf| ==> !DigitRunAt(cpf, i, 11)) ==> r == cpf
    ensures forall k: nat :: DigitRunAt(cpf, k, 11) && (forall i :: 0 <= i < k ==> !DigitRunAt(cpf, i, 11)) ==>
              r == cpf[..k] + CpfGroups(cpf[k..k + 11]) + cpf[k + 11..]
  {
    if cpf == "" then ""
    else
      var i := FirstDigitRun(cpf, 11, 0);
      if i == -1 then cpf
      else
        assert |cpf| == 11 ==> cpf[0..11] == cpf;
        cpf[..i] + CpfGroups(cpf[i..i + 11]) + cpf[i + 11..]
  }

  /** The character test `/\d/`. */
  function DigitTest(): char -> bool {
    c => Text.IsDigit(c)
  }

  /** The digits of a text, in order. */
  function DigitsOf(s: string): string {
    ListPatch.Filter(s, DigitTest())
  }

  /** A single non-digit contributes no digits. */
  lemma MarkHasNoDigits(mark: string)
    requires |mark| == 1 && !Text.IsDigit(mark[0])
    ensures DigitsOf(mark) == []
  {
    assert mark[1..] == [];
  }

  /** Formatting a CPF only inserts punctuation: its digits are kept, in order. */
  lemma CpfKeepsDigits(cpf: string)
    requires |cpf| == 11 && Text.AllDigits(cpf)
    ensures DigitsOf(FormatCpf(cpf)) == cpf
  {
    CpfGroupsKeepDigits(cpf);
  }

  /** The grouped form of eleven digits holds those digits, in order. */
  lemma CpfGroupsKeepDigits(cpf: string)
    requires |cpf| == 11 && Text.AllDigits(cpf)
    ensures DigitsOf(CpfGroups(cpf)) == cpf
  {
    var a, b, c, d := cpf[..3], cpf[3..6], cpf[6..9], cpf[9..];
    DigitSlice(cpf, 0, 3);
    DigitSlice(cpf, 3, 6);
    DigitSlice(cpf, 6, 9);
    DigitSlice(cpf, 9, 11);
    DigitsKept(d);
    calc {
      DigitsOf(CpfGroups(cpf));
      DigitsOf(a + ("." + (b + ("." + (c + ("-" + d))))));
      { PunctuationDropped(a, ".", b + ("." + (c + ("-" + d)))); }
      a + DigitsOf(b + ("." + (c + ("-" + d))));
      { PunctuationDropped(b, ".", c + ("-" + d)); }
      a + (b + DigitsOf(c + ("-" + d)));
      { PunctuationDropped(c, "-", d); }
      a + (b + (c + d));
    }
    assert a + (b + (c + d)) == cpf;
  }

  /** A slice of a digit string holds digits only. */
  lemma DigitSlice(s: string, i: nat, j: nat)
    requires Text.AllDigits(s) && i <= j <= |s|
    ensures Text.AllDigits(s[i..j])
  {
    forall k | 0 <= k < j - i ensures Text.IsDigit(s[i..j][k]) {
      assert s[i..j][k] == s[i + k];
    }
  }

  /** A text of digits alone is its own digits. */
  lemma DigitsKept(s: string)
    requires Text.AllDigits(s)
    ensures DigitsOf(s) == s
  {
    assert forall i :: 0 <= i < |s| ==> DigitTest()(s[i]);
    ListPatch.FilterAll(s, DigitTest());
  }

  /** Digits followed by one punctuation mark and a tail keep only the digits of both. */
  lemma PunctuationDropped(digits: string, mark: string, tail: string)
    requires Text.AllDigits(digits) && |mark| == 1 && !Text.IsDigit(mark[0])
    ensures DigitsOf(digits + (mark + tail)) == digits + DigitsOf(tail)
  {
    var keep := DigitTest();
    DigitsKept(digits);
    MarkHasNoDigits(mark);
    ListPatch.FilterAppend(mark, tail, keep);
    ListPatch.FilterAppend(digits, mark + tail, keep);
  }

  /** Eleven digits as `(dd) ddddd-dddd`, ten as `(dd) dddd-dddd`. */
  function PhoneGroups(d: string): (r: string)
    requires |d| == 10 || |d| == 11
    ensures |r| == |d| + 4
  {
    "(" + (d[..2] + (")" + (" " + (d[2..|d| - 4] + ("-" + d[|d| - 4..])))))
  }

  /** `formatPhone`: "" for an empty value; eleven or ten digits are
      grouped; any other value is shown as it is. */
  function FormatPhone(phone: string): (r: string)
    ensures phone == "" ==> r == ""
    ensures (|phone| == 10 || |phone| == 11) && Text.AllDigits(phone) ==> r == PhoneGroups(phone)
    ensures (|phone| != 10 && |phone| != 11) || !Text.AllDigits(phone) ==> r == phone
  {
    if phone == "" then ""
    else if |phone| == 11 || |phone| == 10 then
      assert phone[0..|phone|] == phone;
      var i := FirstDigitRun(phone, |phone|, 0);
      if i == -1 then phone else PhoneGroups(phone)
    else phone
  }

  /** A formatted phone number keeps its digits, in order. */
  lemma PhoneKeepsDigits(phone: string)
    requires (|phone| == 10 || |phone| == 11) && Text.AllDigits(phone)
    ensures DigitsOf(FormatPhone(phone)) == phone
  {
    var a, b, c := phone[..2], phone[2..|phone| - 4], phone[|phone| - 4..];
    DigitsKept(c);
    assert b + c == phone[2..];
    calc {
      DigitsOf(FormatPhone(phone));
      DigitsOf("(" + (a + (")" + (" " + (b + ("-" + c))))));
      { MarkDropped("(", a + (")" + (" " + (b + ("-" + c))))); }
      DigitsOf(a + (")" + (" " + (b + ("-" + c)))));
      { PunctuationDropped(a, ")", " " + (b + ("-" + c))); }
      a + DigitsOf(" " + (b + ("-" + c)));
      { MarkDropped(" ", b + ("-" + c)); }
      a + DigitsOf(b + ("-" + c));
      { PunctuationDropped(b, "-", c); }
      a + (b + c);
      a + phone[2..];
      phone;
    }
  }

  /** A leading non-digit contributes no digits. */
  lemma MarkDropped(mark: string, tail: string)
    requires |mark| == 1 && !Text.IsDigit(mark[0])
    ensures DigitsOf(mark + tail) == DigitsOf(tail)
  {
    MarkHasNoDigits(mark);
    ListPatch.FilterAppend(mark, tail, DigitTest());
  }
}

=== FILE: customer_types.dfy ===
/** Customers (types/customer.ts): the record the screens use and the
    server's response shape. */
module CustomerTypes {
  import opened Js

  datatype Address = Address(cep: string, city: string, uf: string, address: string, number: string, complement: Option<string>)

  /** A customer as the screens hold it; optional fields may be absent. */
  datatype Customer = Customer(
    id: string,
    name: string,
    email: Option<string>,
    cpf: Option<string>,
    phone: Option<string>,
    dateOfBirth: Option<string>,
    address: Option<Address>,
    createdAt: string,
    updatedAt: Option<string>)

  /** A customer as the server returns it. */
  datatype CustomerResponse = CustomerResponse(
    id: string,
    name: string,
    email: string,
    cpf: string,
    phone: string,
    dateOfBirth: Option<string>,
    address: Address,
    createdAt: string,
    updatedAt: Option<string>)

  /** The body of a create request; an update request adds the id. */
  datatype CustomerRequest = CustomerRequest(
    name: string,
    email: Option<string>,
    cpf: Option<string>,
    phone: Option<string>,
    dateOfBirth: Option<string>,
    address: Option<Address>)
}

=== FILE: dashboard.dfy ===
/** The dashboard (app/dashboard/page.tsx): the sales aggregates on its
    cards and the list of recent sales. */
module Dashboard {
  import opened Js
  import opened SaleTypes
  import opened CustomerTypes
  import Text
  import ListPatch
  import Lookup
  import Ui

  /** The figures on the dashboard's cards. */
  datatype Metrics = Metrics(totalSales: nat, totalRevenue: int, pendingSales: nat, completedSales: nat)

  /** The figures before any sales have loaded. */
  const Initial := Metrics(0, 0, 0, 0)

  /** `sales.reduce((sum, sale) => sum + (sale.value - sale.discount), 0)`,
      folded from the left. Sales the sale dialog accepts have a positive
      total, so a non-empty list of them has a positive revenue. */
  function Revenue(sales: seq<Sale>): (r: int)
    ensures (forall i :: 0 <= i < |sales| ==> sales[i].discount <= sales[i].value) ==> r >= 0
    ensures sales != [] && (forall i :: 0 <= i < |sales| ==> sales[i].discount < sales[i].value) ==> r > 0
    decreases |sales|
  {
    if sales == [] then 0
    else
      var n := |sales| - 1;
      Revenue(sales[..n]) + (sales[n].value - sales[n].discount)
  }

  /** The revenue of two lists put together is the sum of their revenues. */
  lemma {:induction false} RevenueAppend(xs: seq<Sale>, ys: seq<Sale>)
    ensures Revenue(xs + ys) == Revenue(xs) + Revenue(ys)
    decreases |ys|
  {
    if ys == [] {
      assert xs + ys == xs;
    } else {
      var n := |ys| - 1;
      assert (xs + ys)[..|xs + ys| - 1] == xs + ys[..n];
      RevenueAppend(xs, ys[..n]);
    }
  }

  /** The element test `sale.status === status`. */
  function HasStatus(status: int): Sale -> bool {
    (s: Sale) => s.status == status
  }

  /** `sales.filter(sale => sale.status === status).length`. */
  function CountStatus(sales: seq<Sale>, status: int): (n: nat)
    ensures n <= |sales|
    ensures n == 0 <==> forall i :: 0 <= i < |sales| ==> sales[i].status != status
  {
    var kept := ListPatch.Filter(sales, HasStatus(status));
    assert kept != [] ==> HasStatus(status)(kept[0]) && kept[0] in sales;
    |kept|
  }

  /** Counting over two lists put together adds the counts. */
  lemma CountAppend(xs: seq<Sale>, ys: seq<Sale>, status: int)
    ensures CountStatus(xs + ys, status) == CountStatus(xs, status) + CountStatus(ys, status)
  {
    ListPatch.FilterAppend(xs, ys, HasStatus(status));
  }

  /** No sale has two statuses, so two distinct statuses together count at
      most every sale. */
  lemma {:induction false} DistinctCountsWithinTotal(sales: seq<Sale>, a: int, b: int)
    requires a != b
    ensures CountStatus(sales, a) + CountStatus(sales, b) <= |sales|
    decreases |sales|
  {
    if sales != [] {
      DistinctCountsWithinTotal(sales[1..], a, b);
      assert sales == [sales[0]] + sales[1..];
      CountAppend([sales[0]], sales[1..], a);
      CountAppend([sales[0]], sales[1..], b);
    }
  }

  /** The effect run when the sales list changes: a non-empty list sets
      every figure afresh, and an empty one leaves the cards as they were. */
  function Recompute(previous: Metrics, sales: seq<Sale>): (m: Metrics)
    ensures sales == [] ==> m == previous
    ensures sales != [] ==>
              && m.totalSales == |sales| && m.totalRevenue == Revenue(sales)
              && m.pendingSales == CountStatus(sales, Pending) && m.completedSales == CountStatus(sales, Delivered)
    ensures sales != [] ==> m.pendingSales + m.completedSales <= m.totalSales
  {
    if sales == [] then previous
    else
      DistinctCountsWithinTotal(sales, Pending, Delivered);
      Metrics(|sales|, Revenue(sales), CountStatus(sales, Pending), CountStatus(sales, Delivered))
  }

  /** Once a list was shown, emptying it keeps the old figures on the cards. */
  lemma EmptyListKeepsStaleMetrics(sales: seq<Sale>)
    requires sales != []
    ensures Recompute(Recompute(Initial, sales), []).totalSales == |sales| > 0
  {
  }

  /** On a non-empty list of accepted sales the figures are consistent: the
      revenue is positive, and no sale counts as both pending and delivered. */
  lemma AcceptedSalesMetrics(previous: Metrics, sales: seq<Sale>)
    requires sales != []
    requires forall i :: 0 <= i < |sales| ==> sales[i].discount < sales[i].value
    ensures var m := Recompute(previous, sales);
            m.totalRevenue > 0 && m.totalSales > 0 && m.pendingSales + m.completedSales <= m.totalSales
  {
  }

  /** `formatSaleId`: the first eight characters of the id. */
  function FormatSaleId(id: string): (r: string)
    ensures Text.StartsWith(id, r)
    ensures |r| == if |id| > 8 then 8 else |id|
  {
    Text.Take(id, 8)
  }

  /** Formatting a formatted id changes nothing, and ids that differ within
      their first eight characters still differ once formatted. */
  lemma FormatSaleIdFacts(a: string, b: string)
    ensures FormatSaleId(FormatSaleId(a)) == FormatSaleId(a)
    ensures |a| <= 8 ==> FormatSaleId(a) == a
    ensures FormatSaleId(a) == FormatSaleId(b) && |a| >= 8 && |b| >= 8 ==> a[..8] == b[..8]
  {
  }

  /** One line of the recent-sales card. */
  datatype RecentRow = RecentRow(saleId: string, customer: string, total: int, statusLabel: string, variant: Ui.Variant)

  /** The line of one sale. */
  function Row(customers: seq<Customer>, sale: Sale): (r: RecentRow)
    ensures r.saleId == FormatSaleId(sale.id)
    ensures Text.StartsWith(sale.id, r.saleId) && |r.saleId| <= 8
    ensures r.customer == Lookup.CustomerName(customers, sale.customerId)
    ensures r.total == sale.value - sale.discount
    ensures r.statusLabel == StatusLabel(sale.status) && r.variant == StatusVariant(sale.status)
  {
    RecentRow(FormatSaleId(sale.id), Lookup.CustomerName(customers, sale.customerId),
              sale.value - sale.discount, StatusLabel(sale.status), StatusVariant(sale.status))
  }

  /** `sales.slice(0, 5).map(...)`: the lines of the first five sales in the
      order the list holds them. */
  function Recent(customers: seq<Customer>, sales: seq<Sale>): (r: seq<RecentRow>)
    ensures |r| == if |sales| < 5 then |sales| else 5
    ensures forall i :: 0 <= i < |r| ==> r[i] == Row(customers, sales[i])
  {
    var shown := if |sales| < 5 then sales else sales[..5];
    ListPatch.MapAll(shown, (s: Sale) => Row(customers, s))
  }

  /** A sale whose customer is not in the list is shown under "Cliente não
      encontrado". */
  lemma UnknownCustomerRow(customers: seq<Customer>, sale: Sale)
    requires forall i :: 0 <= i < |customers| ==> customers[i].id != sale.customerId
    ensures Row(customers, sale).customer == Lookup.CustomerNotFound
  {
  }
}

=== FILE: form.dfy ===
/** What every edit dialog's `handleSubmit` shares: an ordered chain of
    guards where the first broken one sets the error and stops, then one
    create or update call, then either `onSuccess()` or an error message. */
module Form {
  import opened Js
  import opened Http
  import opened HookState
  import ListPatch

  /** The message shown when the awaited call itself throws. */
  const Unexpected := "Erro inesperado"

  /** One guard of a submit handler: what the form must satisfy, and the
      message shown when it does not. */
  datatype Rule<-F> = Rule(holds: F -> bool, message: string)

  /** The rule test "this rule is broken by `f`". */
  function Broken<F>(f: F): Rule<F> -> bool {
    (rule: Rule<F>) => !rule.holds(f)
  }

  /** The guard chain: the message of the first rule the form breaks, or
      nothing when every rule holds. */
  function FirstFailure<F>(f: F, rules: seq<Rule<F>>): (r: Option<string>)
    ensures r.None? <==> forall i :: 0 <= i < |rules| ==> rules[i].holds(f)
  {
    var k := ListPatch.FindIndex(rules, Broken(f));
    if k == -1 then None else Some(rules[k].message)
  }

  /** The first broken rule decides the message, whatever the later ones say. */
  lemma FirstFailureAt<F>(f: F, rules: seq<Rule<F>>, i: nat)
    requires i < |rules| && !rules[i].holds(f)
    requires forall j :: 0 <= j < i ==> rules[j].holds(f)
    ensures FirstFailure(f, rules) == Some(rules[i].message)
  {
    assert Broken(f)(rules[i]);
  }

  /** The call a valid submission makes: `create(payload)`, or
      `update(id, {...payload, id})` when the dialog edits a record. */
  datatype Save<+P> = Create(payload: P) | Update(id: string, payload: P)

  /** The dialog after submit: the call it made, whether it called
      `onSuccess()`, and the error text it shows ("" for none). */
  datatype Dialog<+P> = Dialog(call: Option<Save<P>>, succeeded: bool, error: string)

  /** An awaited hook call seen as `{success, error?}`. */
  function OfEnvelope<R>(c: Call<ApiResponse<R>>): (o: Call<Outcome>)
    ensures o.Threw? <==> c.Threw?
    ensures o.Returned? ==> o.value.success == c.value.success && o.value.error == c.value.error
  {
    match c
    case Threw => Threw
    case Returned(r) => Returned(Outcome(r.success, r.error))
  }

  /** `handleSubmit` once the guards ran: `invalid` is the chain's verdict,
      `editing` the id of the record being edited, `result` what the create
      or update call settled to, and `fallback` the dialog's own message. */
  function Submit<P>(invalid: Option<string>, payload: P, editing: Option<string>, result: Call<Outcome>, fallback: string): (d: Dialog<P>)
    ensures d.call.None? <==> invalid.Some?
    ensures invalid.None? ==> d.call == Some(if editing.Some? then Update(editing.value, payload) else Create(payload))
    ensures invalid.Some? ==> d.error == invalid.value
    ensures d.succeeded <==> invalid.None? && result.Returned? && result.value.success
    ensures d.succeeded ==> d.error == ""
    ensures invalid.None? && result.Threw? ==> d.error == Unexpected
    ensures invalid.None? && result.Returned? && !result.value.success ==> d.error == OrElse(result.value.error, fallback)
    ensures (invalid.Some? ==> invalid.value != "") && fallback != "" ==> (d.succeeded <==> d.error == "")
  {
    match invalid
    case Some(message) => Dialog(None, false, message)
    case None =>
      var call := if editing.Some? then Update(editing.value, payload) else Create(payload);
      match result
      case Threw => Dialog(Some(call), false, Unexpected)
      case Returned(o) =>
        if o.success then Dialog(Some(call), true, "")
        else Dialog(Some(call), false, OrElse(o.error, fallback))
  }
}

=== FILE: hook_state.dfy ===
/** The state every data hook keeps, `(items, loading, error)`, and the
    `{success, error?}` outcome the hand-written hooks return. */
module HookState {
  import opened Js

  datatype State<+T> = State(items: seq<T>, loading: bool, error: Option<string>)

  /** A freshly mounted hook: no items, not loading, no error. */
  function Initial<T>(): (s: State<T>)
    ensures s.items == [] && !s.loading && s.error.None?
  {
    State([], false, None)
  }

  /** The first two statements of every operation: `setLoading(true)` and `setError(null)`. */
  function Begin<T>(s: State<T>): (r: State<T>)
    ensures r.loading && r.error.None? && r.items == s.items
  {
    s.(loading := true, error := None)
  }

  /** The value an operation of a hand-written hook resolves to. */
  datatype Outcome = Outcome(success: bool, error: Option<string>)

  /** The outcome reports exactly what the state shows: success when no
      error was recorded, and otherwise that error. */
  predicate Reports<T>(o: Outcome, s: State<T>) {
    o.error == s.error && (o.success <==> s.error.None?)
  }
}

=== FILE: http.dfy ===
/** The HTTP exchange as the two API clients see it, and the uniform
    `{success, data?, error?}` envelope every client call resolves to. */
module Http {
  import opened Js
  import Text

  datatype Method = GET | POST | PUT | DELETE

  /** What `JSON.parse` makes of a body: it throws, it yields `null`, or it
      yields a value. A value is read at the type the caller expects (the
      casts are unchecked), and `errors` is what its `errors` property holds
      when that property is an array of strings. */
  datatype Json<+T> = NotJson | JsonNull | JsonValue(data: T, errors: Option<seq<string>>)

  /** A `fetch` response. `text` is None when reading the body rejects;
      `json` is the parse of `text` when `text` is not empty. */
  datatype Response<+T> = Response(
    ok: bool,
    status: int,
    statusText: string,
    contentType: Option<string>,
    text: Option<string>,
    json: Json<T>)

  /** `JSON.parse(text)`: the empty text never parses. */
  function ParseBody<T>(text: string, json: Json<T>): (r: Json<T>)
    ensures text == "" ==> r.NotJson?
    ensures text != "" ==> r == json
  {
    if text == "" then NotJson else json
  }

  /** A request as handed to `fetch`. */
  datatype Request = Request(verb: Method, url: string, headers: map<string, string>, body: Option<string>)

  /** The envelope every client call resolves to. */
  datatype ApiResponse<+T> = ApiResponse(success: bool, data: Option<T>, error: Option<string>)

  function Failure<T>(message: string): (r: ApiResponse<T>)
    ensures !r.success && r.error == Some(message) && r.data.None?
  {
    ApiResponse(false, None, Some(message))
  }

  function Success<T>(data: Option<T>): (r: ApiResponse<T>)
    ensures r.success && r.data == data && r.error.None?
  {
    ApiResponse(true, data, None)
  }

  /** The fallback message for a failed status: `Erro HTTP: {status}`. */
  function HttpError(status: int): string {
    "Erro HTTP: " + Text.IntToString(status)
  }

  /** `contentType && contentType.includes("application/json")`. */
  predicate IsJsonContent(contentType: Option<string>) {
    contentType.Some? && Text.Includes(contentType.value, "application/json")
  }

  /** The first element of a parsed `errors` array, when there is one. */
  predicate HasFirstError(errors: Option<seq<string>>) {
    errors.Some? && |errors.value| > 0
  }

  /** `errorData.errors && errorData.errors.length > 0 ? errorData.errors[0] : fallback`. */
  function FirstErrorOr(errors: Option<seq<string>>, fallback: string): (r: string)
    ensures HasFirstError(errors) ==> r == errors.value[0]
    ensures !HasFirstError(errors) ==> r == fallback
  {
    if HasFirstError(errors) then errors.value[0] else fallback
  }

  const ConnectionError := "Erro de conexão com o servidor"
}

=== FILE: js.dfy ===
/** JavaScript-level vocabulary shared by every module of the model: nullable
    values, the outcome of an awaited call that may reject, dynamically typed
    values and their truthiness and string conversion. */
module Js {
  import Text

  /** A value that may be `null`/`undefined` (None) or present (Some). */
  datatype Option<+T> = None | Some(value: T) {
    function GetOr(default: T): T {
      match this
      case Some(v) => v
      case None => default
    }
  }

  /** The outcome of an awaited promise: it resolved to a value or it rejected. */
  datatype Call<+T> = Returned(value: T) | Threw

  /** Truthiness of a nullable string: `null`, `undefined` and `""` are falsy. */
  predicate Truthy(s: Option<string>) {
    s.Some? && s.value != ""
  }

  /** The expression `s || fallback` on a nullable string. */
  function OrElse(s: Option<string>, fallback: string): (r: string)
    ensures Truthy(s) ==> r == s.value
    ensures !Truthy(s) ==> r == fallback
    ensures fallback != "" ==> r != ""
  {
    if Truthy(s) then s.value else fallback
  }

  /** The expression `s || null`: a falsy string becomes `null`. */
  function OrNull(s: string): (r: Option<string>)
    ensures r.None? <==> s == ""
    ensures r.Some? ==> r.value == s
  {
    if s == "" then None else Some(s)
  }

  /** A dynamically typed JavaScript value, as read from an object property.
      Numbers are integers in this model; an object or array is kept as the
      JSON text it serialises to. */
  datatype Value = Undefined | Null | Bool(b: bool) | Num(n: int) | Str(s: string) | Obj(json: string)

  /** JavaScript truthiness: `undefined`, `null`, `false`, `0` and `""` are falsy. */
  predicate IsTruthy(v: Value) {
    match v
    case Undefined => false
    case Null => false
    case Bool(b) => b
    case Num(n) => n != 0
    case Str(s) => s != ""
    case Obj(_) => true
  }

  /** `String(v)`, which is what `v.toString()` yields for every truthy value. */
  function ToString(v: Value): (r: string)
    ensures v.Str? ==> r == v.s
    ensures v.Num? ==> Text.IsIntText(r) && Text.ParseInt(r) == v.n
  {
    match v
    case Undefined => "undefined"
    case Null => "null"
    case Bool(b) => if b then "true" else "false"
    case Num(n) => Text.RoundTripInt(n); Text.IntToString(n)
    case Str(s) => s
    case Obj(_) => "[object Object]"
  }

  /** `JSON.stringify(v)`: `undefined` has no JSON text; a string is quoted
      (escaping of quotes and control characters is not modelled). */
  function Stringify(v: Value): (r: Option<string>)
    ensures r.None? <==> v.Undefined?
    ensures v.Obj? ==> r == Some(v.json)
  {
    match v
    case Undefined => None
    case Null => Some("null")
    case Bool(b) => Some(if b then "true" else "false")
    case Num(n) => Some(Text.IntToString(n))
    case Str(s) => Some("\"" + s + "\"")
    case Obj(json) => Some(json)
  }

  /** Browser `localStorage`: keys to stored strings. */
  type Storage = map<string, string>

  /** `localStorage.getItem(key)`. */
  function GetItem(storage: Storage, key: string): (r: Option<string>)
    ensures r.Some? <==> key in storage
    ensures r.Some? ==> r.value == storage[key]
  {
    if key in storage then Some(storage[key]) else None
  }
}

=== FILE: list_hook.dfy ===
/** The operations the hand-written sales and customer hooks share
    (hooks/use-sales.tsx, hooks/use-customers.tsx). Unlike `useCrud`, they
    patch the list locally after a successful call instead of refetching.
    Each starts with `setLoading(true)`/`setError(null)`, ends with
    `setLoading(false)`, and resolves to `{success, error?}`. */
module ListHook {
  import opened Js
  import opened Http
  import opened HookState
  import ListPatch

  const ConnectionLost := "Erro de conexão"

  datatype Step<+T> = Step(state: State<T>, outcome: Outcome)

  /** The element test `x.id === id`. */
  function WithId<T>(idOf: T -> string, id: string): T -> bool {
    x => idOf(x) == id
  }

  /** The element test `x.id !== id`. */
  function Others<T>(idOf: T -> string, id: string): T -> bool {
    x => idOf(x) != id
  }

  /** The message of a failed call: the envelope's error or the operation's default. */
  function FailureOf<R>(call: Call<ApiResponse<R>>, fallback: string): (m: string)
    requires fallback != ""
    ensures m != ""
    ensures call.Threw? ==> m == ConnectionLost
    ensures call.Returned? ==> m == OrElse(call.value.error, fallback)
  {
    match call
    case Threw => ConnectionLost
    case Returned(response) => OrElse(response.error, fallback)
  }

  /** The end of an operation: the patched items on success, the unchanged
      items and the error otherwise; loading is off either way. */
  function Finish<T>(s: State<T>, items: seq<T>, failure: Option<string>): (r: Step<T>)
    ensures Reports(r.outcome, r.state) && !r.state.loading
    ensures r.state.error == failure
    ensures failure.None? ==> r.state.items == items
    ensures failure.Some? ==> r.state.items == s.items
  {
    match failure
    case None => Step(State(items, false, None), Outcome(true, None))
    case Some(m) => Step(State(s.items, false, Some(m)), Outcome(false, Some(m)))
  }

  /** `fetch` of the sales hook: an envelope that succeeded with a list
      replaces the items with its mapped elements; otherwise the list is
      emptied and the error recorded. */
  function FetchMapped<T, R>(s: State<T>, call: Call<ApiResponse<seq<R>>>, convert: R -> T, fallback: string): (r: State<T>)
    requires fallback != ""
    ensures !r.loading
    ensures r.error.None? <==> call.Returned? && call.value.success && call.value.data.Some?
    ensures r.error.None? ==>
              && |r.items| == |call.value.data.value|
              && (forall i :: 0 <= i < |r.items| ==> r.items[i] == convert(call.value.data.value[i]))
    ensures r.error.Some? ==> r.items == [] && r.error == Some(FailureOf(call, fallback))
  {
    if call.Returned? && call.value.success && call.value.data.Some? then
      State(ListPatch.MapAll(call.value.data.value, convert), false, None)
    else
      State([], false, Some(FailureOf(call, fallback)))
  }

  /** `create`: a success that carries the created record appends exactly
      that record, mapped, at the end. */
  function Created<T, R>(s: State<T>, call: Call<ApiResponse<R>>, convert: R -> T, fallback: string): (r: Step<T>)
    requires fallback != ""
    ensures Reports(r.outcome, r.state) && !r.state.loading
    ensures r.outcome.success <==> call.Returned? && call.value.success && call.value.data.Some?
    ensures r.outcome.success ==> r.state.items == s.items + [convert(call.value.data.value)]
    ensures !r.outcome.success ==> r.state.items == s.items && r.state.error == Some(FailureOf(call, fallback))
  {
    if call.Returned? && call.value.success && call.value.data.Some? then
      Finish(s, ListPatch.Append(s.items, convert(call.value.data.value)), None)
    else
      Finish(s, s.items, Some(FailureOf(call, fallback)))
  }

  /** `update(id)`: a success that carries the updated record replaces every
      element with that id by it; the rest, and the length, are unchanged. */
  function Updated<T, R>(s: State<T>, id: string, idOf: T -> string, call: Call<ApiResponse<R>>,
                         convert: R -> T, fallback: string): (r: Step<T>)
    requires fallback != ""
    ensures Reports(r.outcome, r.state) && !r.state.loading
    ensures r.outcome.success <==> call.Returned? && call.value.success && call.value.data.Some?
    ensures |r.state.items| == |s.items|
    ensures r.outcome.success ==>
              forall i :: 0 <= i < |s.items| ==>
                r.state.items[i] == if idOf(s.items[i]) == id then convert(call.value.data.value) else s.items[i]
    ensures !r.outcome.success ==> r.state.items == s.items && r.state.error == Some(FailureOf(call, fallback))
  {
    if call.Returned? && call.value.success && call.value.data.Some? then
      var record := convert(call.value.data.value);
      Finish(s, ListPatch.MapWhere(s.items, WithId(idOf, id), _ => record), None)
    else
      Finish(s, s.items, Some(FailureOf(call, fallback)))
  }

  /** `remove(id)`: success alone (no data needed) drops every element with
      that id and keeps the others in their order. */
  function Removed<T(!new), R>(s: State<T>, id: string, idOf: T -> string, call: Call<ApiResponse<R>>, fallback: string): (r: Step<T>)
    requires fallback != ""
    ensures Reports(r.outcome, r.state) && !r.state.loading
    ensures r.outcome.success <==> call.Returned? && call.value.success
    ensures r.outcome.success ==>
              && ListPatch.IsSubsequence(r.state.items, s.items)
              && (forall i :: 0 <= i < |r.state.items| ==> idOf(r.state.items[i]) != id)
              && (forall i :: 0 <= i < |s.items| && idOf(s.items[i]) != id ==> s.items[i] in r.state.items)
              && (forall x :: multiset(r.state.items)[x] == if idOf(x) != id then multiset(s.items)[x] else 0)
    ensures !r.outcome.success ==> r.state.items == s.items && r.state.error == Some(FailureOf(call, fallback))
  {
    if call.Returned? && call.value.success then
      ListPatch.FilterCounts(s.items, Others(idOf, id));
      Finish(s, ListPatch.Filter(s.items, Others(idOf, id)), None)
    else
      Finish(s, s.items, Some(FailureOf(call, fallback)))
  }

  /** Removing twice with the same id has the effect of removing once. */
  lemma RemoveTwice<T(!new), R>(s: State<T>, id: string, idOf: T -> string, response: ApiResponse<R>, fallback: string)
    requires fallback != "" && response.success
    ensures var once := Removed(s, id, idOf, Returned(response), fallback).state;
            Removed(once, id, idOf, Returned(response), fallback).state == once
  {
    ListPatch.FilterIdempotent(s.items, Others(idOf, id));
  }
}

=== FILE: list_patch.dfy ===
/** The local list patches the hand-written hooks apply after a successful
    call: `[...prev, x]`, `prev.map(x => match(x) ? f(x) : x)` and
    `prev.filter(keep)`. */
module ListPatch {
  import opened Js

  /** `a` is `b` with some elements left out, the rest in their original order. */
  predicate IsSubsequence<T(==)>(a: seq<T>, b: seq<T>)
    decreases |b|
  {
    if a == [] then true
    else if b == [] then false
    else if a[0] == b[0] then IsSubsequence(a[1..], b[1..])
    else IsSubsequence(a, b[1..])
  }

  lemma {:induction false} SubsequenceReflexive<T>(a: seq<T>)
    ensures IsSubsequence(a, a)
    decreases |a|
  {
    if a != [] {
      SubsequenceReflexive(a[1..]);
    }
  }

  /** `[...xs, x]`. */
  function Append<T>(xs: seq<T>, x: T): (r: seq<T>)
    ensures |r| == |xs| + 1
    ensures r[..|xs|] == xs && r[|xs|] == x
  {
    xs + [x]
  }

  /** `xs.map(f)`. */
  function MapAll<T, U>(xs: seq<T>, f: T -> U): (r: seq<U>)
    ensures |r| == |xs|
    ensures forall i :: 0 <= i < |xs| ==> r[i] == f(xs[i])
  {
    seq(|xs|, i requires 0 <= i < |xs| => f(xs[i]))
  }

  /** `xs.map(x => matches(x) ? f(x) : x)`: the matching elements are
      rewritten in place, the others stay, and the length is unchanged. */
  function MapWhere<T>(xs: seq<T>, matches: T -> bool, f: T -> T): (r: seq<T>)
    ensures |r| == |xs|
    ensures forall i :: 0 <= i < |xs| && matches(xs[i]) ==> r[i] == f(xs[i])
    ensures forall i :: 0 <= i < |xs| && !matches(xs[i]) ==> r[i] == xs[i]
  {
    seq(|xs|, i requires 0 <= i < |xs| => if matches(xs[i]) then f(xs[i]) else xs[i])
  }

  /** A rewrite that touches no element leaves the list as it was. */
  lemma MapWhereNoMatch<T>(xs: seq<T>, matches: T -> bool, f: T -> T)
    requires forall i :: 0 <= i < |xs| ==> !matches(xs[i])
    ensures MapWhere(xs, matches, f) == xs
  {
  }

  /** `xs.filter(keep)`. */
  function Filter<T>(xs: seq<T>, keep: T -> bool): (r: seq<T>)
    ensures |r| <= |xs|
    ensures forall i :: 0 <= i < |r| ==> keep(r[i]) && r[i] in xs
    ensures forall i :: 0 <= i < |xs| && keep(xs[i]) ==> xs[i] in r
    ensures IsSubsequence(r, xs)
    decreases |xs|
  {
    if xs == [] then []
    else
      var rest := Filter(xs[1..], keep);
      if keep(xs[0]) then
        assert ([xs[0]] + rest)[1..] == rest;
        [xs[0]] + rest
      else
        SubsequenceSkip(rest, xs);
        rest
  }

  /** The filter keeps every copy of a kept element and no copy of a
      rejected one: together with `IsSubsequence`, the result is exactly
      the kept elements in their order. */
  lemma {:induction false} FilterCounts<T(!new)>(xs: seq<T>, keep: T -> bool)
    ensures forall x :: multiset(Filter(xs, keep))[x] == if keep(x) then multiset(xs)[x] else 0
    decreases |xs|
  {
    if xs != [] {
      FilterCounts(xs[1..], keep);
      assert xs == [xs[0]] + xs[1..];
      assert multiset(xs) == multiset{xs[0]} + multiset(xs[1..]);
      if keep(xs[0]) {
        assert Filter(xs, keep) == [xs[0]] + Filter(xs[1..], keep);
        assert multiset(Filter(xs, keep)) == multiset{xs[0]} + multiset(Filter(xs[1..], keep));
      }
    }
  }

  /** Dropping the head of the longer sequence keeps a subsequence of its tail. */
  lemma {:induction false} SubsequenceSkip<T>(a: seq<T>, b: seq<T>)
    requires b != [] && IsSubsequence(a, b[1..])
    ensures IsSubsequence(a, b)
    decreases |b|, 0
  {
    if a != [] && a[0] == b[0] {
      SubsequenceTail(a, b[1..]);
    }
  }

  /** A subsequence without its head is still a subsequence. */
  lemma {:induction false} SubsequenceTail<T>(a: seq<T>, b: seq<T>)
    requires a != [] && IsSubsequence(a, b)
    ensures IsSubsequence(a[1..], b)
    decreases |b|, 1
  {
    if a[0] == b[0] {
      if a[1..] != [] {
        SubsequenceSkip(a[1..], b);
      }
    } else {
      SubsequenceTail(a, b[1..]);
      if a[1..] != [] {
        SubsequenceSkip(a[1..], b);
      }
    }
  }

  /** Filtering twice with the same test changes nothing the second time. */
  lemma {:induction false} FilterIdempotent<T>(xs: seq<T>, keep: T -> bool)
    ensures Filter(Filter(xs, keep), keep) == Filter(xs, keep)
    decreases |xs|
  {
    if xs != [] {
      FilterIdempotent(xs[1..], keep);
      if keep(xs[0]) {
        assert ([xs[0]] + Filter(xs[1..], keep))[1..] == Filter(xs[1..], keep);
      }
    }
  }

  /** A filter and its complement split the list: every element lands in
      exactly one of the two. */
  lemma {:induction false} FilterPartition<T>(xs: seq<T>, keep: T -> bool)
    ensures |Filter(xs, keep)| + |Filter(xs, x => !keep(x))| == |xs|
    decreases |xs|
  {
    if xs != [] {
      FilterPartition(xs[1..], keep);
    }
  }

  /** A test every element passes keeps the whole list. */
  lemma {:induction false} FilterAll<T>(xs: seq<T>, keep: T -> bool)
    requires forall i :: 0 <= i < |xs| ==> keep(xs[i])
    ensures Filter(xs, keep) == xs
    decreases |xs|
  {
    if xs != [] {
      FilterAll(xs[1..], keep);
    }
  }

  /** Filtering a concatenation filters each part. */
  lemma {:induction false} FilterAppend<T>(xs: seq<T>, ys: seq<T>, keep: T -> bool)
    ensures Filter(xs + ys, keep) == Filter(xs, keep) + Filter(ys, keep)
    decreases |xs|
  {
    if xs == [] {
      assert xs + ys == ys;
    } else {
      assert (xs + ys)[1..] == xs[1..] + ys;
      FilterAppend(xs[1..], ys, keep);
    }
  }

  /** `xs.findIndex(matches)`: the first matching position, or -1. */
  function FindIndex<T>(xs: seq<T>, matches: T -> bool): (r: int)
    ensures r == -1 <==> forall i :: 0 <= i < |xs| ==> !matches(xs[i])
    ensures r != -1 ==> 0 <= r < |xs| && matches(xs[r])
    ensures r != -1 ==> forall j :: 0 <= j < r ==> !matches(xs[j])
    decreases |xs|
  {
    if xs == [] then -1
    else if matches(xs[0]) then 0
    else
      var k := FindIndex(xs[1..], matches);
      if k == -1 then -1 else k + 1
  }

  /** `xs.find(matches)`: the first matching element, if any. */
  function Find<T>(xs: seq<T>, matches: T -> bool): (r: Option<T>)
    ensures r.None? <==> forall i :: 0 <= i < |xs| ==> !matches(xs[i])
    ensures r.Some? ==> r.value == xs[FindIndex(xs, matches)] && matches(r.value)
  {
    var k := FindIndex(xs, matches);
    if k == -1 then None else Some(xs[k])
  }
}

=== FILE: lookup.dfy ===
/** The foreign-key columns of the list screens: the name of the first
    record of another list whose id matches, or a fixed fallback text when
    there is none or its name is falsy. Every management screen writes this
    lookup out by hand; it is defined once here. */
module Lookup {
  import opened Js
  import opened CustomerTypes
  import ListPatch

  /** What a lookup reads of a record: its id and its name, which some
      record types leave optional. */
  datatype Entry = Entry(id: string, name: Option<string>)

  /** The element test `x.id === id`. */
  function HasId(id: string): Entry -> bool {
    (e: Entry) => e.id == id
  }

  /** `entries.find(x => x.id === id)?.name || fallback`. */
  function NameOr(entries: seq<Entry>, id: string, fallback: string): (r: string)
    ensures (forall i :: 0 <= i < |entries| ==> entries[i].id != id) ==> r == fallback
    ensures r == fallback || exists i :: 0 <= i < |entries| && entries[i].id == id && entries[i].name == Some(r)
    ensures r == fallback || r != ""
  {
    match ListPatch.Find(entries, HasId(id))
    case None => fallback
    case Some(e) => OrElse(e.name, fallback)
  }

  /** The first record with the id decides the text, whatever later records
      with the same id hold; an empty or absent name shows the fallback. */
  lemma FirstMatchWins(entries: seq<Entry>, id: string, fallback: string, k: nat)
    requires k < |entries| && entries[k].id == id
    requires forall j :: 0 <= j < k ==> entries[j].id != id
    ensures NameOr(entries, id, fallback) == OrElse(entries[k].name, fallback)
  {
    assert HasId(id)(entries[k]);
    var i := ListPatch.FindIndex(entries, HasId(id));
    assert HasId(id)(entries[i]);
  }

  /** `FirstMatchWins` for every position at once. */
  lemma FirstMatchDecides(entries: seq<Entry>, id: string, fallback: string)
    ensures forall k :: 0 <= k < |entries| && entries[k].id == id && (forall j :: 0 <= j < k ==> entries[j].id != id) ==>
              NameOr(entries, id, fallback) == OrElse(entries[k].name, fallback)
  {
    forall k | 0 <= k < |entries| && entries[k].id == id && (forall j :: 0 <= j < k ==> entries[j].id != id)
      ensures NameOr(entries, id, fallback) == OrElse(entries[k].name, fallback)
    {
      FirstMatchWins(entries, id, fallback, k);
    }
  }

  const CustomerNotFound := "Cliente não encontrado"

  /** What a lookup reads of a customer, whose name is always present. */
  function CustomerEntries(customers: seq<Customer>): (r: seq<Entry>)
    ensures |r| == |customers|
    ensures forall i :: 0 <= i < |customers| ==> r[i] == Entry(customers[i].id, Some(customers[i].name))
  {
    ListPatch.MapAll(customers, (c: Customer) => Entry(c.id, Some(c.name)))
  }

  /** `getCustomerName`, which the dashboard and the sales screen both write
      out: the first customer with the id names the sale, and an unknown id
      or an empty name shows "Cliente não encontrado". */
  function CustomerName(customers: seq<Customer>, id: string): (r: string)
    ensures (forall i :: 0 <= i < |customers| ==> customers[i].id != id) ==> r == CustomerNotFound
    ensures r == CustomerNotFound || exists i :: 0 <= i < |customers| && customers[i].id == id && customers[i].name == r
    ensures forall k :: 0 <= k < |customers| && customers[k].id == id && (forall j :: 0 <= j < k ==> customers[j].id != id) ==>
              r == OrElse(Some(customers[k].name), CustomerNotFound)
  {
    FirstMatchDecides(CustomerEntries(customers), id, CustomerNotFound);
    NameOr(CustomerEntries(customers), id, CustomerNotFound)
  }
}

=== FILE: managed_screen.dfy ===
/** The dialog state every management screen keeps beside its list
    (the management components): whether the edit dialog is open, the
    record it edits, and the list hook it refetches after a save. */
module ManagedScreen {
  import opened Js
  import opened Http
  import opened HookState
  import CrudHook

  /** `isModalOpen`, `editing…` and the screen's list hook. */
  datatype Screen<+E, +T> = Screen(modalOpen: bool, editing: Option<E>, list: State<T>)

  /** `handleAdd`: the dialog opens on an empty form. */
  function Add<E, T>(s: Screen<E, T>): (r: Screen<E, T>)
    ensures r.modalOpen && r.editing.None? && r.list == s.list
  {
    s.(modalOpen := true, editing := None)
  }

  /** `handleEdit`: the dialog opens on the given record. */
  function Edit<E, T>(s: Screen<E, T>, record: E): (r: Screen<E, T>)
    ensures r.modalOpen && r.editing == Some(record) && r.list == s.list
  {
    s.(modalOpen := true, editing := Some(record))
  }

  /** `handleCloseModal`: the dialog closes and forgets its record. */
  function Close<E, T>(s: Screen<E, T>): (r: Screen<E, T>)
    ensures !r.modalOpen && r.editing.None? && r.list == s.list
  {
    s.(modalOpen := false, editing := None)
  }

  /** `handleSuccess` on a screen backed by `useCrud`: the dialog closes and
      the list is fetched again, `refetch` being what that fetch settled to. */
  function Success<E, T>(s: Screen<E, T>, refetch: Call<ApiResponse<seq<T>>>): (r: Screen<E, T>)
    ensures !r.modalOpen && r.editing.None? && !r.list.loading
    ensures r.list.error.None? <==> refetch.Returned? && refetch.value.success && refetch.value.data.Some?
    ensures r.list.error.None? ==> r.list.items == refetch.value.data.value
  {
    Close(s).(list := CrudHook.Fetch(s.list, refetch))
  }

  /** Cancelling an edit leaves the screen as it was before the dialog
      opened, apart from the dialog itself. */
  lemma CancelForgetsDialog<E, T>(s: Screen<E, T>, record: E)
    ensures Close(Edit(s, record)) == Close(Add(s)) == Close(s)
  {
  }

  /** After a save, what the screen shows depends only on the refetch: not
      on whether the dialog created or edited, nor on the list before. */
  lemma SuccessForgetsHistory<E, T>(s1: Screen<E, T>, s2: Screen<E, T>, refetch: Call<ApiResponse<seq<T>>>)
    ensures Success(s1, refetch) == Success(s2, refetch)
  {
    CrudHook.FetchForgetsPrior(s1.list, s2.list, refetch);
  }
}

=== FILE: material_input_screen.dfy ===
/** The stock-entry screen
    (components/material-inputs/material-input-management.tsx): the
    material column, the meters column and the search over the material id. */
module MaterialInputScreen {
  import opened Js
  import opened CatalogTypes
  import ListPatch
  import Lookup
  import CrudScreen
  import Text
  import Ui

  const MaterialNotFound := "Material não encontrado"
  const MetersUnit := " m"

  /** `getMaterialName`: the first material with the id; a material may
      have no name, and then the fallback shows. */
  function MaterialName(materials: seq<Material>, id: string): (r: string)
    ensures (forall i :: 0 <= i < |materials| ==> materials[i].id != id) ==> r == MaterialNotFound
    ensures r == MaterialNotFound || exists i :: 0 <= i < |materials| && materials[i].id == id && materials[i].name == Some(r)
    ensures forall k :: 0 <= k < |materials| && materials[k].id == id && (forall j :: 0 <= j < k ==> materials[j].id != id) ==>
              r == OrElse(materials[k].name, MaterialNotFound)
  {
    var entries := ListPatch.MapAll(materials, (m: Material) => Lookup.Entry(m.id, m.name));
    Lookup.FirstMatchDecides(entries, id, MaterialNotFound);
    Lookup.NameOr(entries, id, MaterialNotFound)
  }

  /** The material column: the embedded material's name when it is
      non-empty, else the lookup by `materialId`. */
  function MaterialColumn(materials: seq<Material>, input: MaterialInput): (r: string)
    ensures input.material.Some? && input.material.value.name != "" ==> r == input.material.value.name
    ensures input.material.None? || input.material.value.name == "" ==> r == MaterialName(materials, input.materialId)
  {
    if input.material.Some? && input.material.value.name != "" then input.material.value.name
    else MaterialName(materials, input.materialId)
  }

  /** An entry that embeds a named material shows that name whatever the
      loaded materials list holds, even when it names the id differently. */
  lemma EmbeddedNameWins(input: MaterialInput, loaded1: seq<Material>, loaded2: seq<Material>)
    requires input.material.Some? && input.material.value.name != ""
    ensures MaterialColumn(loaded1, input) == MaterialColumn(loaded2, input) == input.material.value.name
  {
  }

  /** Without an embedded name, an id no loaded material has shows
      "Material não encontrado". */
  lemma UnknownMaterial(materials: seq<Material>, input: MaterialInput)
    requires input.material.None? || input.material.value.name == ""
    requires forall i :: 0 <= i < |materials| ==> materials[i].id != input.materialId
    ensures MaterialColumn(materials, input) == MaterialNotFound
  {
  }

  /** The meters column, `${meters} m`. */
  function MetersColumn(input: MaterialInput): (r: string)
    ensures |r| > 2 && r[|r| - 2..] == MetersUnit
    ensures Text.IsIntText(r[..|r| - 2]) && Text.ParseInt(r[..|r| - 2]) == input.meters
  {
    Ui.WithUnit(input.meters, MetersUnit)
  }

  /** The entry as the generic table reads it. */
  function AsRecord(input: MaterialInput): (r: CrudScreen.Record)
    ensures "materialId" in r && r["materialId"] == Str(input.materialId)
  {
    map[
      "id" := Str(input.id),
      "meters" := Num(input.meters),
      "weight" := Num(input.weight),
      "totalPrice" := Num(input.totalPrice),
      "materialId" := Str(input.materialId),
      "material" := (if input.material.Some? then Obj("{}") else Undefined)]
  }

  const SearchFields: seq<string> := ["materialId"]

  /** The search looks at the material id only, never at the material name
      the table shows. */
  lemma SearchByMaterialId(input: MaterialInput, term: string)
    ensures CrudScreen.AnyFieldMatches(AsRecord(input), SearchFields, term) <==>
              input.materialId != "" && Text.IncludesIgnoringCase(input.materialId, term)
  {
    assert CrudScreen.Field(AsRecord(input), SearchFields[0]) == Str(input.materialId);
  }
}

=== FILE: material_modal.dfy ===
/** The material dialog (components/materials/material-modal.tsx). */
module MaterialModal {
  import opened Js
  import opened Http
  import opened CatalogTypes
  import Text
  import Form

  datatype MaterialForm = MaterialForm(name: string, supplie: string, inside: int, meshTypeId: string, colorId: string)

  /** The body of a create request; an update request adds the id. */
  datatype MaterialRequest = MaterialRequest(name: Option<string>, supplie: Option<string>, inside: int, meshTypeId: string, colorId: string)

  const MeshRequired := "Tipo de malha é obrigatório"
  const ColorRequired := "Cor é obrigatória"
  const InsideNotPositive := "Quantidade interna deve ser maior que zero"
  const SaveFailed := "Erro ao salvar material"

  /** The form when the dialog opens: the edited material's fields, or an
      empty form with one piece inside. */
  function Open(material: Option<Material>): (f: MaterialForm)
    ensures material.None? ==> f == MaterialForm("", "", 1, "", "")
    ensures material.Some? ==>
              && f.name == OrElse(material.value.name, "") && f.supplie == OrElse(material.value.supplie, "")
              && f.inside == material.value.inside
              && f.meshTypeId == material.value.meshTypeId && f.colorId == material.value.colorId
  {
    match material
    case Some(m) => MaterialForm(OrElse(m.name, ""), OrElse(m.supplie, ""), m.inside, m.meshTypeId, m.colorId)
    case None => MaterialForm("", "", 1, "", "")
  }

  /** The guards of `handleSubmit`, in the order they run. */
  const Rules: seq<Form.Rule<MaterialForm>> := [
    Form.Rule((f: MaterialForm) => f.meshTypeId != "", MeshRequired),
    Form.Rule((f: MaterialForm) => f.colorId != "", ColorRequired),
    Form.Rule((f: MaterialForm) => f.inside > 0, InsideNotPositive)
  ]

  /** A material is accepted with a mesh, a colour and a positive inside
      count; the name and the supplier are never required. */
  function Validate(f: MaterialForm): (r: Option<string>)
    ensures r.None? <==> f.meshTypeId != "" && f.colorId != "" && f.inside > 0
  {
    assert Rules[0].holds(f) <==> f.meshTypeId != "";
    assert Rules[1].holds(f) <==> f.colorId != "";
    assert Rules[2].holds(f) <==> f.inside > 0;
    assert Rules[0].holds(f) && Rules[1].holds(f) && Rules[2].holds(f)
           <==> f.meshTypeId != "" && f.colorId != "" && f.inside > 0;
    Form.FirstFailure(f, Rules)
  }

  lemma {:induction false} ValidateOrder(f: MaterialForm)
    ensures f.meshTypeId == "" ==> Validate(f) == Some(MeshRequired)
    ensures f.meshTypeId != "" && f.colorId == "" ==> Validate(f) == Some(ColorRequired)
    ensures f.meshTypeId != "" && f.colorId != "" && f.inside <= 0 ==> Validate(f) == Some(InsideNotPositive)
  {
    var i := if f.meshTypeId == "" then 0 else if f.colorId == "" then 1 else 2;
    if !Rules[i].holds(f) {
      Form.FirstFailureAt(f, Rules, i);
    }
  }

  /** Whatever the name and supplier hold, the verdict is the same. */
  lemma NameNeverRequired(f: MaterialForm, name: string, supplie: string)
    ensures Validate(f.(name := name, supplie := supplie)) == Validate(f)
  {
    ValidateOrder(f);
    ValidateOrder(f.(name := name, supplie := supplie));
  }

  /** The request: name and supplier trimmed, and null when nothing is left. */
  function Payload(f: MaterialForm): (p: MaterialRequest)
    ensures p.name.None? <==> Text.AllWhiteSpace(f.name)
    ensures p.supplie.None? <==> Text.AllWhiteSpace(f.supplie)
    ensures p.name.Some? ==> p.name.value == Text.Trim(f.name) && Text.Includes(f.name, p.name.value)
    ensures p.supplie.Some? ==> p.supplie.value == Text.Trim(f.supplie) && Text.Includes(f.supplie, p.supplie.value)
    ensures p.inside == f.inside && p.meshTypeId == f.meshTypeId && p.colorId == f.colorId
  {
    MaterialRequest(OrNull(Text.Trim(f.name)), OrNull(Text.Trim(f.supplie)), f.inside, f.meshTypeId, f.colorId)
  }

  /** `handleSubmit`, given what the materials hook's create or update settled to. */
  function Submit<R>(f: MaterialForm, material: Option<Material>, result: Call<ApiResponse<R>>): (d: Form.Dialog<MaterialRequest>)
    ensures d.call.Some? <==> Validate(f).None?
    ensures d.call.Some? ==> d.call.value.payload == Payload(f) && (d.call.value.Update? <==> material.Some?)
    ensures d.call.Some? && material.Some? ==> d.call.value.id == material.value.id
    ensures d.succeeded <==> d.call.Some? && result.Returned? && result.value.success
    ensures d.succeeded <==> d.error == ""
    ensures d.call.Some? && result.Returned? && !result.value.success ==>
              d.error == OrElse(result.value.error, SaveFailed)
  {
    ValidateOrder(f);
    Form.Submit(Validate(f), Payload(f), if material.Some? then Some(material.value.id) else None, Form.OfEnvelope(result), SaveFailed)
  }
}

=== FILE: material_screen.dfy ===
/** The materials screen (components/materials/material-management.tsx):
    the mesh and colour columns and the search over name and supplier. */
module MaterialScreen {
  import opened Js
  import opened CatalogTypes
  import ListPatch
  import Lookup
  import CrudScreen
  import Text

  const MeshNotFound := "Malha não encontrada"
  const ColorNotFound := "Cor não encontrada"

  /** `getMeshName`: the first mesh with the id, else the fallback. */
  function MeshName(meshes: seq<Mesh>, id: string): (r: string)
    ensures (forall i :: 0 <= i < |meshes| ==> meshes[i].id != id) ==> r == MeshNotFound
    ensures r == MeshNotFound || exists i :: 0 <= i < |meshes| && meshes[i].id == id && meshes[i].name == r
    ensures forall k :: 0 <= k < |meshes| && meshes[k].id == id && (forall j :: 0 <= j < k ==> meshes[j].id != id) ==>
              r == OrElse(Some(meshes[k].name), MeshNotFound)
  {
    var entries := ListPatch.MapAll(meshes, (m: Mesh) => Lookup.Entry(m.id, Some(m.name)));
    Lookup.FirstMatchDecides(entries, id, MeshNotFound);
    Lookup.NameOr(entries, id, MeshNotFound)
  }

  /** `getColorName`: the first colour with the id, else the fallback. */
  function ColorName(colors: seq<Color>, id: string): (r: string)
    ensures (forall i :: 0 <= i < |colors| ==> colors[i].id != id) ==> r == ColorNotFound
    ensures r == ColorNotFound || exists i :: 0 <= i < |colors| && colors[i].id == id && colors[i].name == r
    ensures forall k :: 0 <= k < |colors| && colors[k].id == id && (forall j :: 0 <= j < k ==> colors[j].id != id) ==>
              r == OrElse(Some(colors[k].name), ColorNotFound)
  {
    var entries := ListPatch.MapAll(colors, (c: Color) => Lookup.Entry(c.id, Some(c.name)));
    Lookup.FirstMatchDecides(entries, id, ColorNotFound);
    Lookup.NameOr(entries, id, ColorNotFound)
  }

  /** The material as the generic table reads it; a missing name or
      supplier reads as `null`. */
  function AsRecord(m: Material): (r: CrudScreen.Record)
    ensures "name" in r && (r["name"] == Null <==> m.name.None?)
    ensures "supplie" in r && (r["supplie"] == Null <==> m.supplie.None?)
  {
    map[
      "id" := Str(m.id),
      "name" := (if m.name.Some? then Str(m.name.value) else Null),
      "supplie" := (if m.supplie.Some? then Str(m.supplie.value) else Null),
      "inside" := Num(m.inside),
      "meshTypeId" := Str(m.meshTypeId),
      "colorId" := Str(m.colorId)]
  }

  const SearchFields: seq<string> := ["name", "supplie"]

  /** A term finds a material by its name or its supplier, whichever is
      present; the mesh and colour are not searched. */
  lemma SearchByNameOrSupplier(m: Material, term: string)
    ensures CrudScreen.AnyFieldMatches(AsRecord(m), SearchFields, term) <==>
              || (Truthy(m.name) && Text.IncludesIgnoringCase(m.name.value, term))
              || (Truthy(m.supplie) && Text.IncludesIgnoringCase(m.supplie.value, term))
  {
    assert CrudScreen.Field(AsRecord(m), SearchFields[0]) == AsRecord(m)["name"];
    assert CrudScreen.Field(AsRecord(m), SearchFields[1]) == AsRecord(m)["supplie"];
  }
}

=== FILE: mesh_modal.dfy ===
/** The mesh-type dialog (components/meshes/mesh-modal.tsx). */
module MeshModal {
  import opened Js
  import opened Http
  import opened CatalogTypes
  import Text
  import Form

  /** The form, which is also the body of a create request. */
  datatype MeshForm = MeshForm(name: string, composition: string)

  const NameRequired := "Nome é obrigatório"
  const CompositionRequired := "Composição é obrigatória"
  const SaveFailed := "Erro ao salvar tipo de malha"

  /** The form when the dialog opens: the edited mesh, or both fields empty. */
  function Open(mesh: Option<Mesh>): (f: MeshForm)
    ensures mesh.None? ==> f == MeshForm("", "")
    ensures mesh.Some? ==> f == MeshForm(mesh.value.name, mesh.value.composition)
  {
    match mesh
    case Some(m) => MeshForm(m.name, m.composition)
    case None => MeshForm("", "")
  }

  /** The guards of `handleSubmit`, in order. A `!x.trim()` guard is stated
      as "all white space", which is when `Text.Trim` leaves nothing. */
  const Rules: seq<Form.Rule<MeshForm>> := [
    Form.Rule((f: MeshForm) => !Text.AllWhiteSpace(f.name), NameRequired),
    Form.Rule((f: MeshForm) => !Text.AllWhiteSpace(f.composition), CompositionRequired)
  ]

  /** A mesh is accepted when neither field is all white space. */
  function Validate(f: MeshForm): (r: Option<string>)
    ensures r.None? <==> !Text.AllWhiteSpace(f.name) && !Text.AllWhiteSpace(f.composition)
  {
    assert Rules[0].holds(f) <==> !Text.AllWhiteSpace(f.name);
    assert Rules[1].holds(f) <==> !Text.AllWhiteSpace(f.composition);
    assert Rules[0].holds(f) && Rules[1].holds(f) <==> !Text.AllWhiteSpace(f.name) && !Text.AllWhiteSpace(f.composition);
    Form.FirstFailure(f, Rules)
  }

  lemma {:induction false} ValidateOrder(f: MeshForm)
    ensures Text.AllWhiteSpace(f.name) ==> Validate(f) == Some(NameRequired)
    ensures !Text.AllWhiteSpace(f.name) && Text.AllWhiteSpace(f.composition) ==> Validate(f) == Some(CompositionRequired)
  {
    assert Rules[0].holds(f) <==> !Text.AllWhiteSpace(f.name);
    assert Rules[1].holds(f) <==> !Text.AllWhiteSpace(f.composition);
    if Text.AllWhiteSpace(f.name) {
      Form.FirstFailureAt(f, Rules, 0);
    } else if Text.AllWhiteSpace(f.composition) {
      Form.FirstFailureAt(f, Rules, 1);
    }
  }

  /** `handleSubmit`: the form is sent untrimmed. */
  function Submit<R>(f: MeshForm, mesh: Option<Mesh>, result: Call<ApiResponse<R>>): (d: Form.Dialog<MeshForm>)
    ensures d.call.Some? <==> Validate(f).None?
    ensures d.call.Some? ==> d.call.value.payload == f && (d.call.value.Update? <==> mesh.Some?)
    ensures d.call.Some? && mesh.Some? ==> d.call.value.id == mesh.value.id
    ensures d.succeeded <==> d.call.Some? && result.Returned? && result.value.success
    ensures d.succeeded <==> d.error == ""
    ensures d.call.Some? && result.Returned? && !result.value.success ==>
              d.error == OrElse(result.value.error, SaveFailed)
  {
    ValidateOrder(f);
    Form.Submit(Validate(f), f, if mesh.Some? then Some(mesh.value.id) else None, Form.OfEnvelope(result), SaveFailed)
  }
}

=== FILE: product_modal.dfy ===
/** The product dialog (components/products/product-modal.tsx). */
module ProductModal {
  import opened Js
  import opened Http
  import opened CatalogTypes
  import Text
  import Form

  datatype ProductForm = ProductForm(name: string, description: string, isSet: bool, materialId: string)

  /** The body of a create request; an update request adds the id. */
  datatype ProductRequest = ProductRequest(cod: string, name: string, description: string, isSet: bool, materialId: string)

  const NameRequired := "Nome é obrigatório"
  const MaterialRequired := "Material é obrigatório"
  const SaveFailed := "Erro ao salvar produto"

  /** The form when the dialog opens: the edited product, or empty and not a set. */
  function Open(product: Option<Product>): (f: ProductForm)
    ensures product.None? ==> f == ProductForm("", "", false, "")
    ensures product.Some? ==>
              f == ProductForm(product.value.name, product.value.description, product.value.isSet, product.value.materialId)
  {
    match product
    case Some(p) => ProductForm(p.name, p.description, p.isSet, p.materialId)
    case None => ProductForm("", "", false, "")
  }

  /** The guards of `handleSubmit`, in order. A `!x.trim()` guard is stated
      as "all white space", which is when `Text.Trim` leaves nothing. */
  const Rules: seq<Form.Rule<ProductForm>> := [
    Form.Rule((f: ProductForm) => !Text.AllWhiteSpace(f.name), NameRequired),
    Form.Rule((f: ProductForm) => f.materialId != "", MaterialRequired)
  ]

  /** A product is accepted with a name that is not all white space and a material. */
  function Validate(f: ProductForm): (r: Option<string>)
    ensures r.None? <==> !Text.AllWhiteSpace(f.name) && f.materialId != ""
  {
    assert Rules[0].holds(f) <==> !Text.AllWhiteSpace(f.name);
    assert Rules[1].holds(f) <==> f.materialId != "";
    assert Rules[0].holds(f) && Rules[1].holds(f) <==> !Text.AllWhiteSpace(f.name) && f.materialId != "";
    Form.FirstFailure(f, Rules)
  }

  lemma {:induction false} ValidateOrder(f: ProductForm)
    ensures Text.AllWhiteSpace(f.name) ==> Validate(f) == Some(NameRequired)
    ensures !Text.AllWhiteSpace(f.name) && f.materialId == "" ==> Validate(f) == Some(MaterialRequired)
  {
    assert Rules[0].holds(f) <==> !Text.AllWhiteSpace(f.name);
    assert Rules[1].holds(f) <==> f.materialId != "";
    if Text.AllWhiteSpace(f.name) {
      Form.FirstFailureAt(f, Rules, 0);
    } else if f.materialId == "" {
      Form.FirstFailureAt(f, Rules, 1);
    }
  }

  /** The request: the form's fields with an empty product code. */
  function Payload(f: ProductForm): (p: ProductRequest)
    ensures p.cod == ""
    ensures p.name == f.name && p.description == f.description && p.isSet == f.isSet && p.materialId == f.materialId
  {
    ProductRequest("", f.name, f.description, f.isSet, f.materialId)
  }

  /** `handleSubmit`: create and update both send an empty code. */
  function Submit<R>(f: ProductForm, product: Option<Product>, result: Call<ApiResponse<R>>): (d: Form.Dialog<ProductRequest>)
    ensures d.call.Some? <==> Validate(f).None?
    ensures d.call.Some? ==> d.call.value.payload.cod == "" && d.call.value.payload == Payload(f)
    ensures d.call.Some? ==> (d.call.value.Update? <==> product.Some?)
    ensures d.call.Some? && product.Some? ==> d.call.value.id == product.value.id
    ensures d.succeeded <==> d.call.Some? && result.Returned? && result.value.success
    ensures d.succeeded <==> d.error == ""
    ensures d.call.Some? && result.Returned? && !result.value.success ==>
              d.error == OrElse(result.value.error, SaveFailed)
  {
    ValidateOrder(f);
    Form.Submit(Validate(f), Payload(f), if product.Some? then Some(product.value.id) else None, Form.OfEnvelope(result), SaveFailed)
  }
}

=== FILE: product_screen.dfy ===
/** The products screen (components/products/product-management.tsx): the
    material column, the set badge and the search over name and description. */
module ProductScreen {
  import opened Js
  import opened CatalogTypes
  import ListPatch
  import Lookup
  import CrudScreen
  import Text
  import Ui

  const NotAvailable := "N/A"

  /** `getMaterialName`: the first material with the id; an unknown id or a
      material without a name shows "N/A". */
  function MaterialName(materials: seq<Material>, id: string): (r: string)
    ensures (forall i :: 0 <= i < |materials| ==> materials[i].id != id) ==> r == NotAvailable
    ensures r == NotAvailable || exists i :: 0 <= i < |materials| && materials[i].id == id && materials[i].name == Some(r)
    ensures forall k :: 0 <= k < |materials| && materials[k].id == id && (forall j :: 0 <= j < k ==> materials[j].id != id) ==>
              r == OrElse(materials[k].name, NotAvailable)
  {
    var entries := ListPatch.MapAll(materials, (m: Material) => Lookup.Entry(m.id, m.name));
    Lookup.FirstMatchDecides(entries, id, NotAvailable);
    Lookup.NameOr(entries, id, NotAvailable)
  }

  /** The "É Conjunto" column: "Sim" on the default badge exactly for sets. */
  function SetBadge(p: Product): (r: Ui.Badge)
    ensures r.text == "Sim" <==> p.isSet
    ensures r.variant == Ui.Default <==> p.isSet
  {
    Ui.Flag(p.isSet)
  }

  /** The product as the generic table reads it. */
  function AsRecord(p: Product): (r: CrudScreen.Record)
    ensures "name" in r && r["name"] == Str(p.name)
    ensures "description" in r && r["description"] == Str(p.description)
  {
    map[
      "id" := Str(p.id),
      "cod" := Str(p.cod),
      "name" := Str(p.name),
      "description" := Str(p.description),
      "isSet" := Bool(p.isSet),
      "materialId" := Str(p.materialId)]
  }

  const SearchFields: seq<string> := ["name", "description"]

  /** A term finds a product by its name or its description. */
  lemma SearchByNameOrDescription(p: Product, term: string)
    ensures CrudScreen.AnyFieldMatches(AsRecord(p), SearchFields, term) <==>
              || (p.name != "" && Text.IncludesIgnoringCase(p.name, term))
              || (p.description != "" && Text.IncludesIgnoringCase(p.description, term))
  {
    assert CrudScreen.Field(AsRecord(p), SearchFields[0]) == Str(p.name);
    assert CrudScreen.Field(AsRecord(p), SearchFields[1]) == Str(p.description);
  }
}

=== FILE: sale_modal.dfy ===
/** The sale dialog (components/sales/sale-modal.tsx): the form it opens
    with, the guards of `handleSubmit`, and the request it sends. */
module SaleModal {
  import opened Js
  import opened HookState
  import opened SaleTypes
  import Text
  import Form

  /** The dialog's form. Number inputs hold integers here. */
  datatype SaleForm = SaleForm(
    sku: string,
    quantityItems: int,
    value: int,
    discount: int,
    status: int,
    customerId: string,
    userId: string,
    productVariationId: string,
    saleDate: string)

  const CustomerRequired := "Cliente é obrigatório"
  const VariationRequired := "Variação do produto é obrigatória"
  const QuantityNotPositive := "Quantidade deve ser maior que zero"
  const ValueNotPositive := "Valor deve ser maior que zero"
  const DiscountNegative := "Desconto não pode ser negativo"
  const DiscountTooLarge := "Desconto não pode ser maior ou igual ao valor"
  const SaveFailed := "Erro ao salvar venda"

  /** The date part of an ISO 8601 timestamp, `iso.split('T')[0]`. */
  function DatePart(iso: string): (r: string)
    ensures Text.StartsWith(iso, r) && 'T' !in r
    ensures |r| < |iso| ==> iso[|r|] == 'T'
  {
    Text.Before(iso, 'T')
  }

  /** The form when the dialog opens: the edited sale's fields (its date cut
      to the date part, or today when it has none), or the defaults of a new
      sale with the current user as seller. `nowIso` is the clock's reading. */
  function Open(sale: Option<Sale>, userId: Option<string>, nowIso: string): (f: SaleForm)
    ensures sale.None? ==>
              && f.sku == "" && f.quantityItems == 1 && f.value == 0 && f.discount == 0
              && f.status == Pending && f.customerId == "" && f.productVariationId == ""
              && f.userId == OrElse(userId, "")
    ensures sale.Some? ==>
              && f.sku == OrElse(sale.value.sku, "")
              && f.quantityItems == sale.value.quantityItems && f.value == sale.value.value
              && f.discount == sale.value.discount && f.status == sale.value.status
              && f.customerId == sale.value.customerId && f.userId == sale.value.userId
              && f.productVariationId == sale.value.productVariationId
    ensures sale.Some? && sale.value.saleDate != "" ==> f.saleDate == DatePart(sale.value.saleDate)
    ensures sale.None? || sale.value.saleDate == "" ==> f.saleDate == DatePart(nowIso)
    ensures 'T' !in f.saleDate
  {
    match sale
    case Some(s) =>
      SaleForm(OrElse(s.sku, ""), s.quantityItems, s.value, s.discount, s.status, s.customerId,
               s.userId, s.productVariationId,
               if s.saleDate != "" then DatePart(s.saleDate) else DatePart(nowIso))
    case None =>
      SaleForm("", 1, 0, 0, Pending, "", OrElse(userId, ""), "", DatePart(nowIso))
  }

  /** The guards of `handleSubmit`, in the order they run. */
  const Rules: seq<Form.Rule<SaleForm>> := [
    Form.Rule((f: SaleForm) => f.customerId != "", CustomerRequired),
    Form.Rule((f: SaleForm) => f.productVariationId != "", VariationRequired),
    Form.Rule((f: SaleForm) => f.quantityItems > 0, QuantityNotPositive),
    Form.Rule((f: SaleForm) => f.value > 0, ValueNotPositive),
    Form.Rule((f: SaleForm) => f.discount >= 0, DiscountNegative),
    Form.Rule((f: SaleForm) => f.discount < f.value, DiscountTooLarge)
  ]

  /** The verdict of the guards: an accepted sale has a customer, a
      variation, a positive quantity and value, and a discount in
      `[0, value)`, so its total is positive. */
  function Validate(f: SaleForm): (r: Option<string>)
    ensures r.None? <==>
              && f.customerId != "" && f.productVariationId != ""
              && f.quantityItems > 0 && f.value > 0 && 0 <= f.discount < f.value
    ensures r.None? ==> Total(f) > 0
  {
    assert Rules[0].holds(f) && Rules[1].holds(f) && Rules[2].holds(f) && Rules[3].holds(f) && Rules[4].holds(f) && Rules[5].holds(f)
           <==> f.customerId != "" && f.productVariationId != "" && f.quantityItems > 0 && f.value > 0 && 0 <= f.discount < f.value;
    Form.FirstFailure(f, Rules)
  }

  /** The total the dialog shows, `value - discount`. */
  function Total(f: SaleForm): int {
    f.value - f.discount
  }

  /** Each guard speaks only when every earlier one passed. */
  lemma {:induction false} ValidateOrder(f: SaleForm)
    ensures f.customerId == "" ==> Validate(f) == Some(CustomerRequired)
    ensures f.customerId != "" && f.productVariationId == "" ==> Validate(f) == Some(VariationRequired)
    ensures f.customerId != "" && f.productVariationId != "" && f.quantityItems <= 0 ==>
              Validate(f) == Some(QuantityNotPositive)
    ensures f.customerId != "" && f.productVariationId != "" && f.quantityItems > 0 && f.value <= 0 ==>
              Validate(f) == Some(ValueNotPositive)
    ensures (f.customerId != "" && f.productVariationId != "" && f.quantityItems > 0 && f.value > 0
             && f.discount < 0) ==> Validate(f) == Some(DiscountNegative)
    ensures (f.customerId != "" && f.productVariationId != "" && f.quantityItems > 0 && f.value > 0
             && f.discount >= 0 && f.discount >= f.value) ==> Validate(f) == Some(DiscountTooLarge)
  {
    var i := if f.customerId == "" then 0
             else if f.productVariationId == "" then 1
             else if f.quantityItems <= 0 then 2
             else if f.value <= 0 then 3
             else if f.discount < 0 then 4
             else 5;
    if !Rules[i].holds(f) {
      Form.FirstFailureAt(f, Rules, i);
    }
  }

  /** The request built from an accepted form: an empty sku is sent as
      null, and the seller falls back to the current user, then to "". */
  function Payload(f: SaleForm, userId: Option<string>): (p: SaleRequest)
    ensures f.sku == "" <==> p.sku.None?
    ensures p.sku.Some? ==> p.sku.value == f.sku
    ensures f.userId != "" ==> p.userId == f.userId
    ensures f.userId == "" ==> p.userId == OrElse(userId, "")
    ensures p.quantityItems == f.quantityItems && p.value == f.value && p.discount == f.discount
    ensures p.status == f.status && p.saleDate == f.saleDate
    ensures p.customerId == f.customerId && p.productVariationId == f.productVariationId
  {
    SaleRequest(OrNull(f.sku), f.quantityItems, f.value, f.discount, f.status, f.saleDate,
                f.customerId, if f.userId != "" then f.userId else OrElse(userId, ""), f.productVariationId)
  }

  /** `handleSubmit`: `sale` is the sale being edited, if any, and `result`
      what the sales hook's create or update resolved to. */
  function Submit(f: SaleForm, sale: Option<Sale>, userId: Option<string>, result: Call<Outcome>): (d: Form.Dialog<SaleRequest>)
    ensures d.call.Some? <==> Validate(f).None?
    ensures d.call.Some? ==> Total(f) > 0 && d.call.value.payload == Payload(f, userId)
    ensures d.call.Some? ==> (d.call.value.Update? <==> sale.Some?)
    ensures d.call.Some? && sale.Some? ==> d.call.value.id == sale.value.id
    ensures d.succeeded <==> d.call.Some? && result.Returned? && result.value.success
    ensures d.succeeded <==> d.error == ""
    ensures d.call.Some? && result.Returned? && !result.value.success ==>
              d.error == OrElse(result.value.error, SaveFailed)
  {
    ValidateOrder(f);
    Form.Submit(Validate(f), Payload(f, userId), if sale.Some? then Some(sale.value.id) else None, result, SaveFailed)
  }
}

=== FILE: sale_screen.dfy ===
/** The sales screen (components/sales/sale-management.tsx): the columns of
    its table, its search over the sku, and what a successful save does. */
module SaleScreen {
  import opened Js
  import opened Http
  import opened HookState
  import opened SaleTypes
  import opened VariationTypes
  import opened CustomerTypes
  import ListPatch
  import Lookup
  import CrudScreen
  import ManagedScreen
  import SalesHook
  import Dashboard
  import Text
  import Ui

  const VariationNotFound := "Variação não encontrada"
  const QuantityUnit := " item(s)"

  /** `getProductVariationName`: the first variation with the id names the
      product, and an unknown id or an empty name shows the fallback. */
  function VariationName(variations: seq<ProductVariation>, id: string): (r: string)
    ensures (forall i :: 0 <= i < |variations| ==> variations[i].id != id) ==> r == VariationNotFound
    ensures r == VariationNotFound || exists i :: 0 <= i < |variations| && variations[i].id == id && variations[i].name == r
    ensures forall k :: 0 <= k < |variations| && variations[k].id == id && (forall j :: 0 <= j < k ==> variations[j].id != id) ==>
              r == OrElse(Some(variations[k].name), VariationNotFound)
  {
    var entries := ListPatch.MapAll(variations, (v: ProductVariation) => Lookup.Entry(v.id, Some(v.name)));
    Lookup.FirstMatchDecides(entries, id, VariationNotFound);
    Lookup.NameOr(entries, id, VariationNotFound)
  }

  /** One line of the table, currency formatting aside. */
  datatype SaleRow = SaleRow(
    customer: string,
    variation: string,
    quantity: string,
    total: int,
    statusLabel: string,
    variant: Ui.Variant)

  /** The line of one sale: looked-up names, the quantity with its unit,
      the total after discount and the status badge. */
  function Row(customers: seq<Customer>, variations: seq<ProductVariation>, sale: Sale): (r: SaleRow)
    ensures r.customer == Lookup.CustomerName(customers, sale.customerId)
    ensures r.variation == VariationName(variations, sale.productVariationId)
    ensures r.quantity == Ui.WithUnit(sale.quantityItems, QuantityUnit)
    ensures r.total == sale.value - sale.discount
    ensures r.statusLabel == StatusLabel(sale.status) && r.variant == StatusVariant(sale.status)
  {
    SaleRow(Lookup.CustomerName(customers, sale.customerId), VariationName(variations, sale.productVariationId),
            Ui.WithUnit(sale.quantityItems, QuantityUnit), sale.value - sale.discount,
            StatusLabel(sale.status), StatusVariant(sale.status))
  }

  /** The table's lines, one per sale in list order. */
  function Rows(customers: seq<Customer>, variations: seq<ProductVariation>, sales: seq<Sale>): (r: seq<SaleRow>)
    ensures |r| == |sales|
    ensures forall i :: 0 <= i < |sales| ==> r[i] == Row(customers, variations, sales[i])
  {
    ListPatch.MapAll(sales, (s: Sale) => Row(customers, variations, s))
  }

  /** The sum of a column of totals. */
  function SumTotals(rows: seq<SaleRow>): int
    decreases |rows|
  {
    if rows == [] then 0 else SumTotals(rows[..|rows| - 1]) + rows[|rows| - 1].total
  }

  /** The total column adds up to the revenue on the dashboard's card. */
  lemma {:induction false} TotalsAddUpToRevenue(customers: seq<Customer>, variations: seq<ProductVariation>, sales: seq<Sale>)
    ensures SumTotals(Rows(customers, variations, sales)) == Dashboard.Revenue(sales)
    decreases |sales|
  {
    if sales != [] {
      var n := |sales| - 1;
      var rows := Rows(customers, variations, sales);
      TotalsAddUpToRevenue(customers, variations, sales[..n]);
      assert rows[..n] == Rows(customers, variations, sales[..n]);
    }
  }

  /** The sale as the generic table reads it. */
  function AsRecord(sale: Sale): (r: CrudScreen.Record)
    ensures "sku" in r && (r["sku"] == Null <==> sale.sku.None?)
  {
    map[
      "id" := Str(sale.id),
      "sku" := (if sale.sku.Some? then Str(sale.sku.value) else Null),
      "quantityItems" := Num(sale.quantityItems),
      "value" := Num(sale.value),
      "discount" := Num(sale.discount),
      "status" := Num(sale.status),
      "saleDate" := Str(sale.saleDate),
      "customerId" := Str(sale.customerId),
      "userId" := Str(sale.userId),
      "productVariationId" := Str(sale.productVariationId)]
  }

  const SearchFields: seq<string> := ["sku"]

  /** A search term finds a sale by its sku alone: not by customer,
      product, status or amounts. */
  lemma SearchBySku(sale: Sale, term: string)
    ensures CrudScreen.AnyFieldMatches(AsRecord(sale), SearchFields, term) <==>
              Truthy(sale.sku) && Text.IncludesIgnoringCase(sale.sku.value, term)
  {
    assert CrudScreen.Field(AsRecord(sale), SearchFields[0]) == AsRecord(sale)["sku"];
  }

  /** On the whole list: for a non-empty term, a sale is listed exactly when
      its sku contains the term. */
  lemma SearchListsBySku(sales: seq<Sale>, term: string, i: nat)
    requires term != "" && i < |sales|
    ensures var shown := CrudScreen.Filtered(ListPatch.MapAll(sales, AsRecord), SearchFields, term);
            AsRecord(sales[i]) in shown <==> Truthy(sales[i].sku) && Text.IncludesIgnoringCase(sales[i].sku.value, term)
  {
    var records := ListPatch.MapAll(sales, AsRecord);
    var shown := CrudScreen.Filtered(records, SearchFields, term);
    SearchBySku(sales[i], term);
    assert records[i] == AsRecord(sales[i]);
    if AsRecord(sales[i]) in shown {
      var k :| 0 <= k < |shown| && shown[k] == AsRecord(sales[i]);
      assert CrudScreen.AnyFieldMatches(shown[k], SearchFields, term);
    }
  }

  /** `handleSuccess`: the dialog closes and the sales hook fetches again. */
  function Success(s: ManagedScreen.Screen<Sale, Sale>, call: Call<ApiResponse<seq<SaleResponse>>>): (r: ManagedScreen.Screen<Sale, Sale>)
    ensures !r.modalOpen && r.editing.None? && !r.list.loading
    ensures r.list.error.None? <==> call.Returned? && call.value.success && call.value.data.Some?
    ensures r.list.error.None? ==> |r.list.items| == |call.value.data.value|
  {
    ManagedScreen.Close(s).(list := SalesHook.Fetch(s.list, call))
  }
}

=== FILE: sale_types.dfy ===
/** Sales (types/sale.ts): the record the screens use, the server's
    response shape, the status enumeration and its labels and badges. */
module SaleTypes {
  import opened Js
  import Ui

  /** The nested references the server may embed in a sale. */
  datatype CustomerRef = CustomerRef(id: string, name: string, cpf: string)
  datatype UserRef = UserRef(id: string, userName: string)
  datatype VariationRef = VariationRef(id: string, name: string, sku: string)

  /** A sale as the server returns it. Money is in integral units. */
  datatype SaleResponse = SaleResponse(
    id: string,
    sku: Option<string>,
    quantityItems: int,
    value: int,
    discount: int,
    status: int,
    saleDate: string,
    customerId: string,
    userId: string,
    productVariationId: string,
    customer: Option<CustomerRef>,
    user: Option<UserRef>,
    productVariation: Option<VariationRef>,
    createdAt: Option<string>,
    updatedAt: Option<string>)

  /** A sale as the screens hold it. */
  datatype Sale = Sale(
    id: string,
    sku: Option<string>,
    quantityItems: int,
    value: int,
    discount: int,
    status: int,
    saleDate: string,
    customerId: string,
    userId: string,
    productVariationId: string,
    customer: Option<CustomerRef>,
    user: Option<UserRef>,
    productVariation: Option<VariationRef>,
    createdAt: Option<string>,
    updatedAt: Option<string>)

  /** The body of a create request; an update request adds the id. */
  datatype SaleRequest = SaleRequest(
    sku: Option<string>,
    quantityItems: int,
    value: int,
    discount: int,
    status: int,
    saleDate: string,
    customerId: string,
    userId: string,
    productVariationId: string)

  /** The `SaleStatus` enumeration. */
  const Pending := 1
  const Confirmed := 2
  const Shipped := 3
  const Delivered := 4
  const Cancelled := 5

  predicate IsStatus(status: int) {
    Pending <= status <= Cancelled
  }

  const Unknown := "Desconhecido"

  /** The labels of statuses 1 to 5, in order. */
  const StatusLabels: seq<string> := ["Pendente", "Confirmada", "Enviada", "Entregue", "Cancelada"]

  /** `getSaleStatusLabel`. */
  function StatusLabel(status: int): (r: string)
    ensures IsStatus(status) ==> r == StatusLabels[status - 1]
    ensures r == Unknown <==> !IsStatus(status)
  {
    if status == Pending then "Pendente"
    else if status == Confirmed then "Confirmada"
    else if status == Shipped then "Enviada"
    else if status == Delivered then "Entregue"
    else if status == Cancelled then "Cancelada"
    else Unknown
  }

  /** Distinct statuses have distinct labels, so a label names its status. */
  lemma StatusLabelsDistinct(a: int, b: int)
    requires IsStatus(a) && IsStatus(b) && a != b
    ensures StatusLabel(a) != StatusLabel(b)
  {
  }

  /** `getSaleStatusVariant`. */
  function StatusVariant(status: int): (v: Ui.Variant)
    ensures v == Ui.Destructive <==> status == Cancelled
    ensures v == Ui.Outline <==> status == Shipped
    ensures v == Ui.Default <==> status == Confirmed || status == Delivered
    ensures v == Ui.Secondary <==> status == Pending || !IsStatus(status)
  {
    if status == Pending then Ui.Secondary
    else if status == Confirmed then Ui.Default
    else if status == Shipped then Ui.Outline
    else if status == Delivered then Ui.Default
    else if status == Cancelled then Ui.Destructive
    else Ui.Secondary
  }

  /** A pending sale and a sale with an unknown status look alike as badges,
      and are told apart only by their labels. */
  lemma PendingBadgeLikeUnknown(status: int)
    requires !IsStatus(status)
    ensures StatusVariant(status) == StatusVariant(Pending)
    ensures StatusLabel(status) != StatusLabel(Pending)
  {
  }
}

=== FILE: size_modal.dfy ===
/** The size dialog (components/sizes/size-modal.tsx). */
module SizeModal {
  import opened Js
  import opened Http
  import opened CatalogTypes
  import Text
  import Form

  /** The form, which is also the body of a create request. */
  datatype SizeForm = SizeForm(name: string, weight: int, width: int, height: int, length: int, meshTypeId: string)

  const NameRequired := "Nome é obrigatório"
  const MeshRequired := "Tipo de malha é obrigatório"
  const SaveFailed := "Erro ao salvar tamanho"

  /** The form when the dialog opens: the edited size, or all empty and zero. */
  function Open(size: Option<Size>): (f: SizeForm)
    ensures size.None? ==> f == SizeForm("", 0, 0, 0, 0, "")
    ensures size.Some? ==>
              var s := size.value;
              f == SizeForm(s.name, s.weight, s.width, s.height, s.length, s.meshTypeId)
  {
    match size
    case Some(s) => SizeForm(s.name, s.weight, s.width, s.height, s.length, s.meshTypeId)
    case None => SizeForm("", 0, 0, 0, 0, "")
  }

  /** The guards of `handleSubmit`, in order. A `!x.trim()` guard is stated
      as "all white space", which is when `Text.Trim` leaves nothing. */
  const Rules: seq<Form.Rule<SizeForm>> := [
    Form.Rule((f: SizeForm) => !Text.AllWhiteSpace(f.name), NameRequired),
    Form.Rule((f: SizeForm) => f.meshTypeId != "", MeshRequired)
  ]

  /** A size is accepted with a name that is not all white space and a mesh. */
  function Validate(f: SizeForm): (r: Option<string>)
    ensures r.None? <==> !Text.AllWhiteSpace(f.name) && f.meshTypeId != ""
  {
    assert Rules[0].holds(f) <==> !Text.AllWhiteSpace(f.name);
    assert Rules[1].holds(f) <==> f.meshTypeId != "";
    assert Rules[0].holds(f) && Rules[1].holds(f) <==> !Text.AllWhiteSpace(f.name) && f.meshTypeId != "";
    Form.FirstFailure(f, Rules)
  }

  lemma {:induction false} ValidateOrder(f: SizeForm)
    ensures Text.AllWhiteSpace(f.name) ==> Validate(f) == Some(NameRequired)
    ensures !Text.AllWhiteSpace(f.name) && f.meshTypeId == "" ==> Validate(f) == Some(MeshRequired)
  {
    assert Rules[0].holds(f) <==> !Text.AllWhiteSpace(f.name);
    assert Rules[1].holds(f) <==> f.meshTypeId != "";
    if Text.AllWhiteSpace(f.name) {
      Form.FirstFailureAt(f, Rules, 0);
    } else if f.meshTypeId == "" {
      Form.FirstFailureAt(f, Rules, 1);
    }
  }

  /** The measurements are never checked: any values give the same verdict. */
  lemma MeasurementsUnchecked(f: SizeForm, weight: int, width: int, height: int, length: int)
    ensures Validate(f.(weight := weight, width := width, height := height, length := length)) == Validate(f)
  {
    ValidateOrder(f);
    ValidateOrder(f.(weight := weight, width := width, height := height, length := length));
  }

  /** `handleSubmit`: the form is sent as it is, name untrimmed. */
  function Submit<R>(f: SizeForm, size: Option<Size>, result: Call<ApiResponse<R>>): (d: Form.Dialog<SizeForm>)
    ensures d.call.Some? <==> Validate(f).None?
    ensures d.call.Some? ==> d.call.value.payload == f && (d.call.value.Update? <==> size.Some?)
    ensures d.call.Some? && size.Some? ==> d.call.value.id == size.value.id
    ensures d.succeeded <==> d.call.Some? && result.Returned? && result.value.success
    ensures d.succeeded <==> d.error == ""
    ensures d.call.Some? && result.Returned? && !result.value.success ==>
              d.error == OrElse(result.value.error, SaveFailed)
  {
    ValidateOrder(f);
    Form.Submit(Validate(f), f, if size.Some? then Some(size.value.id) else None, Form.OfEnvelope(result), SaveFailed)
  }
}

=== FILE: size_screen.dfy ===
/** The sizes screen (components/sizes/size-management.tsx): the mesh
    column and the search over the name. */
module SizeScreen {
  import opened Js
  import opened CatalogTypes
  import ListPatch
  import Lookup
  import CrudScreen
  import Text

  const NotAvailable := "N/A"

  /** `getMeshName`: the first mesh with the id, else "N/A". */
  function MeshName(meshes: seq<Mesh>, id: string): (r: string)
    ensures (forall i :: 0 <= i < |meshes| ==> meshes[i].id != id) ==> r == NotAvailable
    ensures r == NotAvailable || exists i :: 0 <= i < |meshes| && meshes[i].id == id && meshes[i].name == r
    ensures forall k :: 0 <= k < |meshes| && meshes[k].id == id && (forall j :: 0 <= j < k ==> meshes[j].id != id) ==>
              r == OrElse(Some(meshes[k].name), NotAvailable)
  {
    var entries := ListPatch.MapAll(meshes, (m: Mesh) => Lookup.Entry(m.id, Some(m.name)));
    Lookup.FirstMatchDecides(entries, id, NotAvailable);
    Lookup.NameOr(entries, id, NotAvailable)
  }

  /** The size as the generic table reads it. */
  function AsRecord(s: Size): (r: CrudScreen.Record)
    ensures "name" in r && r["name"] == Str(s.name)
  {
    map[
      "id" := Str(s.id),
      "name" := Str(s.name),
      "weight" := Num(s.weight),
      "width" := Num(s.width),
      "height" := Num(s.height),
      "length" := Num(s.length),
      "meshTypeId" := Str(s.meshTypeId)]
  }

  const SearchFields: seq<string> := ["name"]

  /** A term finds a size by its name alone; the measurements and the mesh
      are not searched. */
  lemma SearchByName(s: Size, term: string)
    ensures CrudScreen.AnyFieldMatches(AsRecord(s), SearchFields, term) <==>
              s.name != "" && Text.IncludesIgnoringCase(s.name, term)
  {
    assert CrudScreen.Field(AsRecord(s), SearchFields[0]) == Str(s.name);
  }
}

=== FILE: text.dfy ===
/** String operations the client relies on: ASCII case folding, substring
    search (`includes`), `trim`, decimal rendering of numbers, `split(c)[0]`
    and prefix slicing. Strings are sequences of Unicode scalar values; the
    client's JavaScript strings count UTF-16 code units instead, and the two
    agree on every character of the Basic Multilingual Plane. */
module Text {

  // ---------------------------------------------------------------- digits

  predicate IsDigit(c: char) {
    '0' <= c <= '9'
  }

  predicate AllDigits(s: string) {
    forall i :: 0 <= i < |s| ==> IsDigit(s[i])
  }

  function DigitChar(d: nat): (c: char)
    requires d < 10
    ensures IsDigit(c)
  {
    ('0' as int + d) as char
  }

  function DigitValue(c: char): (d: nat)
    requires IsDigit(c)
    ensures d < 10 && DigitChar(d) == c
  {
    c as int - '0' as int
  }

  /** The decimal rendering of a natural number, without leading zeros. */
  function NatToString(n: nat): (r: string)
    ensures |r| > 0 && AllDigits(r)
    ensures |r| > 1 ==> r[0] != '0'
    decreases n
  {
    if n < 10 then [DigitChar(n)] else NatToString(n / 10) + [DigitChar(n % 10)]
  }

  /** The value of a string of decimal digits. */
  function ParseDigits(s: string): nat
    requires AllDigits(s)
    decreases |s|
  {
    if s == [] then 0 else ParseDigits(s[..|s| - 1]) * 10 + DigitValue(s[|s| - 1])
  }

  /** Reading back a rendered natural number gives that number. */
  lemma {:induction false} ParseNatToString(n: nat)
    ensures ParseDigits(NatToString(n)) == n
    decreases n
  {
    if n >= 10 {
      var s := NatToString(n);
      assert s[..|s| - 1] == NatToString(n / 10);
      ParseNatToString(n / 10);
    }
  }

  /** Distinct numbers render as distinct strings. */
  lemma NatToStringInjective(a: nat, b: nat)
    requires a != b
    ensures NatToString(a) != NatToString(b)
  {
    ParseNatToString(a);
    ParseNatToString(b);
  }

  /** The decimal rendering of an integer (`String(n)` for an integral number). */
  function IntToString(i: int): string {
    if i < 0 then "-" + NatToString(-i) else NatToString(i)
  }

  predicate IsIntText(s: string) {
    (|s| > 0 && AllDigits(s)) || (|s| > 1 && s[0] == '-' && AllDigits(s[1..]))
  }

  function ParseInt(s: string): int
    requires IsIntText(s)
  {
    if s[0] == '-' then -(ParseDigits(s[1..]) as int) else ParseDigits(s)
  }

  lemma RoundTripInt(i: int)
    ensures IsIntText(IntToString(i)) && ParseInt(IntToString(i)) == i
  {
    if i < 0 {
      var s := IntToString(i);
      assert s[1..] == NatToString(-i);
      ParseNatToString(-i);
    } else {
      ParseNatToString(i);
    }
  }

  // ---------------------------------------------------------- case folding

  /** `toLowerCase` on one code unit, restricted to ASCII letters. */
  function LowerChar(c: char): char {
    if 'A' <= c <= 'Z' then (c as int + 32) as char else c
  }

  function Lower(s: string): (r: string)
    ensures |r| == |s|
    ensures forall i :: 0 <= i < |s| ==> r[i] == LowerChar(s[i])
  {
    seq(|s|, i requires 0 <= i < |s| => LowerChar(s[i]))
  }

  // ------------------------------------------------------- substring search

  /** `t` occurs in `s` at position `i`. */
  predicate OccursAt(s: string, t: string, i: int) {
    0 <= i && i + |t| <= |s| && s[i..i + |t|] == t
  }

  /** `s.includes(t)`, by scanning the start positions from left to right. */
  function Includes(s: string, t: string): (r: bool)
    ensures r <==> exists i :: OccursAt(s, t, i)
    decreases |s|
  {
    if |t| > |s| then
      false
    else if s[..|t|] == t then
      assert OccursAt(s, t, 0);
      true
    else if |s| == 0 then
      false
    else
      OccursShift(s, t);
      Includes(s[1..], t)
  }

  /** Occurrences in `s` past position 0 are the occurrences in its tail. */
  lemma OccursShift(s: string, t: string)
    requires |s| > 0
    ensures forall j :: 1 <= j && OccursAt(s, t, j) ==> OccursAt(s[1..], t, j - 1)
    ensures forall i :: 0 <= i && OccursAt(s[1..], t, i) ==> OccursAt(s, t, i + 1)
  {
    forall j | 1 <= j && OccursAt(s, t, j) ensures OccursAt(s[1..], t, j - 1) {
      assert s[1..][j - 1..j - 1 + |t|] == s[j..j + |t|];
    }
    forall i | 0 <= i && OccursAt(s[1..], t, i) ensures OccursAt(s, t, i + 1) {
      assert s[1..][i..i + |t|] == s[i + 1..i + 1 + |t|];
    }
  }

  lemma IncludesEmpty(s: string)
    ensures Includes(s, "")
  {
    assert OccursAt(s, "", 0);
  }

  /** Case-insensitive `includes`: both sides lower-cased first. */
  predicate IncludesIgnoringCase(s: string, t: string) {
    Includes(Lower(s), Lower(t))
  }

  // --------------------------------------------------------------- trimming

  /** The code points `String.prototype.trim` removes: WhiteSpace and
      LineTerminator of ECMAScript (sections 12.2 and 12.3 of ECMA-262). */
  predicate IsWhiteSpace(c: char) {
    ('\U{0009}' <= c <= '\U{000D}') || c == ' ' || c == '\U{00A0}' || c == '\U{1680}'
    || ('\U{2000}' <= c <= '\U{200A}') || c == '\U{2028}' || c == '\U{2029}'
    || c == '\U{202F}' || c == '\U{205F}' || c == '\U{3000}' || c == '\U{FEFF}'
  }

  predicate AllWhiteSpace(s: string) {
    forall i :: 0 <= i < |s| ==> IsWhiteSpace(s[i])
  }

  function TrimStart(s: string): (r: string)
    ensures |r| <= |s| && r == s[|s| - |r|..]
    ensures AllWhiteSpace(s[..|s| - |r|])
    ensures r != [] ==> !IsWhiteSpace(r[0])
    decreases |s|
  {
    if |s| > 0 && IsWhiteSpace(s[0]) then
      var r := TrimStart(s[1..]);
      assert s[..|s| - |r|] == [s[0]] + s[1..][..|s| - 1 - |r|];
      r
    else
      s
  }

  function TrimEnd(s: string): (r: string)
    ensures |r| <= |s| && r == s[..|r|]
    ensures AllWhiteSpace(s[|r|..])
    ensures r != [] ==> !IsWhiteSpace(r[|r| - 1])
    decreases |s|
  {
    if |s| > 0 && IsWhiteSpace(s[|s| - 1]) then
      var r := TrimEnd(s[..|s| - 1]);
      assert s[|r|..] == s[..|s| - 1][|r|..] + [s[|s| - 1]];
      r
    else
      s
  }

  /** `s.trim()`: the slice of `s` left after dropping leading and trailing
      white space. It is empty exactly when `s` is all white space. */
  function Trim(s: string): (r: string)
    ensures Includes(s, r)
    ensures r == [] <==> AllWhiteSpace(s)
    ensures r != [] ==> !IsWhiteSpace(r[0]) && !IsWhiteSpace(r[|r| - 1])
  {
    var a := TrimStart(s);
    var r := TrimEnd(a);
    TrimFacts(s, a, r);
    r
  }

  lemma TrimFacts(s: string, a: string, r: string)
    requires a == TrimStart(s) && r == TrimEnd(a)
    ensures Includes(s, r)
    ensures r == [] <==> AllWhiteSpace(s)
  {
    var i := |s| - |a|;
    assert s[i..i + |r|] == a[..|r|];
    assert OccursAt(s, r, i);
    if r == [] {
      AllWhiteSpaceConcat(s[..i], a);
      assert s == s[..i] + a;
    } else {
      assert r[0] == a[0] == s[i];
    }
  }

  lemma AllWhiteSpaceConcat(x: string, y: string)
    requires AllWhiteSpace(x) && AllWhiteSpace(y)
    ensures AllWhiteSpace(x + y)
  {
    forall k | 0 <= k < |x + y| ensures IsWhiteSpace((x + y)[k]) {
      if k < |x| { assert (x + y)[k] == x[k]; } else { assert (x + y)[k] == y[k - |x|]; }
    }
  }

  /** `!s.trim()`: the form check for a required text field. */
  predicate IsBlank(s: string) {
    Trim(s) == ""
  }

  // ------------------------------------------------------- slicing helpers

  /** `s.slice(0, n)`. */
  function Take(s: string, n: nat): (r: string)
    ensures |r| == if n < |s| then n else |s|
    ensures r == s[..|r|]
  {
    if n < |s| then s[..n] else s
  }

  /** `s.split(c)[0]`: the part of `s` before the first `c`. */
  function Before(s: string, c: char): (r: string)
    ensures |r| <= |s| && r == s[..|r|]
    ensures c !in r
    ensures |r| < |s| ==> s[|r|] == c
    decreases |s|
  {
    if s == [] then []
    else if s[0] == c then []
    else
      var r := Before(s[1..], c);
      assert [s[0]] + s[1..][..|r|] == s[..|r| + 1];
      [s[0]] + r
  }

  predicate StartsWith(s: string, p: string) {
    |p| <= |s| && s[..|p|] == p
  }
}

=== FILE: ui.dfy ===
/** Rendering vocabulary shared by the screens: badge variants, the yes/no
    badge of boolean columns and numbers shown with a unit. */
module Ui {
  import Text

  /** The badge variants the screens choose between. */
  datatype Variant = Default | Secondary | Destructive | Outline

  /** A boolean column: "Sim" exactly for true, "Não" otherwise. */
  function YesNo(b: bool): (r: string)
    ensures r == "Sim" <==> b
    ensures r == "Não" <==> !b
  {
    if b then "Sim" else "Não"
  }

  /** A number followed by its unit, as in `${n} item(s)` or `${m} m`: the
      text reads back as the number, then the unit. */
  function WithUnit(n: int, unit: string): (r: string)
    ensures |r| > |unit| && r[|r| - |unit|..] == unit
    ensures Text.IsIntText(r[..|r| - |unit|]) && Text.ParseInt(r[..|r| - |unit|]) == n
  {
    var r := Text.IntToString(n) + unit;
    assert r[..|r| - |unit|] == Text.IntToString(n);
    Text.RoundTripInt(n);
    r
  }

  /** A badge: its text and its variant. */
  datatype Badge = Badge(text: string, variant: Variant)

  /** The badge of a boolean column: "Sim" on the default variant for true,
      "Não" on the secondary one for false. */
  function Flag(b: bool): (r: Badge)
    ensures r.text == YesNo(b)
    ensures r.variant == Default <==> b
    ensures r.variant == Secondary <==> !b
  {
    if b then Badge("Sim", Default) else Badge("Não", Secondary)
  }
}

=== FILE: use_auth.dfy ===
/** The session (hooks/use-auth.tsx): restoring a login from browser
    storage on mount, `login`, `logout` and `isAuthenticated`. The session
    token is handed to the main API client, which persists it itself. */
module AuthHook {
  import opened Js
  import opened Http
  import Text
  import ErpClient

  const UserKey := "erp_user"
  const InvalidCredentials := "Credenciais inválidas"

  /** The logged-in user (types/auth.ts). */
  datatype SessionUser = SessionUser(id: string, userName: string, name: string, token: string)

  /** What the login endpoint answers. */
  datatype LoginResponse = LoginResponse(userName: Option<string>, token: Option<string>)

  /** The browser: string storage, and the "erp_user" entry, kept decoded.
      That entry is always written as the JSON text of a user, which is never
      empty and parses back to the same user. */
  datatype Browser = Browser(storage: Storage, savedUser: Option<SessionUser>)

  /** The provider's state, and the API client it drives. */
  datatype Auth = Auth(user: Option<SessionUser>, loading: bool, client: ErpClient.Client, browser: Browser)

  /** The provider before its mount effect ran: no user, loading. */
  function Mounting(client: ErpClient.Client, browser: Browser): (a: Auth)
    ensures a.user.None? && a.loading
  {
    Auth(None, true, client, browser)
  }

  /** `isAuthenticated`, which is `!!user`. */
  predicate IsAuthenticated(a: Auth) {
    a.user.Some?
  }

  /** The mount effect: the stored user comes back only when the token is
      stored too, and the client is then given that token. Loading ends either way. */
  function Restore(a: Auth): (r: Auth)
    ensures !r.loading && r.browser.savedUser == a.browser.savedUser
    ensures IsAuthenticated(r) <==>
              IsAuthenticated(a) || (a.browser.savedUser.Some? && Truthy(GetItem(a.browser.storage, ErpClient.TokenKey)))
    ensures a.browser.savedUser.Some? && Truthy(GetItem(a.browser.storage, ErpClient.TokenKey)) ==>
              r.user == a.browser.savedUser && r.client.token == GetItem(a.browser.storage, ErpClient.TokenKey)
              && r.browser == a.browser
    ensures !(a.browser.savedUser.Some? && Truthy(GetItem(a.browser.storage, ErpClient.TokenKey))) ==>
              r == a.(loading := false)
  {
    var savedToken := GetItem(a.browser.storage, ErpClient.TokenKey);
    if a.browser.savedUser.Some? && Truthy(savedToken) then
      var stored := ErpClient.SetToken(a.client, a.browser.storage, savedToken);
      assert stored.storage == a.browser.storage;
      a.(user := a.browser.savedUser, loading := false, client := stored.client,
         browser := a.browser.(storage := stored.storage))
    else
      a.(loading := false)
  }

  datatype LoginStep = LoginStep(auth: Auth, success: bool, error: Option<string>)

  /** Whether a login envelope carries a usable session. */
  predicate Accepted(response: ApiResponse<LoginResponse>) {
    response.success && response.data.Some? && Truthy(response.data.value.token) && Truthy(response.data.value.userName)
  }

  /** `login`, given what `apiClient.login` settled to and the clock's
      milliseconds, which become the user id. */
  function Login(a: Auth, call: Call<ApiResponse<LoginResponse>>, now: nat): (r: LoginStep)
    ensures r.success <==> call.Returned? && Accepted(call.value)
    ensures r.success <==> r.error.None?
    ensures r.success ==>
              var data := call.value.data.value;
              && r.auth.user == Some(SessionUser(Text.NatToString(now), data.userName.value, data.userName.value, data.token.value))
              && r.auth.client.token == data.token
              && GetItem(r.auth.browser.storage, ErpClient.TokenKey) == data.token
              && r.auth.browser.savedUser == r.auth.user
              && r.auth.browser.storage - {ErpClient.TokenKey} == a.browser.storage - {ErpClient.TokenKey}
    ensures !r.success ==> r.auth == a
    ensures call.Threw? ==> r.error == Some(ConnectionError)
    ensures call.Returned? && !r.success ==> r.error == Some(OrElse(call.value.error, InvalidCredentials))
  {
    match call
    case Threw => LoginStep(a, false, Some(ConnectionError))
    case Returned(response) =>
      if Accepted(response) then
        var data := response.data.value;
        var user := SessionUser(Text.NatToString(now), data.userName.value, data.userName.value, data.token.value);
        var stored := ErpClient.SetToken(a.client, a.browser.storage, data.token);
        var storage := stored.storage[ErpClient.TokenKey := data.token.value];
        assert storage - {ErpClient.TokenKey} == a.browser.storage - {ErpClient.TokenKey};
        LoginStep(a.(user := Some(user), client := stored.client, browser := Browser(storage, Some(user))), true, None)
      else
        LoginStep(a, false, Some(OrElse(response.error, InvalidCredentials)))
  }

  /** `logout`: no user, no token in the client, neither entry in storage. */
  function Logout(a: Auth): (r: Auth)
    ensures !IsAuthenticated(r) && r.loading == a.loading
    ensures r.client.token.None?
    ensures ErpClient.TokenKey !in r.browser.storage && r.browser.savedUser.None?
    ensures r.browser.storage - {ErpClient.TokenKey} == a.browser.storage - {ErpClient.TokenKey}
  {
    var stored := ErpClient.SetToken(a.client, a.browser.storage, None);
    a.(user := None, client := stored.client, browser := Browser(stored.storage - {ErpClient.TokenKey}, None))
  }

  /** A successful login survives a reload: a fresh client and provider
      built from the same storage restore the same user and token. */
  lemma LoginSurvivesReload(a: Auth, response: ApiResponse<LoginResponse>, now: nat)
    requires Accepted(response)
    ensures var after := Login(a, Returned(response), now).auth;
            var reloaded := Restore(Mounting(ErpClient.Init(after.browser.storage), after.browser));
            reloaded.user == after.user && reloaded.client.token == after.client.token
  {
  }

  /** After logout a reload restores nobody, and the client refuses every
      endpoint but the login one without sending it. */
  lemma LogoutSticks<T>(a: Auth, endpoint: string, options: ErpClient.Options, fetch: Call<Response<T>>)
    requires endpoint != ErpClient.LoginEndpoint
    ensures var out := Logout(a);
            var reloaded := Restore(Mounting(ErpClient.Init(out.browser.storage), out.browser));
            !IsAuthenticated(reloaded)
            && ErpClient.Send(out.client, out.browser.storage, endpoint, options, fetch).sent.None?
  {
  }
}

=== FILE: use_crud.dfy ===
/** `useCrud` (hooks/use-crud.tsx): the generic list hook behind the colour,
    mesh, size, material, material-input, product and variation screens. The
    list is only ever replaced by a full refetch. */
module CrudHook {
  import opened Js
  import opened Http
  import opened HookState

  const LoadFailed := "Erro ao carregar dados"
  const Unexpected := "Erro inesperado ao carregar dados"

  /** The state `fetch` leaves once `fetchItems()` settled with `outcome`.
      Only an envelope that succeeded and carries a list (even an empty one)
      fills the list; every other path empties it and records an error. */
  function Fetch<T>(s: State<T>, outcome: Call<ApiResponse<seq<T>>>): (r: State<T>)
    ensures !r.loading
    ensures r.error.None? <==> outcome.Returned? && outcome.value.success && outcome.value.data.Some?
    ensures r.error.None? ==> r.items == outcome.value.data.value
    ensures r.error.Some? ==> r.items == [] && r.error.value != ""
    ensures outcome.Threw? ==> r.error == Some(Unexpected)
    ensures outcome.Returned? && r.error.Some? ==> r.error == Some(OrElse(outcome.value.error, LoadFailed))
  {
    var busy := Begin(s);
    var settled := match outcome
      case Threw => busy.(items := [], error := Some(Unexpected))
      case Returned(result) =>
        if result.success && result.data.Some? then busy.(items := result.data.value)
        else busy.(items := [], error := Some(OrElse(result.error, LoadFailed)));
    settled.(loading := false)
  }

  /** What `fetch` leaves does not depend on what the hook held before. */
  lemma FetchForgetsPrior<T>(s1: State<T>, s2: State<T>, outcome: Call<ApiResponse<seq<T>>>)
    ensures Fetch(s1, outcome) == Fetch(s2, outcome)
  {
  }

  /** A failed load never leaves stale items on screen next to its error. */
  predicate Consistent<T>(s: State<T>) {
    s.error.Some? ==> s.items == []
  }

  lemma FetchConsistent<T>(s: State<T>, outcome: Call<ApiResponse<seq<T>>>)
    ensures Consistent(Fetch(s, outcome)) && !Fetch(s, outcome).loading
  {
  }

  /** What `create`, `update` or `remove` did: the envelope it returned
      (or that the API call threw), the state afterwards, and how many
      times it called `fetch`. */
  datatype Mutation<+T, +R> = Mutation(result: Call<ApiResponse<R>>, state: State<T>, fetches: nat)

  /** `create`, `update` and `remove` share one shape: await the API call,
      refetch once if it succeeded, and hand back the envelope untouched.
      `refetch` is what the refetch's own `fetchItems()` settles to. */
  function Mutate<T, R>(s: State<T>, call: Call<ApiResponse<R>>, refetch: Call<ApiResponse<seq<T>>>): (m: Mutation<T, R>)
    ensures m.result == call
    ensures m.fetches == if call.Returned? && call.value.success then 1 else 0
    ensures m.fetches == 0 ==> m.state == s
    ensures m.fetches == 1 ==> m.state == Fetch(s, refetch)
  {
    match call
    case Threw => Mutation(call, s, 0)
    case Returned(result) =>
      if result.success then Mutation(call, Fetch(s, refetch), 1) else Mutation(call, s, 0)
  }

  /** A successful mutation shows the server's list, never a locally patched one. */
  lemma MutationShowsServerList<T, R>(s: State<T>, result: ApiResponse<R>, list: seq<T>)
    requires result.success
    ensures Mutate(s, Returned(result), Returned(Success(Some(list)))).state == State(list, false, None)
  {
  }
}

=== FILE: use_customers.dfy ===
/** `useCustomers` (hooks/use-customers.tsx): the customer list, with a
    tolerant reading of the list response and local patches after each
    successful call. */
module CustomersHook {
  import opened Js
  import opened Http
  import opened HookState
  import opened CustomerTypes
  import ListHook
  import ListPatch

  const LoadFailed := "Erro ao carregar clientes"
  const CreateFailed := "Erro ao criar cliente"
  const UpdateFailed := "Erro ao atualizar cliente"
  const DeleteFailed := "Erro ao excluir cliente"

  /** `mapCustomerResponse`: keeps id, name, email, phone and the two
      timestamps; cpf, address and date of birth are not copied. */
  function MapCustomerResponse(response: CustomerResponse): (c: Customer)
    ensures c.cpf.None? && c.address.None? && c.dateOfBirth.None?
    ensures c.id == response.id && c.name == response.name
    ensures c.email == Some(response.email) && c.phone == Some(response.phone)
    ensures c.createdAt == response.createdAt && c.updatedAt == response.updatedAt
  {
    Customer(response.id, response.name, Some(response.email), None, Some(response.phone),
             None, None, response.createdAt, response.updatedAt)
  }

  /** Two responses that differ only in cpf, address and date of birth map
      to the same customer: the list never shows those fields. */
  lemma MapForgetsPersonalData(response: CustomerResponse, cpf: string, address: Address, dateOfBirth: Option<string>)
    ensures MapCustomerResponse(response.(cpf := cpf, address := address, dateOfBirth := dateOfBirth))
            == MapCustomerResponse(response)
  {
  }

  /** A property of the list response that may hold the array: missing or
      falsy, present but not an array, or an array (possibly empty). */
  datatype Prop = Missing | NotArray | Array(items: seq<CustomerResponse>)

  /** The body of a successful list call: an array, or an object whose
      `customers`, `data` or `items` may hold the array. `self` is the
      object itself read as one customer. */
  datatype CustomersBody =
    | List(items: seq<CustomerResponse>)
    | Wrapped(customers: Prop, data: Prop, itemsProp: Prop, self: CustomerResponse)

  /** The first property that holds an array, in the order given. */
  function FirstArray(props: seq<Prop>): (r: Option<seq<CustomerResponse>>)
    ensures r.None? <==> forall i :: 0 <= i < |props| ==> !props[i].Array?
    ensures r.Some? ==> exists i :: 0 <= i < |props| && props[i] == Array(r.value)
  {
    if props == [] then None
    else if props[0].Array? then Some(props[0].items)
    else FirstArray(props[1..])
  }

  /** The unrolled search over three properties: `a`, then `b`, then `c`. */
  lemma FirstArrayOfThree(a: Prop, b: Prop, c: Prop)
    ensures FirstArray([a, b, c]) ==
              if a.Array? then Some(a.items)
              else if b.Array? then Some(b.items)
              else if c.Array? then Some(c.items)
              else None
  {
    var props := [a, b, c];
    assert props[1..] == [b, c];
    assert [b, c][1..] == [c];
    assert [c][1..] == [];
    assert FirstArray([c]) == if c.Array? then Some(c.items) else FirstArray([]);
    assert FirstArray([b, c]) == if b.Array? then Some(b.items) else FirstArray([c]);
    assert FirstArray(props) == if a.Array? then Some(a.items) else FirstArray([b, c]);
  }

  /** The customers a successful list body yields. */
  function Unwrap(body: CustomersBody): (r: seq<CustomerResponse>)
    ensures body.List? ==> r == body.items
    ensures body.Wrapped? ==>
              r == match FirstArray([body.customers, body.data, body.itemsProp])
                   case Some(a) => a
                   case None => [body.self]
  {
    match body
    case List(items) => items
    case Wrapped(customers, data, itemsProp, self) =>
      FirstArrayOfThree(customers, data, itemsProp);
      if customers.Array? then customers.items
      else if data.Array? then data.items
      else if itemsProp.Array? then itemsProp.items
      else [self]
  }

  /** `fetchCustomers`: a success fills the list (an empty one when the body
      is empty); a failure or a thrown call records an error and empties it. */
  function Fetch(s: State<Customer>, call: Call<ApiResponse<CustomersBody>>): (r: State<Customer>)
    ensures !r.loading
    ensures r.error.None? <==> call.Returned? && call.value.success
    ensures r.error.None? && call.value.data.None? ==> r.items == []
    ensures r.error.None? && call.value.data.Some? ==>
              && |r.items| == |Unwrap(call.value.data.value)|
              && forall i :: 0 <= i < |r.items| ==> r.items[i] == MapCustomerResponse(Unwrap(call.value.data.value)[i])
    ensures r.error.Some? ==> r.items == [] && r.error == Some(ListHook.FailureOf(call, LoadFailed))
  {
    match call
    case Returned(response) =>
      if response.success then
        var found := match response.data
          case Some(body) => Unwrap(body)
          case None => [];
        State(ListPatch.MapAll(found, MapCustomerResponse), false, None)
      else
        State([], false, Some(ListHook.FailureOf(call, LoadFailed)))
    case Threw => State([], false, Some(ListHook.FailureOf(call, LoadFailed)))
  }

  function IdOf(c: Customer): string {
    c.id
  }

  function Create(s: State<Customer>, call: Call<ApiResponse<CustomerResponse>>): (r: ListHook.Step<Customer>)
    ensures Reports(r.outcome, r.state) && !r.state.loading
    ensures r.outcome.success <==> call.Returned? && call.value.success && call.value.data.Some?
    ensures r.outcome.success ==> r.state.items == s.items + [MapCustomerResponse(call.value.data.value)]
    ensures !r.outcome.success ==> r.state.items == s.items && r.state.error == Some(ListHook.FailureOf(call, CreateFailed))
  {
    ListHook.Created(Begin(s), call, MapCustomerResponse, CreateFailed)
  }

  function Update(s: State<Customer>, id: string, call: Call<ApiResponse<CustomerResponse>>): (r: ListHook.Step<Customer>)
    ensures Reports(r.outcome, r.state) && !r.state.loading
    ensures r.outcome.success <==> call.Returned? && call.value.success && call.value.data.Some?
    ensures |r.state.items| == |s.items|
    ensures r.outcome.success ==>
              forall i :: 0 <= i < |s.items| ==>
                r.state.items[i] == if s.items[i].id == id then MapCustomerResponse(call.value.data.value) else s.items[i]
    ensures !r.outcome.success ==> r.state.items == s.items && r.state.error == Some(ListHook.FailureOf(call, UpdateFailed))
  {
    ListHook.Updated(Begin(s), id, IdOf, call, MapCustomerResponse, UpdateFailed)
  }

  function Delete(s: State<Customer>, id: string, call: Call<ApiResponse<()>>): (r: ListHook.Step<Customer>)
    ensures Reports(r.outcome, r.state) && !r.state.loading
    ensures r.outcome.success <==> call.Returned? && call.value.success
    ensures r.outcome.success ==> forall i :: 0 <= i < |r.state.items| ==> r.state.items[i].id != id
    ensures r.outcome.success ==> forall i :: 0 <= i < |s.items| && s.items[i].id != id ==> s.items[i] in r.state.items
    ensures r.outcome.success ==> ListPatch.IsSubsequence(r.state.items, s.items)
    ensures r.outcome.success ==>
              forall x: Customer :: multiset(r.state.items)[x] == if x.id != id then multiset(s.items)[x] else 0
    ensures !r.outcome.success ==> r.state.items == s.items && r.state.error == Some(ListHook.FailureOf(call, DeleteFailed))
  {
    ListHook.Removed(Begin(s), id, IdOf, call, DeleteFailed)
  }

  /** Every customer the hook loads lacks a cpf, whatever the server sent. */
  lemma LoadedCustomersHaveNoCpf(s: State<Customer>, call: Call<ApiResponse<CustomersBody>>)
    ensures forall i :: 0 <= i < |Fetch(s, call).items| ==> Fetch(s, call).items[i].cpf.None?
  {
  }
}

=== FILE: use_sales.dfy ===
/** `useSales` (hooks/use-sales.tsx): the sales list, patched locally after
    each successful call. */
module SalesHook {
  import opened Js
  import opened Http
  import opened HookState
  import opened SaleTypes
  import ListHook
  import ListPatch

  const LoadFailed := "Erro ao carregar vendas"
  const CreateFailed := "Erro ao criar venda"
  const UpdateFailed := "Erro ao atualizar venda"
  const DeleteFailed := "Erro ao excluir venda"

  /** `mapSaleResponse`: the scalar fields are copied; the nested customer,
      user and variation the server embeds are dropped. */
  function MapSaleResponse(response: SaleResponse): (s: Sale)
    ensures s.customer.None? && s.user.None? && s.productVariation.None?
    ensures ToResponse(s) == response.(customer := None, user := None, productVariation := None)
  {
    Sale(response.id, response.sku, response.quantityItems, response.value, response.discount,
         response.status, response.saleDate, response.customerId, response.userId,
         response.productVariationId, None, None, None, response.createdAt, response.updatedAt)
  }

  /** The response a sale would have been read from, nested references included. */
  function ToResponse(s: Sale): SaleResponse {
    SaleResponse(s.id, s.sku, s.quantityItems, s.value, s.discount, s.status, s.saleDate,
                 s.customerId, s.userId, s.productVariationId, s.customer, s.user,
                 s.productVariation, s.createdAt, s.updatedAt)
  }

  /** A response without nested references is read back unchanged. */
  lemma MapSaleResponseRoundTrip(response: SaleResponse)
    requires response.customer.None? && response.user.None? && response.productVariation.None?
    ensures ToResponse(MapSaleResponse(response)) == response
  {
  }

  function IdOf(s: Sale): string {
    s.id
  }

  /** `fetch`: the mapped list on success with data; otherwise `[]` and the
      envelope's error or "Erro ao carregar vendas" ("Erro de conexão" if the call threw). */
  function Fetch(s: State<Sale>, call: Call<ApiResponse<seq<SaleResponse>>>): (r: State<Sale>)
    ensures !r.loading
    ensures r.error.None? <==> call.Returned? && call.value.success && call.value.data.Some?
    ensures r.error.None? ==> |r.items| == |call.value.data.value|
    ensures r.error.None? ==> forall i :: 0 <= i < |r.items| ==> r.items[i] == MapSaleResponse(call.value.data.value[i])
    ensures r.error.Some? ==> r.items == [] && r.error == Some(ListHook.FailureOf(call, LoadFailed))
  {
    ListHook.FetchMapped(Begin(s), call, MapSaleResponse, LoadFailed)
  }

  function Create(s: State<Sale>, call: Call<ApiResponse<SaleResponse>>): (r: ListHook.Step<Sale>)
    ensures Reports(r.outcome, r.state) && !r.state.loading
    ensures r.outcome.success <==> call.Returned? && call.value.success && call.value.data.Some?
    ensures r.outcome.success ==> r.state.items == s.items + [MapSaleResponse(call.value.data.value)]
    ensures !r.outcome.success ==> r.state.items == s.items && r.state.error == Some(ListHook.FailureOf(call, CreateFailed))
  {
    ListHook.Created(Begin(s), call, MapSaleResponse, CreateFailed)
  }

  function Update(s: State<Sale>, id: string, call: Call<ApiResponse<SaleResponse>>): (r: ListHook.Step<Sale>)
    ensures Reports(r.outcome, r.state) && !r.state.loading
    ensures r.outcome.success <==> call.Returned? && call.value.success && call.value.data.Some?
    ensures |r.state.items| == |s.items|
    ensures r.outcome.success ==>
              forall i :: 0 <= i < |s.items| ==>
                r.state.items[i] == if s.items[i].id == id then MapSaleResponse(call.value.data.value) else s.items[i]
    ensures !r.outcome.success ==> r.state.items == s.items && r.state.error == Some(ListHook.FailureOf(call, UpdateFailed))
  {
    ListHook.Updated(Begin(s), id, IdOf, call, MapSaleResponse, UpdateFailed)
  }

  function Remove(s: State<Sale>, id: string, call: Call<ApiResponse<()>>): (r: ListHook.Step<Sale>)
    ensures Reports(r.outcome, r.state) && !r.state.loading
    ensures r.outcome.success <==> call.Returned? && call.value.success
    ensures r.outcome.success ==> forall i :: 0 <= i < |r.state.items| ==> r.state.items[i].id != id
    ensures r.outcome.success ==> forall i :: 0 <= i < |s.items| && s.items[i].id != id ==> s.items[i] in r.state.items
    ensures r.outcome.success ==> ListPatch.IsSubsequence(r.state.items, s.items)
    ensures r.outcome.success ==>
              forall x: Sale :: multiset(r.state.items)[x] == if x.id != id then multiset(s.items)[x] else 0
    ensures !r.outcome.success ==> r.state.items == s.items && r.state.error == Some(ListHook.FailureOf(call, DeleteFailed))
  {
    ListHook.Removed(Begin(s), id, IdOf, call, DeleteFailed)
  }

  /** Creating a sale and then deleting it by its id leaves the earlier
      sales that had other ids, in order. */
  lemma CreateThenRemove(s: State<Sale>, created: SaleResponse, deleted: ApiResponse<()>)
    requires deleted.success
    requires forall i :: 0 <= i < |s.items| ==> s.items[i].id != created.id
    ensures var c := Create(s, Returned(Success(Some(created))));
            Remove(c.state, created.id, Returned(deleted)).state.items == s.items
  {
    var c := Create(s, Returned(Success(Some(created))));
    var items := c.state.items;
    assert items == s.items + [MapSaleResponse(created)];
    var keep := ListHook.Others(IdOf, created.id);
    ListPatch.FilterAppend(s.items, [MapSaleResponse(created)], keep);
    ListPatch.FilterAll(s.items, keep);
  }
}

=== FILE: use_users.dfy ===
/** `useUsers` (hooks/use-users.tsx): the user list with an online/offline
    fallback. While the API answers, failures are raised to the caller; once
    it has failed, the hook serves fixed sample users and simulates writes
    locally. Deletion is always local. */
module UsersHook {
  import opened Js
  import opened Http
  import opened UserTypes
  import Text
  import ListPatch
  import UsersApi
  import AuthHook

  const CreateFailed := "Erro ao criar usuário"
  const UpdateFailed := "Erro ao atualizar usuário"

  datatype State = State(users: seq<User>, loading: bool, apiAvailable: bool)

  /** A fresh hook: no users, not loading, the API presumed available. */
  function Initial(): (s: State)
    ensures s.users == [] && !s.loading && s.apiAvailable
  {
    State([], false, true)
  }

  /** The three sample users served while the API is unavailable. */
  const MockUsers: seq<User> := [
    User("1", "João Silva", "joao@loja.com", "joao.silva", "admin", "active", "2024-01-15T10:00:00Z"),
    User("2", "Maria Santos", "maria@loja.com", "maria.santos", "user", "active", "2024-01-20T14:30:00Z"),
    User("3", "Pedro Costa", "pedro@loja.com", "pedro.costa", "manager", "inactive", "2024-02-01T09:15:00Z")
  ]

  /** The id `api-{index}` given to the user at that position of a fetched list. */
  function ApiId(index: nat): string {
    "api-" + Text.NatToString(index)
  }

  /** `fetchUsers`: the converted list and online mode on success with data;
      otherwise (including a thrown call) the sample users and offline mode. */
  function FetchUsers(s: State, call: Call<ApiResponse<seq<ApiUser>>>, clock: Clock): (r: State)
    ensures !r.loading
    ensures r.apiAvailable <==> call.Returned? && call.value.success && call.value.data.Some?
    ensures !r.apiAvailable ==> r.users == MockUsers
    ensures r.apiAvailable ==>
              && |r.users| == |call.value.data.value|
              && forall i :: 0 <= i < |r.users| ==>
                   r.users[i] == MapApiUserToUser(call.value.data.value[i], Some(ApiId(i)), clock)
  {
    if call.Returned? && call.value.success && call.value.data.Some? then
      var data := call.value.data.value;
      State(seq(|data|, i requires 0 <= i < |data| => MapApiUserToUser(data[i], Some(ApiId(i)), clock)), false, true)
    else
      State(MockUsers, false, false)
  }

  /** The ids of fetched users are pairwise distinct. */
  lemma FetchedIdsDistinct(s: State, call: Call<ApiResponse<seq<ApiUser>>>, clock: Clock)
    ensures var r := FetchUsers(s, call, clock);
            forall i, j :: 0 <= i < j < |r.users| ==> r.users[i].id != r.users[j].id
  {
    var r := FetchUsers(s, call, clock);
    forall i, j | 0 <= i < j < |r.users| ensures r.users[i].id != r.users[j].id {
      if r.apiAvailable {
        ApiIdsDistinct(i, j);
      }
    }
  }

  lemma ApiIdsDistinct(i: nat, j: nat)
    requires i != j
    ensures ApiId(i) != ApiId(j)
  {
    Text.NatToStringInjective(i, j);
    assert ApiId(i)[4..] == Text.NatToString(i) && ApiId(j)[4..] == Text.NatToString(j);
  }

  /** What an operation that may throw ended in. A raised error carries its
      message when the hook built it, and none when it rethrew a rejection. */
  datatype Completion = Completed | Raised(message: Option<string>)

  /** The form data of a new user. */
  datatype CreateUserData = CreateUserData(userName: string, password: string, role: string)

  /** The body of a create request. */
  datatype CreateRequest = CreateRequest(userName: Option<string>, password: Option<string>, role: Option<string>)

  /** Empty fields are sent as null. */
  function CreateRequestOf(d: CreateUserData): (r: CreateRequest)
    ensures r.userName.None? <==> d.userName == ""
    ensures r.password.None? <==> d.password == ""
    ensures r.role.None? <==> d.role == ""
    ensures r.userName.Some? ==> r.userName.value == d.userName
    ensures r.password.Some? ==> r.password.value == d.password
    ensures r.role.Some? ==> r.role.value == d.role
  {
    CreateRequest(OrNull(d.userName), OrNull(d.password), OrNull(d.role))
  }

  /** The user an offline create simulates. */
  function LocalUser(d: CreateUserData, clock: Clock): (u: User)
    ensures u.email == d.userName + MailDomain && u.status == "active"
    ensures u.name == d.userName && u.userName == d.userName
    ensures u.role == OrElse(Some(d.role), DefaultRole)
    ensures u.id == Text.NatToString(clock.now) && u.createdAt == clock.iso
  {
    User(Text.NatToString(clock.now), d.userName, d.userName + MailDomain, d.userName,
         OrElse(Some(d.role), DefaultRole), "active", clock.iso)
  }

  datatype Step = Step(state: State, completion: Completion)

  /** `createUser`, given what the API call settled to. */
  function CreateUser(s: State, d: CreateUserData, call: Call<ApiResponse<ApiUser>>, clock: Clock): (r: Step)
    ensures !r.state.loading
    ensures r.completion.Completed? <==>
              call.Returned? && ((call.value.success && call.value.data.Some?) || !s.apiAvailable)
    ensures r.completion.Raised? ==> r.state.users == s.users && r.state.apiAvailable == s.apiAvailable
    ensures call.Returned? && r.completion.Raised? ==> r.completion.message == Some(OrElse(call.value.error, CreateFailed))
    ensures r.completion.Completed? ==> |r.state.users| == |s.users| + 1 && r.state.users[..|s.users|] == s.users
    ensures call.Returned? && call.value.success && call.value.data.Some? ==>
              r.state.apiAvailable
              && r.state.users[|s.users|] == MapApiUserToUser(call.value.data.value, Some("new-" + Text.NatToString(clock.now)), clock)
    ensures call.Returned? && !(call.value.success && call.value.data.Some?) && !s.apiAvailable ==>
              r.state.users[|s.users|] == LocalUser(d, clock) && !r.state.apiAvailable
  {
    match call
    case Threw => Step(s.(loading := false), Raised(None))
    case Returned(response) =>
      if response.success && response.data.Some? then
        var created := MapApiUserToUser(response.data.value, Some("new-" + Text.NatToString(clock.now)), clock);
        Step(State(ListPatch.Append(s.users, created), false, true), Completed)
      else if s.apiAvailable then
        Step(s.(loading := false), Raised(Some(OrElse(response.error, CreateFailed))))
      else
        Step(s.(users := ListPatch.Append(s.users, LocalUser(d, clock)), loading := false), Completed)
  }

  /** A partial user: the fields an update overrides. */
  datatype UserPatch = UserPatch(
    id: Option<string>,
    name: Option<string>,
    email: Option<string>,
    userName: Option<string>,
    role: Option<string>,
    status: Option<string>,
    createdAt: Option<string>)

  /** `{...user, ...patch}`: every field the patch has replaces the user's. */
  function Merge(u: User, p: UserPatch): (r: User)
    ensures p.userName.Some? ==> r.userName == p.userName.value
    ensures p.userName.None? ==> r.userName == u.userName
    ensures p.role.Some? ==> r.role == p.role.value
    ensures p.role.None? ==> r.role == u.role
    ensures p.id.Some? ==> r.id == p.id.value
    ensures p.id.None? ==> r.id == u.id
    ensures p.name.Some? ==> r.name == p.name.value
    ensures p.name.None? ==> r.name == u.name
    ensures p.email.Some? ==> r.email == p.email.value
    ensures p.email.None? ==> r.email == u.email
    ensures p.status.Some? ==> r.status == p.status.value
    ensures p.status.None? ==> r.status == u.status
    ensures p.createdAt.Some? ==> r.createdAt == p.createdAt.value
    ensures p.createdAt.None? ==> r.createdAt == u.createdAt
  {
    User(p.id.GetOr(u.id), p.name.GetOr(u.name), p.email.GetOr(u.email), p.userName.GetOr(u.userName),
         p.role.GetOr(u.role), p.status.GetOr(u.status), p.createdAt.GetOr(u.createdAt))
  }

  /** The empty patch changes nothing. */
  lemma MergeEmpty(u: User)
    ensures Merge(u, UserPatch(None, None, None, None, None, None, None)) == u
  {
  }

  /** The body of an update request: user name and role, null when absent or empty. */
  function UpdateRequestOf(p: UserPatch): (r: UpdateRequest)
    ensures r.userName.None? <==> !Truthy(p.userName)
    ensures r.role.None? <==> !Truthy(p.role)
    ensures r.userName.Some? ==> r.userName == p.userName
    ensures r.role.Some? ==> r.role == p.role
  {
    UpdateRequest(OrNull(p.userName.GetOr("")), OrNull(p.role.GetOr("")))
  }

  function WithId(id: string): User -> bool {
    (u: User) => u.id == id
  }

  /** `updateUser(id, patch)`: the patch is merged into every user with that
      id on success, or locally while offline; online failures are raised. */
  function UpdateUser(s: State, id: string, p: UserPatch, call: Call<ApiResponse<ApiUser>>): (r: Step)
    ensures !r.state.loading
    ensures r.completion.Completed? <==> call.Returned? && (call.value.success || !s.apiAvailable)
    ensures r.completion.Raised? ==> r.state.users == s.users && r.state.apiAvailable == s.apiAvailable
    ensures call.Returned? && r.completion.Raised? ==> r.completion.message == Some(OrElse(call.value.error, UpdateFailed))
    ensures r.completion.Completed? ==>
              && |r.state.users| == |s.users|
              && (forall i :: 0 <= i < |s.users| ==>
                    r.state.users[i] == if s.users[i].id == id then Merge(s.users[i], p) else s.users[i])
              && (r.state.apiAvailable <==> call.value.success || s.apiAvailable)
  {
    match call
    case Threw => Step(s.(loading := false), Raised(None))
    case Returned(response) =>
      if response.success then
        Step(State(ListPatch.MapWhere(s.users, WithId(id), u => Merge(u, p)), false, true), Completed)
      else if s.apiAvailable then
        Step(s.(loading := false), Raised(Some(OrElse(response.error, UpdateFailed))))
      else
        Step(s.(users := ListPatch.MapWhere(s.users, WithId(id), u => Merge(u, p)), loading := false), Completed)
  }

  /** `deleteUser(id)`: no API call; every user with that id goes, the rest
      stay in order. */
  function DeleteUser(s: State, id: string): (r: State)
    ensures !r.loading && r.apiAvailable == s.apiAvailable
    ensures ListPatch.IsSubsequence(r.users, s.users)
    ensures forall i :: 0 <= i < |r.users| ==> r.users[i].id != id
    ensures forall i :: 0 <= i < |s.users| && s.users[i].id != id ==> s.users[i] in r.users
    ensures forall x: User :: multiset(r.users)[x] == if x.id != id then multiset(s.users)[x] else 0
  {
    ListPatch.FilterCounts(s.users, (u: User) => u.id != id);
    State(ListPatch.Filter(s.users, (u: User) => u.id != id), false, s.apiAvailable)
  }

  /** Deleting the same id twice is deleting it once. */
  lemma DeleteUserTwice(s: State, id: string)
    ensures DeleteUser(DeleteUser(s, id), id) == DeleteUser(s, id)
  {
    ListPatch.FilterIdempotent(s.users, (u: User) => u.id != id);
  }

  datatype Lookup = Lookup(state: State, user: Option<User>)

  /** `getUserById(id)`: the server's user when it answers with one;
      otherwise the first local user with that id, switching to offline
      mode. A thrown call yields null and leaves the mode alone. */
  function GetUserById(s: State, id: string, call: Call<ApiResponse<ApiUser>>, clock: Clock): (r: Lookup)
    ensures !r.state.loading && r.state.users == s.users
    ensures call.Threw? ==> r.user.None? && r.state.apiAvailable == s.apiAvailable
    ensures call.Returned? ==> (r.state.apiAvailable <==> call.value.success && call.value.data.Some?)
    ensures call.Returned? && r.state.apiAvailable ==>
              r.user == Some(MapApiUserToUser(call.value.data.value, Some(id), clock))
    ensures call.Returned? && !r.state.apiAvailable ==> r.user == ListPatch.Find(s.users, WithId(id))
    ensures call.Returned? && !r.state.apiAvailable && r.user.Some? ==> r.user.value.id == id
  {
    match call
    case Threw => Lookup(s.(loading := false), None)
    case Returned(response) =>
      if response.success && response.data.Some? then
        Lookup(State(s.users, false, true), Some(MapApiUserToUser(response.data.value, Some(id), clock)))
      else
        Lookup(State(s.users, false, false), ListPatch.Find(s.users, WithId(id)))
  }

  /** Offline, every write is local, so a create after a failed fetch always
      lands on top of the sample users. */
  lemma OfflineCreateExtendsSamples(s: State, fetchCall: Call<ApiResponse<seq<ApiUser>>>, d: CreateUserData,
                                    failed: ApiResponse<ApiUser>, clock: Clock)
    requires !(fetchCall.Returned? && fetchCall.value.success && fetchCall.value.data.Some?)
    requires !failed.success
    ensures var offline := FetchUsers(s, fetchCall, clock);
            CreateUser(offline, d, Returned(failed), clock).state.users == MockUsers + [LocalUser(d, clock)]
  {
  }

  // ------------------------------------------------------------ token sync

  /** The effect that hands the token to the users client, as written. It
      passes the `token` it destructures from the session context, but the
      context value (hooks/use-auth.tsx) holds user, loading, login, logout
      and isAuthenticated and no `token`, so the read yields `undefined`
      whatever the session: the client's token is cleared and its stored
      copy removed, and nothing else in storage changes. */
  function SyncToken(a: AuthHook.Auth, c: UsersApi.Client, storage: Storage): (r: UsersApi.Stored)
    ensures r.client == c.(token := None)
    ensures UsersApi.TokenKey !in r.storage
    ensures r.storage - {UsersApi.TokenKey} == storage - {UsersApi.TokenKey}
  {
    UsersApi.SetToken(c, storage, None)
  }

  /** As written, a logged-in session still leaves the users client without
      a token: its stored token is removed and no request it sends carries
      an Authorization header. */
  lemma SyncTokenDropsSession<T>(a: AuthHook.Auth, c: UsersApi.Client, storage: Storage,
                                 op: UsersApi.Operation, fetch: Call<Response<T>>)
    requires AuthHook.IsAuthenticated(a) && a.user.value.token != ""
    ensures var synced := SyncToken(a, c, storage);
            var route := UsersApi.RouteOf(op);
            var sent := UsersApi.Send(synced.client, route.endpoint, route.options, true, fetch).sent;
            UsersApi.TokenKey !in synced.storage && sent.Some? && "Authorization" !in sent.value.headers
  {
  }

  /** The token of the signed-in user, which is what the effect evidently means to pass. */
  function SessionToken(a: AuthHook.Auth): (t: Option<string>)
    ensures t.Some? <==> AuthHook.IsAuthenticated(a)
    ensures t.Some? ==> t.value == a.user.value.token
  {
    match a.user
    case Some(u) => Some(u.token)
    case None => None
  }

  /** The effect with the session token. */
  function SyncSessionToken(a: AuthHook.Auth, c: UsersApi.Client, storage: Storage): (r: UsersApi.Stored)
    ensures r.client.token == SessionToken(a)
    ensures r.storage - {UsersApi.TokenKey} == storage - {UsersApi.TokenKey}
  {
    UsersApi.SetToken(c, storage, SessionToken(a))
  }

  /** With the session token, every users request of a signed-in session
      carries its bearer credential, and signing out removes it. */
  lemma SessionTokenReachesRequests<T>(a: AuthHook.Auth, c: UsersApi.Client, storage: Storage,
                                       op: UsersApi.Operation, fetch: Call<Response<T>>)
    ensures var synced := SyncSessionToken(a, c, storage);
            var route := UsersApi.RouteOf(op);
            var sent := UsersApi.Send(synced.client, route.endpoint, route.options, true, fetch).sent;
            && sent.Some?
            && (AuthHook.IsAuthenticated(a) && a.user.value.token != "" ==>
                  "Authorization" in sent.value.headers
                  && sent.value.headers["Authorization"] == "Bearer " + a.user.value.token)
            && (!AuthHook.IsAuthenticated(a) ==> "Authorization" !in sent.value.headers)
  {
  }
}

=== FILE: user_screen.dfy ===
/** The user administration screen (components/users/user-management.tsx):
    its search filter, the user dialog's guards and the call it makes, and
    the role labels and badges. */
module UserScreen {
  import opened Js
  import opened Http
  import opened UserTypes
  import Text
  import Ui
  import ListPatch
  import UsersHook

  const UserNameRequired := "Nome de usuário é obrigatório"
  const PasswordRequired := "Senha é obrigatória para novos usuários"
  const SaveFailed := "Erro ao salvar usuário. Tente novamente."

  // ----------------------------------------------------------------- search

  /** A user is found when the term occurs in the name, the user name or
      the e-mail, letter case ignored. */
  predicate Matches(u: User, term: string) {
    Text.IncludesIgnoringCase(u.name, term)
    || Text.IncludesIgnoringCase(u.userName, term)
    || Text.IncludesIgnoringCase(u.email, term)
  }

  function Keep(term: string): User -> bool {
    u => Matches(u, term)
  }

  /** `filteredUsers`. */
  function Filtered(users: seq<User>, term: string): (r: seq<User>)
    ensures ListPatch.IsSubsequence(r, users)
    ensures forall i :: 0 <= i < |r| ==> Matches(r[i], term)
    ensures forall i :: 0 <= i < |users| && Matches(users[i], term) ==> users[i] in r
    ensures forall x :: multiset(r)[x] == if Matches(x, term) then multiset(users)[x] else 0
  {
    ListPatch.FilterCounts(users, Keep(term));
    var r := ListPatch.Filter(users, Keep(term));
    assert forall i :: 0 <= i < |r| ==> Keep(term)(r[i]);
    r
  }

  /** The empty term occurs in every name, so it shows every user. */
  lemma EmptyTermShowsAll(users: seq<User>)
    ensures Filtered(users, "") == users
  {
    forall i | 0 <= i < |users| ensures Keep("")(users[i]) {
      Text.IncludesEmpty(Text.Lower(users[i].name));
    }
    ListPatch.FilterAll(users, Keep(""));
  }

  // ----------------------------------------------------------------- dialog

  datatype UserForm = UserForm(userName: string, password: string, role: string)

  /** The form when the dialog opens: the edited user's name and role with
      the password left empty, or an empty form with role "user". */
  function OpenDialog(user: Option<User>): (f: UserForm)
    ensures f.password == ""
    ensures user.None? ==> f.userName == "" && f.role == DefaultRole
    ensures user.Some? ==> f.userName == user.value.userName && f.role == user.value.role
  {
    match user
    case Some(u) => UserForm(u.userName, "", u.role)
    case None => UserForm("", "", DefaultRole)
  }

  /** The guards of `handleSubmit`: a user name always, a password only for
      a new user. */
  function Validate(f: UserForm, editing: bool): (r: Option<string>)
    ensures r.None? <==> f.userName != "" && (editing || f.password != "")
    ensures f.userName == "" ==> r == Some(UserNameRequired)
    ensures f.userName != "" && !editing && f.password == "" ==> r == Some(PasswordRequired)
  {
    if f.userName == "" then Some(UserNameRequired)
    else if !editing && f.password == "" then Some(PasswordRequired)
    else None
  }

  /** The patch an edit sends: user name and role, nothing else. */
  function EditPatch(f: UserForm): (p: UsersHook.UserPatch)
    ensures p.userName == Some(f.userName) && p.role == Some(f.role)
    ensures p.id.None? && p.name.None? && p.email.None? && p.status.None? && p.createdAt.None?
  {
    UsersHook.UserPatch(None, None, None, Some(f.userName), Some(f.role), None, None)
  }

  /** The screen after submit: the users hook's state, whether the dialog
      is still open, and the error it shows ("" for none). */
  datatype Submitted = Submitted(users: UsersHook.State, open: bool, error: string)

  /** `handleSubmit`: `editing` is the user being edited, if any, and `call`
      what the users API settled to. */
  function Submit(s: UsersHook.State, f: UserForm, editing: Option<User>, call: Call<ApiResponse<ApiUser>>, clock: Clock): (r: Submitted)
    ensures Validate(f, editing.Some?).Some? ==>
              r == Submitted(s, true, Validate(f, editing.Some?).value)
    ensures Validate(f, editing.Some?).None? && editing.Some? ==>
              var step := UsersHook.UpdateUser(s, editing.value.id, EditPatch(f), call);
              r.users == step.state && (r.open <==> step.completion.Raised?)
    ensures Validate(f, editing.Some?).None? && editing.None? ==>
              var step := UsersHook.CreateUser(s, UsersHook.CreateUserData(f.userName, f.password, f.role), call, clock);
              r.users == step.state && (r.open <==> step.completion.Raised?)
    ensures !r.open <==> r.error == ""
    ensures Validate(f, editing.Some?).None? && r.open && call.Returned? ==>
              r.error == OrElse(call.value.error, if editing.Some? then UsersHook.UpdateFailed else UsersHook.CreateFailed)
    ensures Validate(f, editing.Some?).None? && r.open && call.Threw? ==> r.error == SaveFailed
  {
    match Validate(f, editing.Some?)
    case Some(message) => Submitted(s, true, message)
    case None =>
      var step := match editing
        case Some(u) => UsersHook.UpdateUser(s, u.id, EditPatch(f), call)
        case None => UsersHook.CreateUser(s, UsersHook.CreateUserData(f.userName, f.password, f.role), call, clock);
      match step.completion
      case Completed => Submitted(step.state, false, "")
      case Raised(message) => Submitted(step.state, true, OrElse(message, SaveFailed))
  }

  /** An edit never carries the password: whatever the field holds, the
      outcome is the same. */
  lemma EditIgnoresPassword(s: UsersHook.State, f: UserForm, u: User, password: string,
                            call: Call<ApiResponse<ApiUser>>, clock: Clock)
    ensures Submit(s, f.(password := password), Some(u), call, clock) == Submit(s, f, Some(u), call, clock)
  {
  }

  // ------------------------------------------------------------------ roles

  /** `getRoleLabel`: any role other than admin or manager reads as a plain user. */
  function RoleLabel(role: string): (r: string)
    ensures r == "Administrador" <==> role == "admin"
    ensures r == "Gerente" <==> role == "manager"
    ensures r == "Usuário" <==> role != "admin" && role != "manager"
  {
    if role == "admin" then "Administrador"
    else if role == "manager" then "Gerente"
    else "Usuário"
  }

  /** `getRoleBadgeVariant`. */
  function RoleBadge(role: string): (v: Ui.Variant)
    ensures v.Destructive? <==> role == "admin"
    ensures v.Default? <==> role == "manager"
    ensures v.Secondary? <==> role != "admin" && role != "manager"
    ensures !v.Outline?
  {
    if role == "admin" then Ui.Destructive
    else if role == "manager" then Ui.Default
    else Ui.Secondary
  }

  /** Label and badge agree: two roles with the same label have the same badge. */
  lemma LabelDeterminesBadge(a: string, b: string)
    requires RoleLabel(a) == RoleLabel(b)
    ensures RoleBadge(a) == RoleBadge(b)
  {
  }
}

=== FILE: user_types.dfy ===
/** Users (types/user.ts): the server's user record, the record the screens
    use, and the two conversions between them. */
module UserTypes {
  import opened Js
  import Text

  /** A user as the server returns it; both fields may be null. */
  datatype ApiUser = ApiUser(userName: Option<string>, role: Option<string>)

  /** A user as the screens hold it. The role and status are free strings:
      nothing checks that a role is one of "admin", "user", "manager". */
  datatype User = User(id: string, name: string, email: string, userName: string, role: string, status: string, createdAt: string)

  /** The body of an update request. */
  datatype UpdateRequest = UpdateRequest(userName: Option<string>, role: Option<string>)

  /** The two clock readings the conversions take: `Date.now()` in
      milliseconds and `new Date().toISOString()`. */
  datatype Clock = Clock(now: nat, iso: string)

  const DefaultName := "Usuário"
  const DefaultRole := "user"
  const MailDomain := "@loja.com"

  /** How a nullable string renders inside a template literal. */
  function Interpolate(s: Option<string>): (r: string)
    ensures s.Some? ==> r == s.value
    ensures s.None? ==> r == "null"
  {
    match s
    case Some(v) => v
    case None => "null"
  }

  /** `mapApiUserToUser(apiUser, id)`. */
  function MapApiUserToUser(u: ApiUser, id: Option<string>, clock: Clock): (r: User)
    ensures r.id == if Truthy(id) then id.value else Text.NatToString(clock.now)
    ensures r.id != ""
    ensures Truthy(u.userName) <==> r.name == r.userName
    ensures Truthy(u.userName) ==> r.userName == u.userName.value
    ensures !Truthy(u.userName) ==> r.name == DefaultName && r.userName == ""
    ensures r.email == Interpolate(u.userName) + MailDomain
    ensures r.role == OrElse(u.role, DefaultRole) && r.role != ""
    ensures r.status == "active" && r.createdAt == clock.iso
  {
    User(if Truthy(id) then id.value else Text.NatToString(clock.now),
         OrElse(u.userName, DefaultName),
         Interpolate(u.userName) + MailDomain,
         OrElse(u.userName, ""),
         OrElse(u.role, DefaultRole),
         "active",
         clock.iso)
  }

  /** `mapUserToApiUser`: only the user name and the role go to the server. */
  function MapUserToApiUser(u: User): (r: UpdateRequest)
    ensures r.userName == Some(u.userName) && r.role == Some(u.role)
  {
    UpdateRequest(Some(u.userName), Some(u.role))
  }

  /** Converting a server user with a name and role and sending it back
      reproduces that user, whatever the id and clock. */
  lemma ApiUserRoundTrip(u: ApiUser, id: Option<string>, clock: Clock)
    requires Truthy(u.userName) && Truthy(u.role)
    ensures var back := MapUserToApiUser(MapApiUserToUser(u, id, clock));
            back.userName == u.userName && back.role == u.role
  {
  }

  /** Users that differ in any field other than name and role send the same request. */
  lemma UpdateRequestIgnoresOtherFields(a: User, b: User)
    requires a.userName == b.userName && a.role == b.role
    ensures MapUserToApiUser(a) == MapUserToApiUser(b)
  {
  }
}

=== FILE: users_api.dfy ===
/** The second API client (lib/api.ts), used only for the user endpoints:
    no client-side token gate, a shorter header set, a different storage key,
    and a different treatment of unparsable bodies. */
module UsersApi {
  import opened Js
  import opened Http
  import ErpClient

  const TokenKey := "token"

  /** The client holds its base URL and the last token it was given or loaded. */
  datatype Client = Client(baseUrl: string, token: Option<string>)

  /** The singleton: base URL from the environment (or ""), token from storage. */
  function Init(baseUrlSetting: Option<string>, storage: Storage): (c: Client)
    ensures c.baseUrl == OrElse(baseUrlSetting, "")
    ensures c.token == GetItem(storage, TokenKey)
  {
    Client(OrElse(baseUrlSetting, ""), GetItem(storage, TokenKey))
  }

  datatype Stored = Stored(client: Client, storage: Storage)

  /** `setToken`: hold the token; persist it under "token" when truthy,
      otherwise remove the stored one. No other storage key changes. */
  function SetToken(c: Client, storage: Storage, token: Option<string>): (r: Stored)
    ensures r.client == c.(token := token)
    ensures Truthy(token) ==> GetItem(r.storage, TokenKey) == token
    ensures !Truthy(token) ==> TokenKey !in r.storage
    ensures r.storage - {TokenKey} == storage - {TokenKey}
  {
    if Truthy(token) then Stored(c.(token := token), storage[TokenKey := token.value])
    else Stored(c.(token := token), storage - {TokenKey})
  }

  /** `getHeaders`: JSON content type, plus a bearer credential (section 2.1
      of RFC 6750) exactly when the held token is truthy. */
  function Headers(token: Option<string>): (h: map<string, string>)
    ensures "Content-Type" in h && h["Content-Type"] == "application/json"
    ensures "Authorization" in h <==> Truthy(token)
    ensures Truthy(token) ==> h["Authorization"] == "Bearer " + token.value
    ensures h.Keys <= {"Content-Type", "Authorization"}
  {
    var base := map["Content-Type" := "application/json"];
    if Truthy(token) then base["Authorization" := "Bearer " + token.value] else base
  }

  /** The error message of a non-2xx response: `response.json()` either
      yields an object whose first `errors` entry is used, or fails (which
      includes a `null` body, whose `errors` cannot be read). */
  function FailureMessage<T>(resp: Response<T>): (m: string)
    ensures (resp.text.Some? && ParseBody(resp.text.value, resp.json).JsonValue?) ==>
              m == FirstErrorOr(resp.json.errors, HttpError(resp.status))
    ensures !(resp.text.Some? && ParseBody(resp.text.value, resp.json).JsonValue?) ==>
              m == HttpError(resp.status)
  {
    match resp.text
    case None => HttpError(resp.status)
    case Some(t) =>
      match ParseBody(t, resp.json)
      case JsonValue(_, errors) => FirstErrorOr(errors, HttpError(resp.status))
      case _ => HttpError(resp.status)
  }

  /** The envelope for a response that `fetch` resolved to. An unparsable
      2xx JSON body escapes to the outer handler and reads as a connection error. */
  function Interpret<T>(resp: Response<T>): (r: ApiResponse<T>)
    ensures ErpClient.WellFormed(r)
    ensures !resp.ok ==> r == Failure(FailureMessage(resp))
    ensures (resp.ok && IsJsonContent(resp.contentType) && resp.text == Some("")) ==> r == Success(None)
    ensures (resp.ok && !IsJsonContent(resp.contentType)) ==> r == Success(None)
    ensures (resp.ok && IsJsonContent(resp.contentType) && resp.text.Some? && resp.text.value != ""
             && resp.json.NotJson?) ==> r == Failure(ConnectionError)
    ensures (resp.ok && IsJsonContent(resp.contentType) && resp.text.Some? && resp.text.value != ""
             && resp.json.JsonValue?) ==> r == Success(Some(resp.json.data))
    ensures (resp.ok && IsJsonContent(resp.contentType) && resp.text.Some? && resp.text.value != ""
             && resp.json.JsonNull?) ==> r == Success(None)
    ensures (resp.ok && IsJsonContent(resp.contentType) && resp.text.None?) ==> r == Failure(ConnectionError)
  {
    if !resp.ok then
      Failure(FailureMessage(resp))
    else if IsJsonContent(resp.contentType) then
      match resp.text
      case None => Failure(ConnectionError)
      case Some(t) =>
        if t == "" then Success(None)
        else
          match resp.json
          case NotJson => Failure(ConnectionError)
          case JsonNull => Success(None)
          case JsonValue(d, _) => Success(Some(d))
    else
      Success(None)
  }

  /** The two clients agree on whether a response succeeds and on the data it
      carries. On a 2xx response they differ only in how an unparsable JSON
      body is reported; on a failed one they give the same message whenever
      the body is empty or parses to an object. */
  lemma AgreesWithErpClient<T>(resp: Response<T>)
    ensures Interpret(resp).success == ErpClient.Interpret(resp).success
    ensures Interpret(resp).data == ErpClient.Interpret(resp).data
    ensures resp.ok && Interpret(resp) != ErpClient.Interpret(resp) ==>
              ErpClient.Interpret(resp) == Failure(ErpClient.InvalidResponse)
              && Interpret(resp) == Failure(ConnectionError)
    ensures !resp.ok && resp.text.Some? && ParseBody(resp.text.value, resp.json).JsonValue? ==>
              Interpret(resp) == ErpClient.Interpret(resp)
    ensures !resp.ok && resp.text == Some("") ==> Interpret(resp) == ErpClient.Interpret(resp)
  {
  }

  /** The result of `request`: the envelope and what was sent, if anything. */
  datatype Sent<+T> = Sent(response: ApiResponse<T>, sent: Option<Request>)

  /** `request(endpoint, options)`. `bodyParses` says whether the request
      body is JSON text; the body is parsed (for logging) before `fetch`,
      and a body that does not parse fails the call without sending it. */
  function Send<T>(c: Client, endpoint: string, options: ErpClient.Options, bodyParses: bool,
                   fetch: Call<Response<T>>): (r: Sent<T>)
    ensures ErpClient.WellFormed(r.response)
    ensures r.sent.None? <==> Truthy(options.body) && !bodyParses
    ensures r.sent.None? ==> r.response == Failure(ConnectionError)
    ensures r.sent.Some? ==>
              var q := r.sent.value;
              && q.url == c.baseUrl + endpoint
              && q.verb == options.verb.GetOr(GET)
              && q.body == options.body
              && (forall k :: k in options.headers ==> k in q.headers && q.headers[k] == options.headers[k])
              && (forall k :: k in q.headers && k !in options.headers ==>
                    k in Headers(c.token) && q.headers[k] == Headers(c.token)[k])
              && (forall k :: k in Headers(c.token) && k !in options.headers ==>
                    k in q.headers && q.headers[k] == Headers(c.token)[k])
    ensures r.sent.Some? && fetch.Threw? ==> r.response == Failure(ConnectionError)
    ensures r.sent.Some? && fetch.Returned? ==> r.response == Interpret(fetch.value)
  {
    if Truthy(options.body) && !bodyParses then
      Sent(Failure(ConnectionError), None)
    else
      var request := Request(options.verb.GetOr(GET), c.baseUrl + endpoint,
                             Headers(c.token) + options.headers, options.body);
      var response := match fetch
        case Threw => Failure(ConnectionError)
        case Returned(resp) => Interpret(resp);
      Sent(response, Some(request))
  }

  /** Without the gate of the main client, a request is sent whether or not
      a token is held: the token only decides the Authorization header. */
  lemma NoTokenGate<T>(c: Client, endpoint: string, options: ErpClient.Options, fetch: Call<Response<T>>)
    requires !Truthy(c.token)
    ensures Send(c, endpoint, options, true, fetch).sent.Some?
    ensures "Authorization" !in options.headers ==>
              "Authorization" !in Send(c, endpoint, options, true, fetch).sent.value.headers
  {
  }

  // ------------------------------------------------------------ endpoints

  const UsersPath := "/User"

  /** The calls the client offers. Bodies of the user calls are already
      serialised; the generic `post`/`put` take the value to serialise. */
  datatype Operation =
    | CreateUser(body: string)
    | GetUsers
    | GetUserById(id: string)
    | UpdateUser(body: string)
    | Get(endpoint: string)
    | Post(endpoint: string, data: Value)
    | Put(endpoint: string, data: Value)
    | Delete(endpoint: string)

  /** `data ? JSON.stringify(data) : undefined`. */
  function BodyOf(data: Value): (b: Option<string>)
    ensures b.None? <==> !IsTruthy(data)
    ensures b.Some? ==> Some(b.value) == Stringify(data)
  {
    if IsTruthy(data) then Stringify(data) else None
  }

  function RouteOf(op: Operation): (r: ErpClient.Route)
    ensures r.options.headers == map[]
    ensures op.UpdateUser? ==> r.endpoint == UsersPath && r.options.verb == Some(PUT)
    ensures op.GetUserById? ==> r.endpoint == UsersPath + "/" + op.id && r.options.verb == Some(GET)
    ensures (op.CreateUser? || op.GetUsers?) ==> r.endpoint == UsersPath
    ensures (op.Post? || op.Put?) ==> r.options.body.Some? == IsTruthy(op.data)
    ensures r.options.verb == Some(POST) <==> (op.CreateUser? || op.Post?)
    ensures r.options.verb == Some(PUT) <==> (op.UpdateUser? || op.Put?)
    ensures r.options.verb == Some(DELETE) <==> op.Delete?
  {
    match op
    case CreateUser(body) => ErpClient.Route(UsersPath, ErpClient.Options(Some(POST), Some(body), map[]))
    case GetUsers => ErpClient.Route(UsersPath, ErpClient.Options(Some(GET), None, map[]))
    case GetUserById(id) => ErpClient.Route(UsersPath + "/" + id, ErpClient.Options(Some(GET), None, map[]))
    case UpdateUser(body) => ErpClient.Route(UsersPath, ErpClient.Options(Some(PUT), Some(body), map[]))
    case Get(endpoint) => ErpClient.Route(endpoint, ErpClient.Options(Some(GET), None, map[]))
    case Post(endpoint, data) => ErpClient.Route(endpoint, ErpClient.Options(Some(POST), BodyOf(data), map[]))
    case Put(endpoint, data) => ErpClient.Route(endpoint, ErpClient.Options(Some(PUT), BodyOf(data), map[]))
    case Delete(endpoint) => ErpClient.Route(endpoint, ErpClient.Options(Some(DELETE), None, map[]))
  }
}

=== FILE: variation_modal.dfy ===
/** The product-variation dialog
    (components/product-variations/product-variation-modal.tsx). */
module VariationModal {
  import opened Js
  import opened Http
  import opened VariationTypes
  import Text
  import Form

  /** The form, which is also the body of a create request. */
  datatype VariationForm = VariationForm(
    name: string,
    isCap: bool,
    isPocket: bool,
    withRib: bool,
    gender: int,
    enable: bool,
    productId: string,
    sizeId: string)

  const NameRequired := "Nome é obrigatório"
  const ProductRequired := "Produto é obrigatório"
  const SizeRequired := "Tamanho é obrigatório"
  const SaveFailed := "Erro ao salvar variação de produto"

  /** The form when the dialog opens: the edited variation, or a new
      enabled male variation with no cap, pocket or rib. */
  function Open(variation: Option<ProductVariation>): (f: VariationForm)
    ensures variation.None? ==>
              && f.name == "" && f.productId == "" && f.sizeId == ""
              && f.gender == Masculino && f.enable
              && !f.isCap && !f.isPocket && !f.withRib
    ensures variation.Some? ==>
              var v := variation.value;
              f == VariationForm(v.name, v.isCap, v.isPocket, v.withRib, v.gender, v.enable, v.productId, v.sizeId)
  {
    match variation
    case Some(v) => VariationForm(v.name, v.isCap, v.isPocket, v.withRib, v.gender, v.enable, v.productId, v.sizeId)
    case None => VariationForm("", false, false, false, Masculino, true, "", "")
  }

  /** The gender select's options: the numeric members of the enumeration,
      each with its label. */
  function GenderOptions(): (r: seq<(int, string)>)
    ensures |r| == |Genders|
    ensures forall i :: 0 <= i < |r| ==> r[i].0 == Genders[i] && r[i].1 == GenderLabel(Genders[i])
  {
    seq(|Genders|, i requires 0 <= i < |Genders| => (Genders[i], GenderLabel(Genders[i])))
  }

  /** Every option is a valid gender with a known label, and every valid
      gender is offered. */
  lemma OptionsAreTheGenders(g: int)
    ensures (exists i :: 0 <= i < |GenderOptions()| && GenderOptions()[i].0 == g) <==> IsGender(g)
    ensures forall i :: 0 <= i < |GenderOptions()| ==> GenderOptions()[i].1 != Unknown
  {
    GendersAreTheEnum(g);
    if IsGender(g) {
      assert GenderOptions()[g - 1].0 == g;
    }
  }

  /** The guards of `handleSubmit`, in order. A `!x.trim()` guard is stated
      as "all white space", which is when `Text.Trim` leaves nothing. */
  const Rules: seq<Form.Rule<VariationForm>> := [
    Form.Rule((f: VariationForm) => !Text.AllWhiteSpace(f.name), NameRequired),
    Form.Rule((f: VariationForm) => f.productId != "", ProductRequired),
    Form.Rule((f: VariationForm) => f.sizeId != "", SizeRequired)
  ]

  /** A variation is accepted with a name that is not all white space, a
      product and a size; the flags and the gender are never checked. */
  function Validate(f: VariationForm): (r: Option<string>)
    ensures r.None? <==> !Text.AllWhiteSpace(f.name) && f.productId != "" && f.sizeId != ""
  {
    assert Rules[0].holds(f) <==> !Text.AllWhiteSpace(f.name);
    assert Rules[1].holds(f) <==> f.productId != "";
    assert Rules[2].holds(f) <==> f.sizeId != "";
    assert Rules[0].holds(f) && Rules[1].holds(f) && Rules[2].holds(f)
           <==> !Text.AllWhiteSpace(f.name) && f.productId != "" && f.sizeId != "";
    Form.FirstFailure(f, Rules)
  }

  lemma {:induction false} ValidateOrder(f: VariationForm)
    ensures Text.AllWhiteSpace(f.name) ==> Validate(f) == Some(NameRequired)
    ensures !Text.AllWhiteSpace(f.name) && f.productId == "" ==> Validate(f) == Some(ProductRequired)
    ensures !Text.AllWhiteSpace(f.name) && f.productId != "" && f.sizeId == "" ==> Validate(f) == Some(SizeRequired)
  {
    assert Rules[0].holds(f) <==> !Text.AllWhiteSpace(f.name);
    assert Rules[1].holds(f) <==> f.productId != "";
    assert Rules[2].holds(f) <==> f.sizeId != "";
    if Text.AllWhiteSpace(f.name) {
      Form.FirstFailureAt(f, Rules, 0);
    } else if f.productId == "" {
      Form.FirstFailureAt(f, Rules, 1);
    } else if f.sizeId == "" {
      Form.FirstFailureAt(f, Rules, 2);
    }
  }

  /** `handleSubmit`: the form is sent as it is. */
  function Submit<R>(f: VariationForm, variation: Option<ProductVariation>, result: Call<ApiResponse<R>>): (d: Form.Dialog<VariationForm>)
    ensures d.call.Some? <==> Validate(f).None?
    ensures d.call.Some? ==> d.call.value.payload == f && (d.call.value.Update? <==> variation.Some?)
    ensures d.call.Some? && variation.Some? ==> d.call.value.id == variation.value.id
    ensures d.succeeded <==> d.call.Some? && result.Returned? && result.value.success
    ensures d.succeeded <==> d.error == ""
    ensures d.call.Some? && result.Returned? && !result.value.success ==>
              d.error == OrElse(result.value.error, SaveFailed)
  {
    ValidateOrder(f);
    Form.Submit(Validate(f), f, if variation.Some? then Some(variation.value.id) else None, Form.OfEnvelope(result), SaveFailed)
  }
}

=== FILE: variation_screen.dfy ===
/** The product-variation screen
    (components/product-variations/product-variation-management.tsx): the
    product and size columns, the gender and flag columns, and the search
    over name and gender. */
module VariationScreen {
  import opened Js
  import opened CatalogTypes
  import opened VariationTypes
  import ListPatch
  import Lookup
  import CrudScreen
  import Text
  import Ui

  const ProductNotFound := "Produto não encontrado"
  const SizeNotFound := "Tamanho não encontrado"

  /** `getProductName`: the first product with the id, else the fallback. */
  function ProductName(products: seq<Product>, id: string): (r: string)
    ensures (forall i :: 0 <= i < |products| ==> products[i].id != id) ==> r == ProductNotFound
    ensures r == ProductNotFound || exists i :: 0 <= i < |products| && products[i].id == id && products[i].name == r
    ensures forall k :: 0 <= k < |products| && products[k].id == id && (forall j :: 0 <= j < k ==> products[j].id != id) ==>
              r == OrElse(Some(products[k].name), ProductNotFound)
  {
    var entries := ListPatch.MapAll(products, (p: Product) => Lookup.Entry(p.id, Some(p.name)));
    Lookup.FirstMatchDecides(entries, id, ProductNotFound);
    Lookup.NameOr(entries, id, ProductNotFound)
  }

  /** `getSizeName`: the first size with the id, else the fallback. */
  function SizeName(sizes: seq<Size>, id: string): (r: string)
    ensures (forall i :: 0 <= i < |sizes| ==> sizes[i].id != id) ==> r == SizeNotFound
    ensures r == SizeNotFound || exists i :: 0 <= i < |sizes| && sizes[i].id == id && sizes[i].name == r
    ensures forall k :: 0 <= k < |sizes| && sizes[k].id == id && (forall j :: 0 <= j < k ==> sizes[j].id != id) ==>
              r == OrElse(Some(sizes[k].name), SizeNotFound)
  {
    var entries := ListPatch.MapAll(sizes, (s: Size) => Lookup.Entry(s.id, Some(s.name)));
    Lookup.FirstMatchDecides(entries, id, SizeNotFound);
    Lookup.NameOr(entries, id, SizeNotFound)
  }

  /** One line of the table, the creation date aside. */
  datatype VariationRow = VariationRow(
    name: string,
    product: string,
    size: string,
    gender: string,
    isCap: Ui.Badge,
    isPocket: Ui.Badge,
    withRib: Ui.Badge,
    enable: Ui.Badge)

  /** The line of one variation. */
  function Row(products: seq<Product>, sizes: seq<Size>, v: ProductVariation): (r: VariationRow)
    ensures r.name == v.name
    ensures r.product == ProductName(products, v.productId) && r.size == SizeName(sizes, v.sizeId)
    ensures r.gender == GenderLabel(v.gender)
    ensures r.isCap == Ui.Flag(v.isCap) && r.isPocket == Ui.Flag(v.isPocket)
    ensures r.withRib == Ui.Flag(v.withRib) && r.enable == Ui.Flag(v.enable)
    ensures r.isCap.text == "Sim" <==> v.isCap
    ensures r.isPocket.text == "Sim" <==> v.isPocket
    ensures r.withRib.text == "Sim" <==> v.withRib
    ensures r.enable.text == "Sim" <==> v.enable
  {
    VariationRow(v.name, ProductName(products, v.productId), SizeName(sizes, v.sizeId), GenderLabel(v.gender),
                 Ui.Flag(v.isCap), Ui.Flag(v.isPocket), Ui.Flag(v.withRib), Ui.Flag(v.enable))
  }

  /** A variation with a valid gender never shows "Desconhecido" in the
      gender column; one with any other number always does. */
  lemma GenderColumnKnown(products: seq<Product>, sizes: seq<Size>, v: ProductVariation)
    ensures Row(products, sizes, v).gender == Unknown <==> !IsGender(v.gender)
  {
  }

  /** The variation as the generic table reads it; the gender is a number. */
  function AsRecord(v: ProductVariation): (r: CrudScreen.Record)
    ensures "name" in r && r["name"] == Str(v.name)
    ensures "gender" in r && r["gender"] == Num(v.gender)
  {
    map[
      "id" := Str(v.id),
      "name" := Str(v.name),
      "isCap" := Bool(v.isCap),
      "isPocket" := Bool(v.isPocket),
      "withRib" := Bool(v.withRib),
      "gender" := Num(v.gender),
      "enable" := Bool(v.enable),
      "productId" := Str(v.productId),
      "sizeId" := Str(v.sizeId)]
  }

  const SearchFields: seq<string> := ["name", "gender"]

  /** A term finds a variation by its name or by the decimal text of its
      gender number. */
  lemma SearchByNameOrGender(v: ProductVariation, term: string)
    ensures CrudScreen.AnyFieldMatches(AsRecord(v), SearchFields, term) <==>
              || (v.name != "" && Text.IncludesIgnoringCase(v.name, term))
              || (v.gender != 0 && Text.IncludesIgnoringCase(Text.IntToString(v.gender), term))
  {
    assert CrudScreen.Field(AsRecord(v), SearchFields[0]) == Str(v.name);
    assert CrudScreen.Field(AsRecord(v), SearchFields[1]) == Num(v.gender);
  }

  /** Searching for a gender's number finds every variation of that gender. */
  lemma GenderFoundByNumber(v: ProductVariation)
    requires v.gender != 0
    ensures CrudScreen.AnyFieldMatches(AsRecord(v), SearchFields, Text.IntToString(v.gender))
  {
    var t := Text.Lower(Text.IntToString(v.gender));
    assert Text.OccursAt(t, t, 0);
    SearchByNameOrGender(v, Text.IntToString(v.gender));
  }

  /** The gender column cannot be searched by what it shows: searching for
      the label "Masculino" misses a male variation whose name lacks it. */
  lemma GenderLabelNotSearchable(v: ProductVariation)
    requires IsGender(v.gender)
    requires !Text.IncludesIgnoringCase(v.name, GenderLabel(v.gender))
    ensures !CrudScreen.AnyFieldMatches(AsRecord(v), SearchFields, GenderLabel(v.gender))
  {
    var shown := GenderLabel(v.gender);
    assert Text.IntToString(v.gender) == [Text.DigitChar(v.gender)];
    assert |Text.Lower(shown)| > 1;
    SearchByNameOrGender(v, shown);
  }
}

=== FILE: variation_types.dfy ===
/** Product variations (types/product-variation.ts): the record, the
    `Gender` enumeration and its labels. */
module VariationTypes {
  import opened Js

  datatype ProductRef = ProductRef(id: string, name: string)
  datatype SizeRef = SizeRef(id: string, name: string)

  datatype ProductVariation = ProductVariation(
    id: string,
    name: string,
    isCap: bool,
    isPocket: bool,
    withRib: bool,
    gender: int,
    enable: bool,
    productId: string,
    sizeId: string,
    product: Option<ProductRef>,
    size: Option<SizeRef>)

  /** The `Gender` enumeration. */
  const Masculino := 1
  const Feminino := 2
  const Unissex := 3
  const Infantil := 4

  /** The enumeration's members, in declaration order. */
  const Genders: seq<int> := [Masculino, Feminino, Unissex, Infantil]

  predicate IsGender(g: int) {
    Masculino <= g <= Infantil
  }

  const Unknown := "Desconhecido"

  /** The labels of genders 1 to 4, in order. */
  const GenderLabels: seq<string> := ["Masculino", "Feminino", "Unissex", "Infantil"]

  /** `getGenderLabel`. */
  function GenderLabel(gender: int): (r: string)
    ensures IsGender(gender) ==> r == GenderLabels[gender - 1]
    ensures r == Unknown <==> !IsGender(gender)
  {
    if gender == Masculino then "Masculino"
    else if gender == Feminino then "Feminino"
    else if gender == Unissex then "Unissex"
    else if gender == Infantil then "Infantil"
    else Unknown
  }

  /** Distinct genders have distinct labels. */
  lemma GenderLabelsDistinct(a: int, b: int)
    requires IsGender(a) && IsGender(b) && a != b
    ensures GenderLabel(a) != GenderLabel(b)
  {
  }

  /** The enumeration lists exactly the valid genders, once each. */
  lemma GendersAreTheEnum(g: int)
    ensures g in Genders <==> IsGender(g)
    ensures forall i, j :: 0 <= i < j < |Genders| ==> Genders[i] != Genders[j]
  {
  }
}
